=== FILE: README.md ===
# URL security proxy: a Dafny model of its core

This project models the core of a URL-security system, written in Python and C, and proves properties of the model in Dafny. The system has four parts:

- **A lexical rule engine.** `validate_url` starts a URL at score 1.0 and subtracts a fixed weight for each risk signal it finds. It then clamps the score, rounds it, and maps it to SAFE, MODERATE RISK or DANGEROUS.
- **A classifier adapter.** `predict_url` turns the top class and confidence of a neural classifier into a prediction, a score, a result flag and an explanation. An allowlist of trusted hosts short-circuits the classifier.
- **A line protocol.** The script `url_checker.py` prints `KEY: value` lines and chooses an exit code. The C proxy captures those lines and parses them back (`extract_value`, `check_url_security`) into a result record that decides whether a request is blocked.
- **A caching HTTP proxy.**
  - `Cache.c` keeps responses in a doubly-linked list ordered by a Greedy-Dual-Size-Frequency score.
  - `FetchResCache` parses the request line, splits host and path, and serves a hit or fetches, stores and returns a miss.

The corpus generators that feed the classifier are modelled too: `URLGenerator` and the four template generators of `train_model.py`.

Modules, one file each:

| module | file | models |
|---|---|---|
| `StrUtil` | strutil.dfy | Shared string operations (Python `split`, `join`, `lower`, `str(int)`, C truncation). |
| `UrlValidator` | url_validator.dfy | `validate_url`, with the score in integer hundredths. |
| `PredictUrl` | predict_url.dfy | `predict_url` after inference. |
| `UrlChecker` | url_checker.dfy | `check_url`, `main` and the import-failure block of url_checker.py. |
| `UrlSecurity` | url_security.dfy | `extract_value`, `check_url_security`, `get_block_page_html`. |
| `CheckerProtocol` | protocol.dfy | The round trip from the lines the script prints to the record the proxy fills. |
| `GdsfCache` | cache.dfy | The cache: the classes `CacheEntry` and `OptimisedCache` over real linked nodes, specified by functions on the sequence of entries. |
| `ClientToServer` | client_to_server.dfy | `FetchResCache`. |
| `UrlGenerator` | url_generator.dfy | `URLGenerator`. |
| `Corpus` | train_model.dfy | `generate_benign_urls`, `generate_malicious_urls`, `generate_edge_case_urls`, `generate_not_a_url_samples`. |

`ValidateUrl` runs the sections `ScanHead`, `ScanAll` and `Finish`. These are internal steps with no counterpart of their own in the source.

Modelling choices:

- Randomness becomes explicit draw records. Each generator is a function of the choices `random` would have made, so its output is a deterministic function of the draws.
- Library parsing becomes an input: `urlparse`, `tldextract`, `parse_qs`. So does the classifier's output.
- `inet_aton`, the entropy test and regular expressions that are not alternations of literals become oracles. Each oracle is consulted only where a necessary condition already holds: a leading digit for `inet_aton`; at least 23 distinct characters for entropy above 4.5; the literals every match must contain for a regex.
- C `long double` cache scores are `real`.
- C character buffers are strings with their size limits written out.

## Model

| member | source | states |
|---|---|---|
| UrlValidator.FirstMatch | url_validator.py:74-78 | The index found is that of a matching pattern with no earlier pattern matching; None only when no pattern of the list matches. |
| UrlValidator.Distinct | url_validator.py:32 | `dict.fromkeys(list(text))` keeps exactly the characters of the text, each once: no character repeats, and there are never more of them than the text has. |
| UrlValidator.StripDots | url_validator.py:57 | `strip(".")` is the slice of the text between its leading and its trailing dots: everything before and after the slice is a dot, and the slice has no dot at either end. |
| UrlValidator.Weight | url_validator.py:52-115 | Every deduction is 0.05, 0.1, 0.2 or 0.3 (5, 10, 20 or 30 hundredths). |
| UrlValidator.Reasons | url_validator.py:45-115 | There is exactly one reason per signal. |
| UrlValidator.Clamp | url_validator.py:118 | The final score lies in [0, 1]; a raw score already in range is kept; a negative one becomes 0. |
| UrlValidator.Step | url_validator.py:52-115 | One more signal adds its weight to the total and appends its own reason at the end. |
| UrlValidator.ScanPatterns | url_validator.py:74-78 | The loop with `break` returns the first matching pattern, as FirstMatch specifies. |
| UrlValidator.Deduct | url_validator.py:52-53 | Subtracting a weight and appending a reason keeps score = 100 − total weight and reasons = the reasons of the signals so far. |
| UrlValidator.Flag | url_validator.py:51-53 | A conditional deduction adds the signal exactly when its condition holds, keeping the same invariant. |
| UrlValidator.ScanDomain | url_validator.py:55-70 | The domain section adds, in order, the IP-host, suspicious-TLD and domain-keyword signals, and keeps the invariant. |
| UrlValidator.ScanPath | url_validator.py:72-86 | The path section adds, in order, at most one pattern signal, then the long-path and high-entropy signals. |
| UrlValidator.ScanRedirects | url_validator.py:99-102 | The loop over a redirect key's values adds one signal per value naming a suspicious domain. |
| UrlValidator.ScanItem | url_validator.py:90-102 | One query item adds its first matching pattern, then its redirect signals when the key looks like a redirect. |
| UrlValidator.ScanQuery | url_validator.py:88-102 | The loop over the query items adds the signals of each item in order. |
| UrlValidator.ScanStructure | url_validator.py:104-115 | The structure section adds the long-URL, high-entropy and "//" signals. |
| UrlValidator.ValidateUrl | url_validator.py:44-131 | When `urlparse` and `inet_aton` do not raise, returns the input URL unchanged, the reasons of all signals in order, the clamped score 100 − total, and the category of that score. |
| UrlValidator.TotalAppend | url_validator.py:45-115 | Weights add up across concatenated signal lists. |
| UrlValidator.TotalZero | url_validator.py:45-115 | The total deduction is 0 exactly when no signal was found. |
| UrlValidator.MoreSignalsNoSafer | url_validator.py:45-124 | A further signal never raises the final score: it lowers it while the score is above 0, and never gives a safer category. |
| UrlValidator.CategoryMonotone | url_validator.py:119-124 | A lower score never gets a safer category. |
| UrlValidator.QueryItemAlwaysFlagged | url_validator.py:89-96 | Every query item yields a pattern signal first: the tested `key=value` text always contains "=". That signal is the quote/comment pattern or the "=" pattern. |
| UrlValidator.QueryCost | url_validator.py:89-102 | Every query item costs at least 0.2; the query adds no signal exactly when it has no item. |
| UrlValidator.RedirectUncapped | url_validator.py:98-102 | A redirect-like key costs 0.2 per value naming a suspicious domain, with no cap per key. |
| UrlValidator.PathPatternFirstWins | url_validator.py:73-78 | The path gives at most one pattern signal, and it comes first. It is present exactly when some pattern matches the lower-cased path, and it names the first one that does. |
| UrlValidator.PerfectScore | url_validator.py:45-131 | The score is 1.0 exactly when the URL is https, has a non-IP host, no suspicious TLD or keyword, no path pattern, no query, short low-entropy path and URL, and at most two "//". The reasons are then empty and the category SAFE. |
| UrlValidator.ExampleSecureSite | url_validator.py:45-131 | `https://example.com/home` gets no signal, score 1.0, category SAFE, for every entropy computation. |
| UrlValidator.ExampleIpHost | url_validator.py:50-124 | `http://192.168.1.1/admin` gets exactly the insecure-scheme and IP-host signals and the category MODERATE RISK, for every entropy computation. |
| UrlValidator.InsecureIpScore | url_validator.py:118-124 | Those two signals give 0.6, MODERATE RISK, with their two reasons in order. |
| UrlValidator.DomainOnlyIp | url_validator.py:55-70 | A host without a suspicious TLD or keyword gives at most the IP-host signal. |
| UrlValidator.CleanPath | url_validator.py:72-86 | A short lower-case path without the characters the patterns need gives no path signal. |
| UrlValidator.CleanStructure | url_validator.py:104-115 | A URL `scheme://host/rest` with no other slash, at most 200 characters and no high-entropy signal gives no structure signal. |
| UrlValidator.FewDistinct | url_validator.py:109 | A text drawn from fewer than 23 distinct characters never gets the high-entropy signal, whatever the entropy computation gives. |
| PredictUrl.Warning | predict_url.py:68-71 | The warning is set exactly when netloc or scheme is empty, and is then the fixed warning text. |
| PredictUrl.Score | predict_url.py:95-102 | not_a_url scores 1 and benign 0. Any other class scores at least 0.1: exactly 0.1 for a confidence up to 0.105, and otherwise the hundredth nearest the confidence. |
| PredictUrl.RoundHundredths | predict_url.py:102 | `round(x, 2)` is the nearest hundredth, ties going to the even one. |
| PredictUrl.PredictUrl | predict_url.py:48-112 | `result` is 0 exactly when the prediction is "benign", else 1. An allowlisted netloc gives the fixed trusted answer; otherwise the prediction is the top class and the score is the class's score for its confidence (1 for not_a_url). |
| PredictUrl.AllowlistShortCircuit | predict_url.py:54-65 | For an allowlisted netloc the classifier's output does not matter; score and result are 0. |
| PredictUrl.PortOrUserinfoNotAllowlisted | predict_url.py:55-59 | Matching is exact membership of the lower-cased netloc, so a netloc with a port or userinfo is never allowlisted. |
| PredictUrl.GoogleTrusted | predict_url.py:55-59 | `WWW.Google.com` is allowlisted: the netloc is lower-cased before the test. |
| PredictUrl.ExplanationPriority | predict_url.py:85-93 | The not_a_url message wins, then the edge_case message, then the validity warning; otherwise there is no explanation. |
| PredictUrl.ThreatScoreFloor | predict_url.py:95-102 | A class other than benign and not_a_url never scores below 0.1. It scores exactly 0.1 for a confidence up to 0.105, and round(conf1, 2) from 0.105 upward. |
| PredictUrl.ScoreInRange | predict_url.py:96-102 | A confidence in [0, 1] gives a score in [0, 1]. |
| PredictUrl.IgnoresRunnerUp | predict_url.py:78-112 | The runner-up class and confidence never change the answer. |
| UrlChecker.IntText | url-security-middleware/url_checker.py:32 | `str` of an integer is a non-empty run of digits and a sign. |
| UrlChecker.ScoreText | url-security-middleware/url_checker.py:31 | The printed score is made of digits, a sign and a point. It has a point exactly when the score is a `float` (neither not_a_url nor benign). Read back, a `float` text gives the score in hundredths, and an `int` text gives the score in units. |
| UrlChecker.CheckUrl | url-security-middleware/url_checker.py:25-42 | Prints at least four lines, opening with `URL:` and closing with `SUCCESS: true` or `SUCCESS: false`. Returns the prediction's result, or 0 when prediction raised. |
| UrlChecker.Main | url-security-middleware/url_checker.py:44-57 | A wrong argument count prints the usage lines and exits 1; otherwise the exit code is 1 exactly when `check_url` returned 1. |
| UrlChecker.ExplanationLine | url-security-middleware/url_checker.py:29-35 | The `EXPLANATION:` line is printed exactly when the explanation is truthy, between `RESULT:` and `SUCCESS: true`. |
| UrlChecker.Script | url-security-middleware/url_checker.py:14-23 | A working import runs `main`. A failed import prints the fixed four-line block and exits 1. Any other exception raised by the import ends the script with no output and exit code 1. |
| UrlChecker.ExactlyOneResult | url-security-middleware/url_checker.py:14-57 | Every way the script ends (import failure, usage error, success, exception) prints exactly one `RESULT:` line, except an import that crashes with another exception, which prints nothing. |
| UrlChecker.CheckUrlOneResult | url-security-middleware/url_checker.py:25-42 | Both branches of `check_url` print exactly one `RESULT:` line. |
| UrlChecker.ExitCodeRule | url-security-middleware/url_checker.py:50-57 | The exit code is 1 exactly when the prediction returned result 1, so internal errors exit 0. |
| UrlSecurity.Pattern | proxy/UrlSecurity.c:11-12 | The search pattern fits its 128-byte buffer and is `key: ` when the key is short enough. |
| UrlSecurity.LineLength | proxy/UrlSecurity.c:19-20 | The line ends at the first newline or at the end of the text. |
| UrlSecurity.ValueOf | proxy/UrlSecurity.c:25-32 | The copied value holds no newline and fits the buffer with its NUL. |
| UrlSecurity.ScanNone | proxy/UrlSecurity.c:10-44 | `extract_value` fails exactly when no line starts with the pattern. |
| UrlSecurity.ScanFirst | proxy/UrlSecurity.c:10-44 | When a line starts with the pattern, the value comes from the first such line. |
| UrlSecurity.ExtractValue | proxy/UrlSecurity.c:10-44 | The pointer walk over the lines returns what the line-by-line specification Extract gives. |
| UrlSecurity.CopyValue | proxy/UrlSecurity.c:25-33 | The copy loop yields the rest of the matched line, cut to `buffer_size` − 1 characters. |
| UrlSecurity.Accumulated | proxy/UrlSecurity.c:76-86 | The captured output always stays under 2048 bytes. |
| UrlSecurity.ReadOutput | proxy/UrlSecurity.c:75-86 | The read loop skips a chunk that does not fit and may still append later ones, as Accumulated specifies. |
| UrlSecurity.FgetsChunks | proxy/UrlSecurity.c:80 | Every chunk `fgets` returns is non-empty and shorter than its 1024-byte buffer. |
| UrlSecurity.ChunksRejoin | proxy/UrlSecurity.c:80 | The chunks put back together are the text read. |
| UrlSecurity.ShortOutputKept | proxy/UrlSecurity.c:80-86 | Chunks whose total is under 2048 bytes are all kept. |
| UrlSecurity.CapturedExactly | proxy/UrlSecurity.c:75-86 | Output shorter than 2048 bytes is captured exactly. |
| UrlSecurity.Atoi | proxy/UrlSecurity.c:110 | A text with nothing but white space, or whose first other character is not a sign or a digit, reads as 0. A negative value needs a "-" as that first character. |
| UrlSecurity.AtoiReadsInt | proxy/UrlSecurity.c:110 | `atoi` reads back any integer that Python's `str` printed. |
| UrlSecurity.Fill | proxy/UrlSecurity.c:109-129 | `is_safe` is 0 exactly when a RESULT value was found and reads as non-zero. The prediction, explanation and error are the found non-empty value cut to a prefix of 63, 255 and 255 characters (`strncpy` into size − 1), and stay empty when not found. The score is `atof` of the found non-empty SCORE text, and 0 otherwise. |
| UrlSecurity.SecurityResult.Clear | proxy/UrlSecurity.c:53-55 | The record is zeroed and `is_safe` set to 1. |
| UrlSecurity.SecurityResult.Parse | proxy/UrlSecurity.c:97-129 | A cleared record is filled as Interpret specifies for the captured output. |
| UrlSecurity.Filled | proxy/UrlSecurity.c:57-73 | A missing script or a failed `popen` leaves the URL safe, with an error message. |
| UrlSecurity.CheckUrlSecurity | proxy/UrlSecurity.c:48-135 | A NULL url or result gives −1. Otherwise the result is cleared, then filled from the captured output, or given the error when the script or the pipe fails. |
| UrlSecurity.FailOpen | proxy/UrlSecurity.c:97-113 | Output with no `RESULT: ` line leaves the URL safe. |
| UrlSecurity.BlockPageReason | proxy/UrlSecurity.c:162-194 | The block page shows the given reason, or "Unknown threat detected" when there is none, between the fixed head and tail. |
| UrlSecurity.Page | proxy/UrlSecurity.c:163-165 | `snprintf` into 4096 bytes keeps a prefix of at most 4095 bytes. |
| CheckerProtocol.ScanOutput | proxy/UrlSecurity.c:10-44 | Scanning printed output for a pattern finds the first printed line that carries it. |
| CheckerProtocol.SuccessShape | url-security-middleware/url_checker.py:29-35 | The success output is exactly `URL:`, `PREDICTION:`, `SCORE:`, `RESULT:`, an optional `EXPLANATION:`, then `SUCCESS: true`. |
| CheckerProtocol.SuccessResult | url-security-middleware/url_checker.py:29-32 | The proxy's `RESULT` lookup on the success output yields exactly the printed result. |
| CheckerProtocol.SuccessRecord | url-security-middleware/url_checker.py:29-35 | For a one-line URL, a success output that fits gives `is_safe` = (result = 0). It also gives the prediction, the score text and the explanation, each cut to its field. |
| CheckerProtocol.FailureShape | url-security-middleware/url_checker.py:37-42 | On an exception the script prints `URL:`, `ERROR:`, `RESULT: 0`, `SUCCESS: false`. |
| CheckerProtocol.FailureRecord | url-security-middleware/url_checker.py:37-42 | The proxy reads that as safe, with the error message. |
| CheckerProtocol.UsageRecord | url-security-middleware/url_checker.py:45-48 | The usage error reads as safe, with the usage message. |
| CheckerProtocol.ImportFailureRecord | url-security-middleware/url_checker.py:17-23 | The import failure reads as safe, prediction "unknown", with its message. |
| CheckerProtocol.CaptureReadsLines | proxy/UrlSecurity.c:75-129 | Printed one-line fields that fit 2048 bytes are read back field by field, as the first line carrying each key gives them. |
| CheckerProtocol.CrashRecord | url-security-middleware/url_checker.py:14-17 | A script that dies in the import prints nothing, and the proxy reads that as safe with every field empty. |
| CheckerProtocol.ProxyVerdict | url-security-middleware/url_checker.py:14-57 | The proxy marks a URL unsafe exactly when the import worked, one argument was given, and the prediction returned result 1. A failed or crashing import, a usage error or an exception all leave it safe. |
| CheckerProtocol.PredictionOneLine | predict_url.py:60-112 | No prediction text or explanation holds a newline. |
| CheckerProtocol.BlockedExactlyThreats | predict_url.py:54-112 | From classifier to proxy: a URL is blocked exactly when its netloc is not allowlisted and the top class is not benign. |
| GdsfCache.FirstBelow | proxy/Cache.c:48-51 | The slot found follows every entry scoring at least the new score and precedes the first that scores less. |
| GdsfCache.Find | proxy/Cache.c:73-74 | The position found is the first entry whose url and path both match; None when none matches. |
| GdsfCache.PlacedSplits | proxy/Cache.c:22-56 | An entry is inserted after every entry with a greater-or-equal score and before the rest, and the others keep their order. |
| GdsfCache.PlacedSorted | proxy/Cache.c:22-56 | Insertion by score keeps the list non-increasing and adds exactly the one entry. |
| GdsfCache.RemoveAtSorted | proxy/Cache.c:9-20 | Removing an entry keeps the list sorted and loses only that entry. |
| GdsfCache.HitKeepsOrder | proxy/Cache.c:76-82 | A hit keeps the list sorted and its length; only the hit entry changes, bumped and rescored. |
| GdsfCache.InsertKeepsBound | proxy/Cache.c:126-136 | An insert keeps the list sorted and within the capacity. It grows by one exactly when the list was below capacity. |
| GdsfCache.VictimIsLowest | proxy/Cache.c:129-135 | The evicted tail scores no more than any entry that stays. |
| GdsfCache.NewEntryEvicted | proxy/Cache.c:126-136 | In a full cache a new entry scoring below all others is itself evicted, leaving the list unchanged. |
| GdsfCache.CacheEntry.constructor | proxy/Cache.c:107-123 | A new node holds the key cut to 255 characters, frequency 1 and score latency/size, and has no links. |
| GdsfCache.OptimisedCache.constructor | proxy/Cache.c:58-70 | `createcache`: an empty list, size 0, both counters 0, the given capacity. |
| GdsfCache.OptimisedCache.Unlink | proxy/Cache.c:9-20 | The pointer writes of `removeEntry` take out exactly the node, fixing head and tail. |
| GdsfCache.OptimisedCache.RemoveEntry | proxy/Cache.c:9-20 | `removeEntry` removes exactly that entry from the contents and keeps the rest in order. |
| GdsfCache.OptimisedCache.FindSlot | proxy/Cache.c:23-51 | The head, tail and middle cases, and the loop, find the neighbours of the slot that keeps the list sorted. |
| GdsfCache.OptimisedCache.Splice | proxy/Cache.c:23-55 | The node is linked in between those neighbours. |
| GdsfCache.OptimisedCache.InsertByScore | proxy/Cache.c:22-56 | `insertByScore` makes the contents exactly the score-ordered placement of the entry. |
| GdsfCache.OptimisedCache.Search | proxy/Cache.c:73-74 | The walk from the head finds the first entry with that url and path. |
| GdsfCache.OptimisedCache.Rescore | proxy/Cache.c:77-78 | The hit entry's frequency rises by one and its score becomes frequency × latency / size. |
| GdsfCache.OptimisedCache.Promote | proxy/Cache.c:77-82 | Rescore, remove and reinsert give the specified hit list and keep the cache valid. |
| GdsfCache.OptimisedCache.ServeHit | proxy/Cache.c:76-83 | A hit is counted once and promoted. |
| GdsfCache.OptimisedCache.CountMiss | proxy/Cache.c:86 | A miss only raises the miss counter. |
| GdsfCache.OptimisedCache.Lookup | proxy/Cache.c:72-88 | `lookupcache` finds exactly the first matching entry. A hit bumps, rescores and repositions it and raises the hit counter; a miss raises only the miss counter. |
| GdsfCache.OptimisedCache.Enter | proxy/Cache.c:126-127 | The node is placed by score and `size` still counts the nodes. |
| GdsfCache.OptimisedCache.EvictTail | proxy/Cache.c:130-135 | The tail is dropped and `size` still counts the nodes. |
| GdsfCache.OptimisedCache.Insert | proxy/Cache.c:90-137 | Any NULL argument or a size ≤ 0 changes nothing. Otherwise the contents become the placed new entry, without deduplication, and the tail is evicted when over capacity. The cache stays sorted and within capacity. |
| ClientToServer.CString | proxy/ClientToServer.c:20 | What C sees of a buffer is a prefix ending before the first NUL. |
| ClientToServer.ScanWord | proxy/ClientToServer.c:20 | `%Ns` skips white space and takes a non-empty word of at most N characters; it fails only on an all-space rest. |
| ClientToServer.ScanRequest | proxy/ClientToServer.c:19-20 | A scanned request line has words of at most 15, 511 and 15 characters. |
| ClientToServer.ScanWellFormed | proxy/ClientToServer.c:19-20 | Three space-separated words within those limits scan back as themselves. |
| ClientToServer.MissingProtocol | proxy/ClientToServer.c:20-26 | A line with only a method and a target does not scan. |
| ClientToServer.Accepted | proxy/ClientToServer.c:20-33 | A request is served exactly when it scans and its method is exactly "GET". |
| ClientToServer.OnlyGet | proxy/ClientToServer.c:27-33 | Any other method, "get" included, is refused. |
| ClientToServer.StripSchemeSuffix | proxy/ClientToServer.c:37-43 | What is split is the target without an "https://" or "http://" prefix, or the whole target. |
| ClientToServer.SchemeCaseSensitive | proxy/ClientToServer.c:37-43 | An upper-case scheme is not stripped. |
| ClientToServer.RunUntil | proxy/ClientToServer.c:38 | `%N[^c]` takes the longest run without `c`, of at most N characters. |
| ClientToServer.SplitUrl | proxy/ClientToServer.c:36-44 | With the path width corrected to 254 (see Findings), the path always starts with "/" and fits its 256-byte buffer. A host, when scanned, is 1 to 255 characters without "/". As written, a long path overflows; PathOverflows shows it. |
| ClientToServer.SplitHostPath | proxy/ClientToServer.c:36-44 | `scheme://host/path` splits back into the host and "/path"; with nothing after the host the path is "/". |
| ClientToServer.LongHostLosesPath | proxy/ClientToServer.c:38-40 | A host longer than 255 characters is cut, and the path falls back to "/". |
| ClientToServer.NoHost | proxy/ClientToServer.c:38-42 | A target with "/" right after the scheme scans no host. |
| ClientToServer.PathOverflows | proxy/ClientToServer.c:36-40 | As written, a path of 255 characters overruns the buffer, and its cached copy never matches the same request again. |
| ClientToServer.KeyKept | proxy/Cache.c:114-117 | An entry stored for a split key keeps that host and path. |
| ClientToServer.LookupOrFetch | proxy/ClientToServer.c:49-72 | The hit/miss flow gives the reply and cache contents Answered specifies, and counts one hit or one miss. |
| ClientToServer.Store | proxy/ClientToServer.c:61-72 | On a miss the fetch is stored when usable and returned either way. |
| ClientToServer.FetchResCache | proxy/ClientToServer.c:12-73 | The whole request path gives the reply, contents and counters Serve specifies. |
| ClientToServer.RejectedUntouched | proxy/ClientToServer.c:19-33 | A request that does not scan or is not GET gets no response, size 0, latency 0, and leaves the cache untouched. |
| ClientToServer.OneLookup | proxy/Cache.c:76-86 | An accepted request counts exactly one hit or one miss. |
| ClientToServer.HitServesCopy | proxy/ClientToServer.c:49-57 | A hit returns the cached response up to its first NUL, its size, and latency 0, whatever the origin would answer. |
| ClientToServer.FailedFetchNotStored | proxy/ClientToServer.c:61-67 | A failed fetch gives no response and latency 0, and stores nothing. |
| ClientToServer.FetchStored | proxy/ClientToServer.c:69-72 | A usable fetch is returned and inserted with exactly the fetched values. |
| ClientToServer.RepeatHits | proxy/ClientToServer.c:36-72 | With room in the cache, a request that was fetched and stored is a hit the next time. |
| UrlGenerator.RandomQuery | url_generator.py:40-45 | `_random_query`: "?" and the `urlencode` of the dict the draws build. Its properties are stated by DictKeys, DictValues and DictMeaning (the dict) and SafeQueryPlain (the encoding). |
| UrlGenerator.ValidUrl | url_generator.py:47-54 | `generate_valid_url` as a function of its draws. ValidUrlShape states its shape and that its query splits back into the drawn pairs. |
| UrlGenerator.Host | url_generator.py:58-62 | The host of `generate_invalid_url`: four dotted numbers or a suspicious domain and TLD. IpHostReadsBack and NamedHostReadsBack state that each reads back. |
| UrlGenerator.InvalidPath | url_generator.py:64-72 | "/" and the stripped payload, then optionally "/" and the junk. JunkLast states the junk ending; StripWith states the strip. |
| UrlGenerator.InvalidQuery | url_generator.py:74-80 | "?" and the one-pair encoded query. OnePair and OneQueryKey state its single key and escaped value. |
| UrlGenerator.InvalidUrl | url_generator.py:56-82 | `generate_invalid_url` as a function of its draws. InvalidScheme, IpHostReadsBack, NamedHostReadsBack, JunkLast and OneQueryKey state its parts. |
| UrlGenerator.AlnumText | url_generator.py:71 | The junk has the drawn length and only letters and digits. |
| StrUtil.StripWith | url_generator.py:67 | `strip()` (with Python's white space as the set) returns the slice between the leading and trailing runs of the set: everything outside the slice is in the set, and neither end of the slice is. |
| StrUtil.StripKeepsTrimmed | url_generator.py:67 | Text with none of the set at its ends is kept whole. |
| UrlGenerator.HexDigit | url_generator.py:45 | Each escape digit is an upper-case hexadecimal digit that reads back as its value. |
| UrlGenerator.Utf8 | url_generator.py:45 | A character becomes 1 to 4 bytes; an ASCII character becomes itself. |
| UrlGenerator.Escapes | url_generator.py:45 | Each byte becomes `%XX`: three characters, a percent sign and two hex digits. |
| UrlGenerator.QuotePlus | url_generator.py:45 | `quote_plus` output holds only unreserved characters, "+" and "%". |
| UrlGenerator.QuoteRoundTrip | url_generator.py:45 | `unquote_plus` undoes `quote_plus` on ASCII text. |
| UrlGenerator.QuoteKeepsUnreserved | url_generator.py:45 | Text of unreserved characters is not escaped. |
| UrlGenerator.PutMeaning | url_generator.py:41-44 | Storing a key in a dict keeps keys distinct; it replaces the value of an existing key in place, or appends a new pair at the end. |
| UrlGenerator.DictKeys | url_generator.py:41-44 | The query has distinct keys, at most one per draw, at least one, and every drawn key. |
| UrlGenerator.DictValues | url_generator.py:41-44 | Each key holds the value of the last draw of that key. |
| UrlGenerator.DictMeaning | url_generator.py:40-45 | `_random_query`'s dict: distinct keys, every drawn key present, each with its last drawn value, no more pairs than draws. |
| UrlGenerator.SafeQueryPlain | url_generator.py:40-45 | A query of safe keys and values is encoded without any escape. |
| UrlGenerator.ValidUrlShape | url_generator.py:47-54 | A valid URL is "https://" + listed subdomain + safe domain + safe path + "?" + "&"-joined `k=v` pairs. It has 1 to 3 distinct listed keys and listed values, and splitting at "&" gives the pairs back. |
| UrlGenerator.InvalidScheme | url_generator.py:57-82 | An invalid URL starts with "http://" or "https://". |
| UrlGenerator.OctetsReadBack | url_generator.py:59 | Dot-joined decimal numbers split back into those numbers. |
| UrlGenerator.IpHostReadsBack | url_generator.py:58-62 | An IP host reads back as four numbers from 1 to 255. |
| UrlGenerator.NamedHostReadsBack | url_generator.py:58-62 | A named host splits into a listed suspicious domain and a listed suspicious TLD. |
| UrlGenerator.JunkLast | url_generator.py:69-72 | With junk, the path ends in "/" and 10 to 100 letters and digits. |
| UrlGenerator.OnePair | url_generator.py:75-80 | A one-pair dict with a plain key encodes as `key=` and the escaped value, with no "&" and no "?". |
| UrlGenerator.OneQueryKey | url_generator.py:74-80 | The invalid query holds exactly one pair whose key is one of q/search/input/url and whose value is the escaped payload; for ASCII payloads it decodes back. |
| Corpus.BenignUrl | train_model.py:42-50 | One round of `generate_benign_urls`: the valid URL, TLD-swapped when drawn, replaced by the IP URL when drawn. BenignRound, SwapTldMeaning, SwapDropsPathAndQuery and BenignIp state it. |
| Corpus.SwapRound | train_model.py:44-47 | The split-and-join swap loop gives SwapTld, which SwapTldMeaning characterises. |
| Corpus.MaliciousUrl | train_model.py:58-63 | One round of `generate_malicious_urls`. MaliciousRound, MaliciousSchemes, MaliciousWebScheme and SuffixJoinsValue state it. |
| Corpus.EdgeUrl | train_model.py:70-85 | One round of `generate_edge_case_urls`, by template. EdgeRound, EdgeIp, EdgePort and EdgePartial state it. |
| Corpus.NotAUrlSample | train_model.py:92-102 | One sample of `generate_not_a_url_samples`, by template. FixedLengthSamples, SentenceSample and SchemeOnlySample state it. |
| Corpus.DrawSample | train_model.py:93-101 | The template branches of one round give exactly NotAUrlSample of the draws. |
| Corpus.GenerateBenignUrls | train_model.py:36-52 | The set holds exactly the URLs of the rounds, at most one per round. |
| Corpus.BenignRound | train_model.py:42-50 | One round's URL is the specified benign URL of its draws. |
| Corpus.SwapTldMeaning | train_model.py:44-47 | The swap keeps the text before the last "." and appends the TLD, only when the URL has a "."; otherwise the URL is kept. |
| Corpus.Origin | train_model.py:42 | The scheme, subdomain and domain of a valid URL hold a "." and no "?". |
| Corpus.ValidTailDotless | url_generator.py:40-54 | After the domain a valid URL has no ".". |
| Corpus.SwapDropsPathAndQuery | train_model.py:42-47 | The last "." of a valid URL lies in its domain, so a swap drops the path and query along with the old TLD. |
| Corpus.BenignIp | train_model.py:49-50 | The IP override ignores every other draw; its four numbers read back from between "http://" and "/home". |
| Corpus.GenerateMaliciousUrls | train_model.py:54-65 | The set holds exactly the URLs of the rounds, at most one per round. |
| Corpus.MaliciousRound | train_model.py:58-63 | One round's URL is the specified malicious URL of its draws. |
| Corpus.MaliciousSchemes | train_model.py:62-63 | The ftp override ignores the generated URL and the svg suffix, and starts with "ftp://malicious-". |
| Corpus.MaliciousWebScheme | train_model.py:58-61 | Without the override the URL starts with "http://" or "https://". |
| Corpus.SuffixJoinsValue | train_model.py:60-61 | The svg suffix adds no "&", so the query stays one pair. Its first "=" still follows the key; the suffix ends up inside the value. |
| Corpus.GenerateEdgeCaseUrls | train_model.py:67-87 | The set holds exactly the URLs of the rounds, at most one per round. |
| Corpus.EdgeRound | train_model.py:70-85 | One round's URL is the specified template URL. |
| Corpus.EdgeIp | train_model.py:71-73 | The IP template reads back as four numbers from 1 to 255 after "http://". |
| Corpus.EdgePort | train_model.py:80-82 | The port template has its last ":" after the host, followed by the drawn port (1025 to 65535) up to "/". |
| Corpus.EdgePartial | train_model.py:83-85 | The partial template starts with "www." and has no scheme. |
| Corpus.GenerateNotAUrlSamples | train_model.py:89-103 | Exactly one sample per round, in order, each the specified template sample. |
| Corpus.FixedLengthSamples | train_model.py:92-99 | Templates 0 and 2 have exactly `length` characters, 8 to 40. Template 0 has letters and digits only; template 2 has no letters. |
| Corpus.SentenceSample | train_model.py:97 | Template 1 is 2 to 7 lower-case words of 2 to 8 letters joined by single spaces. Splitting at " " gives them back, and the text is 5 to 62 characters whatever `length` is. |
| Corpus.SchemeOnlySample | train_model.py:101 | Template 3 is "http://" and 1 to 5 lower-case letters: 8 to 12 characters whatever `length` is. |

## Left out

- **Scope.** The GUIs, sockets, threads, the accept loop, `FetchServer.c`, DNS, `MitmCert.c`, `CacheData.c`, the FastAPI service and its database, and the root `main.py` menu are not part of this model. They are I/O and concurrency.
- **Inference.** TensorFlow loading and inference in `predict_url` and all training code in `train_model.py` are left out; the top-two classes and confidences are inputs.
- **Library parsing.** `urlparse`, `tldextract` and `parse_qs` are inputs, so the `ValueError` that `urlparse` can raise is not modelled (see `UrlValidator.ValidateUrl` below). `inet_aton`, the Shannon entropy and the non-literal regular expressions are oracles, consulted only under the necessary conditions described above.
- **Floating point in the rule engine.** Floating-point subtraction is left out: scores are integer hundredths. Every weight is a multiple of 0.05, so the accumulated binary error stays far below 0.005, and `round(…, 2)` gives the exact hundredth.
- **Encoding.** Strings are sequences of characters, and C byte buffers are sequences of characters. Multi-byte UTF-8 in the captured output is not counted byte by byte.
- **Proxy side effects.** In `check_url_security`, building the command, running it, the `popen` shell quoting of the URL, and `pclose` are left out. The existence check and the pipe's success are parameters, and the captured output is the chunk sequence. The exit code of the script is ignored by the C code, and so by the model.
- **Output.** `log_url_check` is left out (file I/O), as are the `printf` and `stderr` messages of the proxy.
- `PredictUrl.RoundHundredths`: rounds the real value half to even, whereas Python rounds the binary double. The two can differ at decimal ties that are not exactly representable.
- `PredictUrl.PredictUrl`: the netloc is lower-cased in ASCII only; Python's `lower` also folds non-ASCII letters.
- `UrlValidator.ValidateUrl`: `lower()` and the `re.IGNORECASE` matching are ASCII-only in the model. Python's Unicode `lower()` can lengthen a text ("İ" becomes two code points), which changes the path and URL lengths the length signals test. `IGNORECASE` also matches "ſ" as "s", the Kelvin sign as "k" and "ı" as "i", so the model can miss a pattern signal for such input. The model also always returns a verdict, while `validate_url` raises `ValueError` in two cases. First, `urlparse(url)` (url_validator.py:48) raises it for a netloc with an unbalanced bracket such as `http://[x`. Second, `is_ip_address` (url_validator.py:36-41) catches only `socket.error`, and `inet_aton` raises `ValueError` for a host holding a NUL, such as the one in `http://1\x00/`. The parts are an input here and `inetAton` is a total oracle, so neither exception has a counterpart.
- `UrlValidator.ScanPath`: the path is lower-cased and matched in ASCII only, so a non-ASCII path can differ in length and in pattern matches from Python's, as for ValidateUrl.
- `UrlValidator.ScanItem`: the `key=value` text is matched case-insensitively in ASCII only; Unicode case folding under `IGNORECASE` is not modelled.
- `UrlValidator.PathPatternFirstWins`: "the lower-cased path" means the ASCII lower-casing, so the first match it names can differ from Python's for non-ASCII paths.
- `UrlValidator.PerfectScore`: its conditions use the ASCII lower-casing and matching, so for non-ASCII URLs the exact conditions for a score of 1.0 can differ from Python's.
- `UrlSecurity.Atoi`: overflow is not modelled. The model reads the digits as an unbounded integer, while glibc's `atoi("4294967296")` gives 0, so such a RESULT value reads as safe in C and unsafe in the model. The script only prints 0 or 1.
- `GdsfCache.OptimisedCache.Lookup`: the rescored hit is placed by exact real scores, with the same loss as Insert.
- `ClientToServer.SplitUrl`: uses the corrected path width 254, not the source's `%255[^\n]`, which overflows the path buffer (see Findings; `ClientToServer.PathOverflows` models the code as written).
- `ClientToServer.FetchResCache`:
  - It splits the target with the corrected `SplitUrl`, so it does not model the overflow of the code as written.
  - `reqsize` is unused in the source and is left out.
  - `FetchResServer` is an oracle returning an optional response, a size and a latency.
  - When no host is scanned (a target such as "/index"), the C `host` buffer is uninitialised; the model takes what it held as the parameter `stale`.
  - The test `path[0] == '\0'` at proxy/ClientToServer.c:44 can never hold and has no counterpart.
- `ClientToServer.HitServesCopy`: the reply is the response up to its first NUL, as `strdup` copies it, while `ressize` is the stored size. The model states both and does not reconcile them.
- `GdsfCache.OptimisedCache.Insert`:
  - The `long double` scores (declared at proxy/Headers.h:23, computed at proxy/Cache.c:78 and proxy/Cache.c:122, compared at proxy/Cache.c:29-51) are exact reals. Rounding can make unequal scores tie or equal ones differ, which changes where an entry is placed and which entry is evicted.
  - `malloc` failure is not modelled.
  - The stored response is the first `response_size` characters of the response (`memcpy`), with the fractional part of the size dropped.
- `freecache` is not modelled; memory release has no counterpart in Dafny.
- `UrlGenerator.QuoteRoundTrip`: proved for ASCII text only. `unquote_plus` is modelled for single-byte escapes, and the payload lists are ASCII.
- `Corpus.GenerateBenignUrls`, `Corpus.GenerateMaliciousUrls`, `Corpus.GenerateEdgeCaseUrls`: return the set. The order `list(urls)` gives it is Python's hash order and is not modelled.
- Seeding: `URLGenerator(seed=…)` reseeds the one shared generator, so draws of different generators interleave. The model takes each generator's draws as given.
- The base64 payload is written out as its encoded text, not computed by a model of base64.

## Findings

| source | as written | input that shows it | evidently intended | confidence | as-written member | corrected member |
|---|---|---|---|---|---|---|
| proxy/ClientToServer.c:36-42 | `%255[^\n]` writes up to 255 characters at `path + 1` of the 256-byte `path` buffer | `GET http://h/` followed by 255 characters and ` HTTP/1.1`: the path becomes 256 characters, its NUL lands one byte past the buffer, and the cached entry (cut to 255 characters) never matches the same request again | a width of 254, so that "/", the path and its NUL fit 256 bytes | high, not executed | ClientToServer.PathOverflows | ClientToServer.RepeatHits |

=== FILE: cache.dfy ===
/** The proxy's response cache (proxy/Cache.c): a doubly-linked list kept in
    non-increasing score order, a simplified Greedy-Dual-Size-Frequency
    policy. Scores (`long double` in C) are reals; only their order matters. */
module GdsfCache {
  import opened StrUtil

  /** The data fields of one `CacheEntry` (proxy/Headers.h), without links. */
  datatype Entry = Entry(url: string, path: string, response: string, responseSize: real,
                         frequency: int, latency: real, score: real)

  /** Length of the `url` and `path` fields without their terminating NUL. */
  const KeyMax: nat := 255

  // ---------------------------------------------------------------------
  // Value-level specification of the list operations

  /** Scores never increase from head to tail. */
  predicate Sorted(es: seq<Entry>)
  {
    forall i, j :: 0 <= i < j < |es| ==> es[i].score >= es[j].score
  }

  /** Every stored entry has a positive size, so its score is well defined. */
  predicate AllSized(es: seq<Entry>)
  {
    forall i :: 0 <= i < |es| ==> es[i].responseSize > 0.0
  }

  /** Index of the first entry scoring strictly below `x`, or `|es|`. */
  function FirstBelow(es: seq<Entry>, x: real): (k: nat)
    ensures k <= |es|
    ensures forall i :: 0 <= i < k ==> es[i].score >= x
    ensures k < |es| ==> es[k].score < x
  {
    if es == [] then 0 else if es[0].score < x then 0 else 1 + FirstBelow(es[1..], x)
  }

  /** Where `insertByScore` puts an entry scoring `x`: in front when it
      scores at least as much as the head, otherwise after every entry that
      scores at least `x`. */
  function InsertPos(es: seq<Entry>, x: real): (k: nat)
    ensures k <= |es|
  {
    if |es| == 0 || x >= es[0].score then 0 else FirstBelow(es, x)
  }

  /** `FirstBelow` is the only index with its two properties. */
  lemma {:induction false} FirstBelowIs(es: seq<Entry>, x: real, k: nat)
    requires k <= |es|
    requires forall i :: 0 <= i < k ==> es[i].score >= x
    requires k < |es| ==> es[k].score < x
    ensures FirstBelow(es, x) == k
  {
    if k > 0 {
      FirstBelowIs(es[1..], x, k - 1);
    }
  }

  function Placed(es: seq<Entry>, e: Entry): (r: seq<Entry>)
    ensures |r| == |es| + 1
  {
    var k := InsertPos(es, e.score);
    es[..k] + [e] + es[k..]
  }

  function RemoveAt(es: seq<Entry>, i: nat): (r: seq<Entry>)
    requires i < |es|
    ensures |r| == |es| - 1
  {
    es[..i] + es[i + 1..]
  }

  /** Position of the first entry whose url and path both equal the key. */
  function Find(es: seq<Entry>, url: string, path: string): (r: Option<nat>)
    ensures r.Some? ==> r.value < |es| && es[r.value].url == url && es[r.value].path == path
    ensures r.Some? ==> forall j :: 0 <= j < r.value ==> !(es[j].url == url && es[j].path == path)
    ensures r.None? ==> forall j :: 0 <= j < |es| ==> !(es[j].url == url && es[j].path == path)
  {
    if es == [] then None
    else if es[0].url == url && es[0].path == path then Some(0)
    else match Find(es[1..], url, path)
      case None => None
      case Some(k) => Some(k + 1)
  }

  /** The list after `lookupcache` for a key: unchanged on a miss, the
      found entry promoted on a hit. */
  function AfterLookup(es: seq<Entry>, url: string, path: string): seq<Entry>
    requires AllSized(es)
  {
    match Find(es, url, path)
    case None => es
    case Some(i) => Hit(es, i)
  }

  /** A hit: one more use, and the score `frequency * latency / size`. */
  function Bump(e: Entry): Entry
    requires e.responseSize > 0.0
  {
    e.(frequency := e.frequency + 1,
       score := ((e.frequency + 1) as real * e.latency) / e.responseSize)
  }

  /** The list after a hit on position `i`: taken out, rescored, placed again. */
  function Hit(es: seq<Entry>, i: nat): seq<Entry>
    requires i < |es| && es[i].responseSize > 0.0
  {
    Placed(RemoveAt(es, i), Bump(es[i]))
  }

  /** The entry `insertcache` builds: keys cut to 255 characters, one use. */
  function NewEntry(url: string, path: string, response: string, size: real, latency: real): Entry
    requires size > 0.0
  {
    Entry(Truncate(url, KeyMax), Truncate(path, KeyMax), Truncate(response, size.Floor as nat), size, 1, latency, latency / size)
  }

  /** Largest size the list may have: the capacity, or 0 when it is negative. */
  function Bound(capacity: int): nat
  {
    if capacity < 0 then 0 else capacity
  }

  /** The list after an insert: placed by score, then the tail is dropped
      when the list has grown past the capacity. */
  function AfterInsert(es: seq<Entry>, capacity: int, e: Entry): seq<Entry>
  {
    var l := Placed(es, e);
    if |l| > capacity then l[..|l| - 1] else l
  }

  // ---------------------------------------------------------------------
  // Properties of the specification

  /** The placed entry follows every entry that scores more and precedes
      every entry that scores less; the others keep their order. */
  lemma {:induction false} PlacedSplits(es: seq<Entry>, e: Entry)
    requires Sorted(es)
    ensures var k := InsertPos(es, e.score);
      && Placed(es, e) == es[..k] + [e] + es[k..]
      && (forall i :: 0 <= i < k ==> es[i].score >= e.score)
      && (forall i :: k <= i < |es| ==> es[i].score <= e.score)
  {
    var k := InsertPos(es, e.score);
    if |es| > 0 && e.score < es[0].score {
      forall i | k <= i < |es| ensures es[i].score <= e.score {
        assert es[k].score < e.score;
      }
    }
  }

  lemma {:induction false} PlacedSorted(es: seq<Entry>, e: Entry)
    requires Sorted(es)
    ensures Sorted(Placed(es, e))
    ensures multiset(Placed(es, e)) == multiset(es) + multiset{e}
  {
    PlacedSplits(es, e);
    var k := InsertPos(es, e.score);
    var r := Placed(es, e);
    forall i, j | 0 <= i < j < |r| ensures r[i].score >= r[j].score {
      if j < k {
        assert r[i] == es[i] && r[j] == es[j];
      } else if j == k {
        assert r[i] == es[i];
      } else if i < k {
        assert r[i] == es[i] && r[j] == es[j - 1];
      } else if i == k {
        assert r[j] == es[j - 1];
      } else {
        assert r[i] == es[i - 1] && r[j] == es[j - 1];
      }
    }
    calc {
      multiset(r);
      multiset(es[..k]) + multiset{e} + multiset(es[k..]);
      { assert es == es[..k] + es[k..]; }
      multiset(es) + multiset{e};
    }
  }

  lemma {:induction false} RemoveAtSorted(es: seq<Entry>, i: nat)
    requires i < |es| && Sorted(es)
    ensures Sorted(RemoveAt(es, i))
    ensures multiset(RemoveAt(es, i)) + multiset{es[i]} == multiset(es)
  {
    var r := RemoveAt(es, i);
    forall a, b | 0 <= a < b < |r| ensures r[a].score >= r[b].score {
      var a' := if a < i then a else a + 1;
      var b' := if b < i then b else b + 1;
      assert r[a] == es[a'] && r[b] == es[b'];
    }
    assert es == es[..i] + [es[i]] + es[i + 1..];
  }

  /** Placing an entry of positive size keeps every size positive. */
  lemma {:induction false} PlacedSized(es: seq<Entry>, e: Entry)
    requires AllSized(es) && e.responseSize > 0.0
    ensures AllSized(Placed(es, e))
  {
    var k := InsertPos(es, e.score);
    var r := Placed(es, e);
    forall j | 0 <= j < |r| ensures r[j].responseSize > 0.0 {
      if j < k {
        assert r[j] == es[j];
      } else if j > k {
        assert r[j] == es[j - 1];
      }
    }
  }

  /** A hit keeps the list sorted and its entries, only the hit one rescored. */
  lemma {:induction false} HitKeepsOrder(es: seq<Entry>, i: nat)
    requires i < |es| && Sorted(es) && AllSized(es)
    ensures Sorted(Hit(es, i)) && AllSized(Hit(es, i)) && |Hit(es, i)| == |es|
    ensures multiset(Hit(es, i)) == multiset(es) - multiset{es[i]} + multiset{Bump(es[i])}
  {
    var rest := RemoveAt(es, i);
    var b := Bump(es[i]);
    RemoveAtSorted(es, i);
    PlacedSorted(rest, b);
    assert AllSized(rest) by {
      forall j | 0 <= j < |rest| ensures rest[j].responseSize > 0.0 {
        assert rest[j] == es[if j < i then j else j + 1];
      }
    }
    PlacedSized(rest, b);
  }

  /** An insert keeps the list sorted, every size positive and the length
      within the capacity; it grows by one exactly when there was room. */
  lemma {:induction false} InsertKeepsBound(es: seq<Entry>, capacity: int, e: Entry)
    requires Sorted(es) && AllSized(es) && |es| <= Bound(capacity) && e.responseSize > 0.0
    ensures Sorted(AfterInsert(es, capacity, e)) && AllSized(AfterInsert(es, capacity, e))
    ensures |AfterInsert(es, capacity, e)| <= Bound(capacity)
    ensures |AfterInsert(es, capacity, e)| == if |es| < capacity then |es| + 1 else |es|
  {
    PlacedSorted(es, e);
    PlacedSized(es, e);
  }

  /** The evicted tail scores no more than any entry that stays. */
  lemma {:induction false} VictimIsLowest(es: seq<Entry>, capacity: int, e: Entry)
    requires Sorted(es) && |es| + 1 > capacity
    ensures var l := Placed(es, e);
      forall j :: 0 <= j < |l| - 1 ==> l[|l| - 1].score <= l[j].score
  {
    PlacedSorted(es, e);
  }

  /** When the list is full and the new entry scores below the tail and the
      head, the new entry itself is the victim and nothing changes. */
  lemma {:induction false} NewEntryEvicted(es: seq<Entry>, capacity: int, e: Entry)
    requires Sorted(es) && |es| > 0 && |es| == capacity
    requires e.score < es[0].score && e.score <= es[|es| - 1].score
    ensures AfterInsert(es, capacity, e) == es
  {
    assert forall i :: 0 <= i < |es| ==> es[i].score >= es[|es| - 1].score >= e.score;
    FirstBelowIs(es, e.score, |es|);
    assert Placed(es, e) == es + [e];
  }

  // ---------------------------------------------------------------------
  // The linked structure

  /** `CacheEntry` (proxy/Headers.h). The key, the response copy, its size
      and the latency are set once by `insertcache` and never written again,
      so they are constants here. */
  class CacheEntry {
    const url: string
    const path: string
    const response: string
    const responseSize: real
    const latency: real
    var frequency: int
    var score: real
    var next: CacheEntry?
    var prev: CacheEntry?

    /** The allocation and field set-up in `insertcache`: keys cut to 255
        characters, `response_size` bytes of the response copied. */
    constructor (url: string, path: string, response: string, responseSize: real, latency: real)
      requires responseSize > 0.0
      ensures Value() == NewEntry(url, path, response, responseSize, latency)
      ensures next == null && prev == null
    {
      this.url := Truncate(url, KeyMax);
      this.path := Truncate(path, KeyMax);
      this.response := Truncate(response, responseSize.Floor as nat);
      this.responseSize := responseSize;
      this.latency := latency;
      this.frequency := 1;
      this.score := latency / responseSize;
      this.next := null;
      this.prev := null;
    }

    /** The data of the entry; its links are not part of it. */
    ghost function Value(): Entry
      reads this`frequency, this`score
    {
      Entry(url, path, response, responseSize, frequency, latency, score)
    }
  }

  /** `optimisedcache`. `nodes` is the list from head to tail and
      `contents` the data of those nodes. */
  class OptimisedCache {
    var head: CacheEntry?
    var tail: CacheEntry?
    const capacity: int
    var size: int
    var hitCounter: nat
    var missCounter: nat
    ghost var nodes: seq<CacheEntry>
    ghost var contents: seq<Entry>
    /** Every node ever linked in; evicted nodes may stay here. */
    ghost var Repr: set<CacheEntry>

    /** The links spell out `nodes`: distinct nodes, head and tail at its
        ends, each `prev` and `next` pointing to its neighbours. */
    ghost predicate Linked()
      reads this`head, this`tail, this`nodes, this`Repr, Repr`next, Repr`prev
    {
      && (forall i :: 0 <= i < |nodes| ==> nodes[i] in Repr)
      && (forall i, j :: 0 <= i < j < |nodes| ==> nodes[i] != nodes[j])
      && (|nodes| == 0 ==> head == null && tail == null)
      && (|nodes| > 0 ==> head == nodes[0] && head.prev == null)
      && (|nodes| > 0 ==> tail == nodes[|nodes| - 1] && tail.next == null)
      && (forall i :: 0 < i < |nodes| ==> nodes[i].prev == nodes[i - 1])
      && (forall i :: 0 < i < |nodes| ==> nodes[i - 1].next == nodes[i])
    }

    /** `contents` is the data of the linked nodes, position by position. */
    ghost predicate Mirrors()
      reads this`contents, this`nodes, nodes`frequency, nodes`score
    {
      |contents| == |nodes| && forall i :: 0 <= i < |nodes| ==> contents[i] == nodes[i].Value()
    }

    /** The invariant of the cache between calls: the links spell out
        `nodes`, whose data is `contents`, sorted by score and within the
        capacity, with `size` counting the nodes. */
    ghost predicate Valid()
      reads this`head, this`tail, this`nodes, this`contents, this`Repr, this`size
      reads Repr`next, Repr`prev, Repr`frequency, Repr`score
    {
      && Linked() && Mirrors()
      && size == |nodes| && size <= Bound(capacity)
      && Sorted(contents) && AllSized(contents)
    }

    /** `createcache`: an empty list and zero counters. */
    constructor (capacity: int)
      ensures Valid() && fresh(this)
      ensures this.capacity == capacity && contents == []
      ensures size == 0 && hitCounter == 0 && missCounter == 0
    {
      this.capacity := capacity;
      size := 0;
      hitCounter := 0;
      missCounter := 0;
      head := null;
      tail := null;
      nodes := [];
      contents := [];
      Repr := {};
    }

    /** The links after `e` has been put at position `k` of `ns`. */
    lemma SplicedLinked(ns: seq<CacheEntry>, e: CacheEntry, k: nat)
      requires k <= |ns| && e !in ns && e in Repr
      requires forall i :: 0 <= i < |ns| ==> ns[i] in Repr
      requires forall i, j :: 0 <= i < j < |ns| ==> ns[i] != ns[j]
      requires nodes == ns[..k] + [e] + ns[k..]
      requires forall i :: 0 < i < |ns| && i != k ==> ns[i - 1].next == ns[i] && ns[i].prev == ns[i - 1]
      requires e.prev == (if k == 0 then null else ns[k - 1])
      requires e.next == (if k == |ns| then null else ns[k])
      requires k > 0 ==> ns[k - 1].next == e
      requires k < |ns| ==> ns[k].prev == e
      requires head == nodes[0] && head.prev == null && tail == nodes[|nodes| - 1] && tail.next == null
      ensures Linked()
    {
      forall i | 0 <= i < |nodes|
        ensures nodes[i] == if i < k then ns[i] else if i == k then e else ns[i - 1]
      {
      }
      forall i | 0 < i < |nodes|
        ensures nodes[i].prev == nodes[i - 1] && nodes[i - 1].next == nodes[i]
      {
        if i < k {
          assert nodes[i] == ns[i] && nodes[i - 1] == ns[i - 1];
        } else if i == k {
          assert nodes[i] == e && nodes[i - 1] == ns[k - 1];
        } else if i == k + 1 {
          assert nodes[i] == ns[k] && nodes[i - 1] == e;
        } else {
          assert nodes[i] == ns[i - 1] && nodes[i - 1] == ns[i - 2];
        }
      }
    }

    /** The links after position `k` of `ns` has been taken out. */
    lemma UnsplicedLinked(ns: seq<CacheEntry>, k: nat)
      requires k < |ns|
      requires forall i :: 0 <= i < |ns| ==> ns[i] in Repr
      requires forall i, j :: 0 <= i < j < |ns| ==> ns[i] != ns[j]
      requires nodes == ns[..k] + ns[k + 1..]
      requires forall i :: 0 < i < |ns| && i != k && i != k + 1 ==>
        ns[i - 1].next == ns[i] && ns[i].prev == ns[i - 1]
      requires 0 < k < |ns| - 1 ==> ns[k - 1].next == ns[k + 1] && ns[k + 1].prev == ns[k - 1]
      requires |nodes| == 0 ==> head == null && tail == null
      requires |nodes| > 0 ==>
        head == nodes[0] && head.prev == null && tail == nodes[|nodes| - 1] && tail.next == null
      ensures Linked()
    {
      forall i | 0 <= i < |nodes|
        ensures nodes[i] == if i < k then ns[i] else ns[i + 1]
      {
      }
      forall i | 0 < i < |nodes|
        ensures nodes[i].prev == nodes[i - 1] && nodes[i - 1].next == nodes[i]
      {
        if i < k {
          assert nodes[i] == ns[i] && nodes[i - 1] == ns[i - 1];
        } else if i == k {
          assert nodes[i] == ns[k + 1] && nodes[i - 1] == ns[k - 1];
        } else {
          assert nodes[i] == ns[i + 1] && nodes[i - 1] == ns[i];
        }
      }
    }

    /** `contents` after `e` has been put at position `k` of `ns`. */
    lemma SplicedMirrors(ns: seq<CacheEntry>, e: CacheEntry, k: nat)
      requires k <= |ns| && |contents| == |ns| + 1 && nodes == ns[..k] + [e] + ns[k..]
      requires contents[k] == e.Value()
      requires forall i :: 0 <= i < k ==> contents[i] == ns[i].Value()
      requires forall i :: k < i < |contents| ==> contents[i] == ns[i - 1].Value()
      ensures Mirrors()
    {
      forall i | 0 <= i < |nodes| ensures contents[i] == nodes[i].Value() {
        if i < k {
          assert nodes[i] == ns[i];
        } else if i > k {
          assert nodes[i] == ns[i - 1];
        }
      }
    }

    /** `contents` after position `k` of `ns` has been taken out. */
    lemma UnsplicedMirrors(ns: seq<CacheEntry>, k: nat)
      requires k < |ns| && |contents| == |ns| - 1 && nodes == ns[..k] + ns[k + 1..]
      requires forall i :: 0 <= i < k ==> contents[i] == ns[i].Value()
      requires forall i :: k <= i < |contents| ==> contents[i] == ns[i + 1].Value()
      ensures Mirrors()
    {
      forall i | 0 <= i < |nodes| ensures contents[i] == nodes[i].Value() {
        if i < k {
          assert nodes[i] == ns[i];
        } else {
          assert nodes[i] == ns[i + 1];
        }
      }
    }

    /** The pointer writes of `removeEntry`. */
    method Unlink(e: CacheEntry, ghost k: nat)
      requires Linked() && k < |nodes| && nodes[k] == e
      modifies this`head, this`tail, this`nodes, Repr`next, Repr`prev
      ensures nodes == old(nodes)[..k] + old(nodes)[k + 1..]
      ensures Linked()
    {
      ghost var ns := nodes;
      assert e.prev == (if k == 0 then null else ns[k - 1]);
      assert e.next == (if k == |ns| - 1 then null else ns[k + 1]);
      if e.prev != null {
        e.prev.next := e.next;
      } else {
        head := e.next;
      }
      if e.next != null {
        e.next.prev := e.prev;
      } else {
        tail := e.prev;
      }
      forall i | 0 < i < |ns| && i != k && i != k + 1
        ensures ns[i - 1].next == ns[i] && ns[i].prev == ns[i - 1]
      {
        assert k > 0 ==> ns[i - 1] != ns[k - 1];
        assert k < |ns| - 1 ==> ns[i] != ns[k + 1];
      }
      if 0 < k < |ns| - 1 {
        assert ns[0] != ns[k + 1] && ns[|ns| - 1] != ns[k - 1];
      }
      nodes := ns[..k] + ns[k + 1..];
      UnsplicedLinked(ns, k);
    }

    /** `removeEntry`: takes the node at position `k` out of the list,
        leaving its own links, its data and the counters alone. */
    method RemoveEntry(e: CacheEntry, ghost k: nat)
      requires Linked() && Mirrors() && k < |nodes| && nodes[k] == e
      modifies this`head, this`tail, this`nodes, this`contents, Repr`next, Repr`prev
      ensures nodes == old(nodes)[..k] + old(nodes)[k + 1..]
      ensures contents == RemoveAt(old(contents), k)
      ensures Linked() && Mirrors()
    {
      ghost var ns := nodes;
      Unlink(e, k);
      contents := RemoveAt(contents, k);
      UnsplicedMirrors(ns, k);
    }

    /** The pointer writes of `insertByScore`, shared by its branches: `e`
        goes between `pred` and `succ`, either of which may be a list end. */
    method Relink(e: CacheEntry, pred: CacheEntry?, succ: CacheEntry?, ghost k: nat)
      requires Linked() && e !in nodes && k <= |nodes|
      requires pred == (if k == 0 then null else nodes[k - 1])
      requires succ == (if k == |nodes| then null else nodes[k])
      modifies this`head, this`tail, this`nodes, this`Repr, Repr`next, Repr`prev, e`next, e`prev
      ensures nodes == old(nodes)[..k] + [e] + old(nodes)[k..] && Repr == old(Repr) + {e}
      ensures Linked()
    {
      ghost var ns := nodes;
      e.prev := pred;
      e.next := succ;
      if pred == null {
        head := e;
      } else {
        pred.next := e;
      }
      if succ == null {
        tail := e;
      } else {
        succ.prev := e;
      }
      forall i | 0 < i < |ns| && i != k
        ensures ns[i - 1].next == ns[i] && ns[i].prev == ns[i - 1]
      {
        assert ns[i] != e && ns[i - 1] != e;
        assert k > 0 ==> ns[i - 1] != ns[k - 1];
        assert k < |ns| ==> ns[i] != ns[k];
      }
      if 0 < k < |ns| {
        assert ns[0] != ns[k] && ns[|ns| - 1] != ns[k - 1];
      }
      nodes := ns[..k] + [e] + ns[k..];
      Repr := Repr + {e};
      SplicedLinked(ns, e, k);
    }

    /** The search in `insertByScore`: the neighbours `e` gets, found as the
        C branches find them (empty list, in front of the head, behind the
        tail, or a walk from the second node to the first one scoring below
        `e`). */
    method FindSlot(e: CacheEntry) returns (pred: CacheEntry?, succ: CacheEntry?, ghost k: nat)
      requires Linked() && Mirrors() && Sorted(contents)
      ensures k == InsertPos(contents, e.score)
      ensures pred == (if k == 0 then null else nodes[k - 1])
      ensures succ == (if k == |nodes| then null else nodes[k])
    {
      if head == null {
        k := 0;
        pred, succ := null, null;
      } else if e.score >= head.score {
        k := 0;
        pred, succ := null, head;
      } else if e.score <= tail.score {
        k := |nodes|;
        assert forall i :: 0 <= i < |nodes| ==> contents[i].score >= contents[|nodes| - 1].score;
        FirstBelowIs(contents, e.score, k);
        pred, succ := tail, null;
      } else {
        var cur := head.next;
        ghost var j := 1;
        while cur != null && cur.score >= e.score
          invariant 1 <= j < |nodes| && cur == nodes[j]
          invariant forall i :: 0 <= i < j ==> contents[i].score >= e.score
          decreases |nodes| - j
        {
          assert j + 1 < |nodes| by {
            assert contents[j].score >= e.score > contents[|nodes| - 1].score;
          }
          cur := cur.next;
          j := j + 1;
        }
        k := j;
        FirstBelowIs(contents, e.score, k);
        pred, succ := cur.prev, cur;
      }
    }

    /** `e` linked in between `pred` and `succ` at position `k`, its data
        entering `contents` at the same position. */
    method Splice(e: CacheEntry, pred: CacheEntry?, succ: CacheEntry?, ghost k: nat)
      requires Linked() && Mirrors() && e !in nodes && k <= |nodes|
      requires pred == (if k == 0 then null else nodes[k - 1])
      requires succ == (if k == |nodes| then null else nodes[k])
      modifies this`head, this`tail, this`nodes, this`contents, this`Repr, Repr`next, Repr`prev, e`next, e`prev
      ensures nodes == old(nodes)[..k] + [e] + old(nodes)[k..] && Repr == old(Repr) + {e}
      ensures contents == old(contents)[..k] + [e.Value()] + old(contents)[k..]
      ensures Linked() && Mirrors()
    {
      ghost var ns := nodes;
      Relink(e, pred, succ, k);
      contents := contents[..k] + [e.Value()] + contents[k..];
      SplicedMirrors(ns, e, k);
    }

    /** `insertByScore`: `e` goes behind every node scoring at least as
        much, or in front when it beats the head. */
    method InsertByScore(e: CacheEntry) returns (ghost k: nat)
      requires Linked() && Mirrors() && e !in nodes && Sorted(contents)
      modifies this`head, this`tail, this`nodes, this`contents, this`Repr, Repr`next, Repr`prev, e`next, e`prev
      ensures k == InsertPos(old(contents), e.score)
      ensures nodes == old(nodes)[..k] + [e] + old(nodes)[k..] && Repr == old(Repr) + {e}
      ensures contents == Placed(old(contents), e.Value())
      ensures Linked() && Mirrors()
    {
      var pred, succ;
      pred, succ, k := FindSlot(e);
      Splice(e, pred, succ, k);
    }

    /** The walk of `lookupcache`: the first node whose url and path both
        equal the key, and its position. */
    method Search(url: string, path: string) returns (e: CacheEntry?, ghost j: nat)
      requires Linked() && Mirrors()
      ensures e == null <==> Find(contents, url, path).None?
      ensures e != null ==> Find(contents, url, path) == Some(j) && j < |nodes| && e == nodes[j]
    {
      e := head;
      j := 0;
      while e != null
        invariant 0 <= j <= |nodes|
        invariant e == (if j < |nodes| then nodes[j] else null)
        invariant forall i :: 0 <= i < j ==> !(contents[i].url == url && contents[i].path == path)
        decreases |nodes| - j
      {
        if e.url == url && e.path == path {
          return;
        }
        e := e.next;
        j := j + 1;
      }
    }

    /** The hit update of `lookupcache`: one more use and a new score for the
        node at position `j`. */
    method Rescore(e: CacheEntry, ghost j: nat)
      requires Linked() && Mirrors() && j < |nodes| && nodes[j] == e && e.responseSize > 0.0
      modifies e`frequency, e`score, this`contents
      ensures contents == old(contents)[j := Bump(old(contents)[j])]
      ensures Linked() && Mirrors()
    {
      e.frequency := e.frequency + 1;
      e.score := (e.frequency as real * e.latency) / e.responseSize;
      contents := contents[j := Bump(contents[j])];
      forall i | 0 <= i < |nodes| && i != j ensures contents[i] == nodes[i].Value() {
        assert nodes[i] != e;
      }
    }

    /** The first half of a hit in `lookupcache`: the node at position `j`
        is rescored and unlinked. */
    method Detach(e: CacheEntry, ghost j: nat)
      requires Linked() && Mirrors() && AllSized(contents)
      requires j < |nodes| && nodes[j] == e
      modifies this`head, this`tail, this`nodes, this`contents
      modifies Repr`next, Repr`prev, e`frequency, e`score
      ensures Linked() && Mirrors() && e !in nodes && |nodes| == |old(nodes)| - 1
      ensures contents == RemoveAt(old(contents), j)
      ensures e.Value() == Bump(old(contents)[j])
    {
      ghost var ns := nodes;
      assert e.responseSize > 0.0 by {
        assert contents[j] == e.Value();
      }
      Rescore(e, j);
      RemoveEntry(e, j);
      assert e !in nodes by {
        assert forall i :: 0 <= i < |nodes| ==> nodes[i] == ns[if i < j then i else i + 1];
      }
    }

    /** What `lookupcache` does to a hit node at position `j`: rescored,
        taken out and placed again by its new score. */
    method Promote(e: CacheEntry, ghost j: nat)
      requires Valid() && j < |nodes| && nodes[j] == e
      modifies this`head, this`tail, this`nodes, this`contents, this`Repr
      modifies Repr`next, Repr`prev, e`frequency, e`score
      ensures Valid() && e in nodes
      ensures contents == Hit(old(contents), j)
    {
      ghost var cs := contents;
      Detach(e, j);
      RemoveAtSorted(cs, j);
      ghost var k := InsertByScore(e);
      HitKeepsOrder(cs, j);
    }

    /** The counting in `lookupcache` on a hit. */
    method CountHit()
      requires Valid()
      modifies this`hitCounter
      ensures Valid() && hitCounter == old(hitCounter) + 1
    {
      hitCounter := hitCounter + 1;
    }

    /** `lookupcache` on a hit at position `j`: counted, then promoted. */
    method ServeHit(e: CacheEntry, ghost j: nat)
      requires Valid() && j < |nodes| && nodes[j] == e
      modifies this`head, this`tail, this`nodes, this`contents, this`Repr, this`hitCounter
      modifies Repr`next, Repr`prev, e`frequency, e`score
      ensures Valid() && e in nodes
      ensures contents == Hit(old(contents), j)
      ensures hitCounter == old(hitCounter) + 1
    {
      CountHit();
      Promote(e, j);
    }

    /** The counting in `lookupcache` on a miss. */
    method CountMiss()
      requires Valid()
      modifies this`missCounter
      ensures Valid() && missCounter == old(missCounter) + 1
    {
      missCounter := missCounter + 1;
    }

    /** `lookupcache`: on a hit the node is promoted and the hit counter
        grows; otherwise the miss counter grows and nothing else changes. */
    method Lookup(url: string, path: string) returns (found: CacheEntry?)
      requires Valid()
      modifies this`head, this`tail, this`nodes, this`contents, this`Repr, this`hitCounter, this`missCounter
      modifies Repr`next, Repr`prev, Repr`frequency, Repr`score
      ensures Valid() && (found == null ==> Repr == old(Repr))
      ensures found == null <==> Find(old(contents), url, path).None?
      ensures found != null ==> found == old(nodes)[Find(old(contents), url, path).value] && found in nodes
      ensures contents == AfterLookup(old(contents), url, path)
      ensures hitCounter == old(hitCounter) + (if found == null then 0 else 1)
      ensures missCounter == old(missCounter) + (if found == null then 1 else 0)
    {
      ghost var j;
      found, j := Search(url, path);
      if found == null {
        CountMiss();
      } else {
        ServeHit(found, j);
      }
    }

    /** The first half of the list work of `insertcache`: the new node
        placed by score and counted. */
    method Enter(e: CacheEntry)
      requires Linked() && Mirrors() && size == |nodes| && e !in nodes && Sorted(contents)
      modifies this`head, this`tail, this`nodes, this`contents, this`Repr, this`size
      modifies Repr`next, Repr`prev, e`next, e`prev
      ensures Linked() && Mirrors() && size == |nodes| && Repr == old(Repr) + {e}
      ensures contents == Placed(old(contents), e.Value())
    {
      ghost var k := InsertByScore(e);
      size := size + 1;
    }

    /** The eviction in `insertcache`: the tail node is unlinked and the
        count drops by one. */
    method EvictTail()
      requires Linked() && Mirrors() && size == |nodes| && |nodes| > 0
      modifies this`head, this`tail, this`nodes, this`contents, this`size
      modifies Repr`next, Repr`prev
      ensures Linked() && Mirrors() && size == |nodes|
      ensures contents == old(contents)[..|old(contents)| - 1]
    {
      var victim := tail;
      RemoveEntry(victim, |nodes| - 1);
      size := size - 1;
    }

    /** The list work of `insertcache` for a new node `e`: placed by score,
        counted, and the tail evicted when the list has grown past the
        capacity. */
    method Admit(e: CacheEntry)
      requires Valid() && e !in Repr && e.responseSize > 0.0
      modifies this`head, this`tail, this`nodes, this`contents, this`Repr, this`size
      modifies Repr`next, Repr`prev, e`next, e`prev
      ensures Valid()
      ensures contents == AfterInsert(old(contents), capacity, e.Value())
    {
      ghost var cs := contents;
      InsertKeepsBound(cs, capacity, e.Value());
      Enter(e);
      if size > capacity {
        EvictTail();
      }
    }

    /** `insertcache`: a missing (NULL) argument or a size that is not
        positive leaves the cache as it was; otherwise a new entry is built
        and admitted. */
    method Insert(url: Option<string>, path: Option<string>, response: Option<string>,
                  responseSize: real, latency: real)
      requires Valid()
      modifies this`head, this`tail, this`nodes, this`contents, this`Repr, this`size
      modifies Repr`next, Repr`prev
      ensures Valid()
      ensures url.None? || path.None? || response.None? || responseSize <= 0.0 ==>
        nodes == old(nodes) && contents == old(contents) && size == old(size)
      ensures url.Some? && path.Some? && response.Some? && responseSize > 0.0 ==>
        contents == AfterInsert(old(contents), capacity,
                                NewEntry(url.value, path.value, response.value, responseSize, latency))
    {
      if url.None? || path.None? || response.None? || responseSize <= 0.0 {
        return;
      }
      var e := new CacheEntry(url.value, path.value, response.value, responseSize, latency);
      Admit(e);
    }
  }
}

=== FILE: client_to_server.dfy ===
/** The proxy's request handling in front of the cache
    (proxy/ClientToServer.c): the request line is scanned, only GET is
    served, the target is split into host and path, the cache is consulted
    and, on a miss, the origin's answer is stored. The origin fetch
    (`FetchResServer`) is an input: what it hands back. */
module ClientToServer {
  import opened StrUtil
  import opened GdsfCache
  import UrlSecurity

  // ---------------------------------------------------------------------
  // Scanning the request line

  /** The text C sees in a buffer: everything before the first NUL. */
  function CString(s: string): (r: string)
    ensures IsPrefix(r, s) && '\0' !in r
    ensures |r| < |s| ==> s[|r|] == '\0'
  {
    if s == "" || s[0] == '\0' then "" else [s[0]] + CString(s[1..])
  }

  /** Every character is white space for `isspace`. */
  predicate AllSpace(s: string)
  {
    forall i :: 0 <= i < |s| ==> UrlSecurity.IsSpace(s[i])
  }

  /** What a `%<width>s` conversion can store: a non-empty word of at most
      `width` characters with no white space and no NUL. */
  predicate Word(w: string, width: nat)
  {
    0 < |w| <= width && '\0' !in w && forall i :: 0 <= i < |w| ==> !UrlSecurity.IsSpace(w[i])
  }

  /** The length of the word a `%<width>s` conversion takes from the front
      of `s`. */
  function WordRun(s: string, width: nat): (n: nat)
    ensures n <= width && n <= |s|
    ensures forall i :: 0 <= i < n ==> !UrlSecurity.IsSpace(s[i])
    ensures n < width && n < |s| ==> UrlSecurity.IsSpace(s[n])
  {
    if s == "" || width == 0 || UrlSecurity.IsSpace(s[0]) then 0 else 1 + WordRun(s[1..], width - 1)
  }

  /** One `%<width>s` conversion on NUL-free text: white space is skipped,
      then a word of at most `width` characters is taken; None when only
      white space is left. Gives the word and the unread rest. */
  function ScanWord(s: string, width: nat): (r: Option<(string, string)>)
    requires width > 0 && '\0' !in s
    ensures r.None? <==> AllSpace(s)
    ensures r.Some? ==> Word(r.value.0, width)
    ensures r.Some? ==> exists k :: (0 <= k <= |s| - |r.value.0| - |r.value.1|
      && AllSpace(s[..k]) && s == s[..k] + r.value.0 + r.value.1)
  {
    var k := UrlSecurity.SpaceRun(s);
    if k == |s| then
      None
    else
      var n := WordRun(s[k..], width);
      assert s == s[..k] + s[k..k + n] + s[k + n..];
      Some((s[k..k + n], s[k + n..]))
  }

  /** The three words of a request line. */
  datatype Request = Request(verb: string, url: string, proto: string)

  /** `sscanf(req, "%15s %511s %15s", method, url, proto)`: Some exactly
      when all three conversions succeed. */
  function ScanRequest(req: string): (r: Option<Request>)
    ensures r.Some? ==> Word(r.value.verb, 15) && Word(r.value.url, 511) && Word(r.value.proto, 15)
  {
    var s := CString(req);
    match ScanWord(s, 15)
    case None => None
    case Some((m, s1)) =>
      match ScanWord(s1, 511)
      case None => None
      case Some((u, s2)) =>
        match ScanWord(s2, 15)
        case None => None
        case Some((p, _)) => Some(Request(m, u, p))
  }

  /** The request is served: it scans and its method is exactly "GET". */
  function Accepted(req: string): (r: Option<Request>)
    ensures r.Some? <==> ScanRequest(req).Some? && ScanRequest(req).value.verb == "GET"
    ensures r.Some? ==> r == ScanRequest(req)
  {
    match ScanRequest(req)
    case None => None
    case Some(rq) => if rq.verb == "GET" then Some(rq) else None
  }

  lemma {:induction false} CStringAppend(a: string, b: string)
    requires '\0' !in a
    ensures CString(a + b) == a + CString(b)
    decreases |a|
  {
    if a != "" {
      assert (a + b)[1..] == a[1..] + b;
      CStringAppend(a[1..], b);
    } else {
      assert a + b == b;
    }
  }

  lemma {:induction false} SpaceRunOf(sp: string, w: string)
    requires AllSpace(sp) && (w == "" || !UrlSecurity.IsSpace(w[0]))
    ensures UrlSecurity.SpaceRun(sp + w) == |sp|
    decreases |sp|
  {
    if sp != "" {
      assert (sp + w)[1..] == sp[1..] + w;
      SpaceRunOf(sp[1..], w);
    } else {
      assert sp + w == w;
    }
  }

  lemma {:induction false} WordRunOf(w: string, rest: string, width: nat)
    requires |w| <= width && forall i :: 0 <= i < |w| ==> !UrlSecurity.IsSpace(w[i])
    requires rest == "" || UrlSecurity.IsSpace(rest[0])
    ensures WordRun(w + rest, width) == |w|
    decreases |w|
  {
    if w != "" {
      assert (w + rest)[1..] == w[1..] + rest;
      WordRunOf(w[1..], rest, width - 1);
    } else {
      assert w + rest == rest;
    }
  }

  /** A word preceded by white space and followed by white space or the
      end is what one conversion takes. */
  lemma {:induction false} ScanWordOf(sp: string, w: string, rest: string, width: nat)
    requires width > 0 && AllSpace(sp) && Word(w, width) && '\0' !in rest
    requires rest == "" || UrlSecurity.IsSpace(rest[0])
    ensures ScanWord(sp + w + rest, width) == Some((w, rest))
  {
    var s := sp + w + rest;
    assert '\0' !in s by {
      forall i | 0 <= i < |s| ensures s[i] != '\0' {
        if i < |sp| {
          assert UrlSecurity.IsSpace(s[i]);
        } else if i < |sp| + |w| {
          assert s[i] == w[i - |sp|];
        } else {
          assert s[i] == rest[i - |sp| - |w|];
        }
      }
    }
    assert sp + w + rest == sp + (w + rest);
    SpaceRunOf(sp, w + rest);
    assert s[|sp|..] == w + rest;
    WordRunOf(w, rest, width);
    assert s[|sp|..|sp| + |w|] == w;
    assert s[|sp| + |w|..] == rest;
  }

  /** A request line of three words within their widths, separated by white
      space, scans as those three words, whatever follows a space or a NUL
      after the protocol. */
  lemma {:induction false} ScanWellFormed(lead: string, m: string, sep1: string, u: string, sep2: string, p: string, tail: string)
    requires AllSpace(lead) && AllSpace(sep1) && AllSpace(sep2) && sep1 != "" && sep2 != ""
    requires Word(m, 15) && Word(u, 511) && Word(p, 15)
    requires tail == "" || UrlSecurity.IsSpace(tail[0]) || tail[0] == '\0'
    ensures ScanRequest(lead + m + sep1 + u + sep2 + p + tail) == Some(Request(m, u, p))
  {
    var t := CString(tail);
    RequestText(lead, m, sep1, u, sep2, p, tail);
    var r2 := sep2 + p + t;
    var r1 := sep1 + u + r2;
    ScanWordOf(lead, m, r1, 15);
    ScanWordOf(sep1, u, r2, 511);
    ScanWordOf(sep2, p, t, 15);
  }

  /** The text `sscanf` sees in such a request line, grouped word by word. */
  lemma {:induction false} RequestText(lead: string, m: string, sep1: string, u: string, sep2: string, p: string, tail: string)
    requires AllSpace(lead) && AllSpace(sep1) && AllSpace(sep2)
    requires Word(m, 15) && Word(u, 511) && Word(p, 15)
    requires tail == "" || UrlSecurity.IsSpace(tail[0]) || tail[0] == '\0'
    ensures var t := CString(tail);
      && (t == "" || UrlSecurity.IsSpace(t[0]))
      && '\0' !in sep2 + p + t && '\0' !in sep1 + u + (sep2 + p + t)
      && CString(lead + m + sep1 + u + sep2 + p + tail) == lead + m + (sep1 + u + (sep2 + p + t))
  {
    var t := CString(tail);
    var head := lead + m + sep1 + u + sep2 + p;
    HeadClean(lead, m, sep1, u, sep2, p);
    CStringAppend(head, tail);
    assert lead + m + sep1 + u + sep2 + p + tail == head + tail;
    Regroup(lead + m + sep1 + u, sep2, p, t);
    Regroup(lead + m, sep1, u, sep2 + p + t);
  }

  lemma {:induction false} Regroup(a: string, b: string, c: string, d: string)
    ensures a + b + c + d == a + (b + c + d)
  {
  }

  lemma {:induction false} HeadClean(lead: string, m: string, sep1: string, u: string, sep2: string, p: string)
    requires AllSpace(lead) && AllSpace(sep1) && AllSpace(sep2)
    requires '\0' !in m && '\0' !in u && '\0' !in p
    ensures '\0' !in lead + m + sep1 + u + sep2 + p
  {
    SpaceClean(lead);
    SpaceClean(sep1);
    SpaceClean(sep2);
    assert lead + m + sep1 + u + sep2 + p == lead + (m + (sep1 + (u + (sep2 + p))));
  }

  lemma {:induction false} SpaceClean(s: string)
    requires AllSpace(s)
    ensures '\0' !in s
  {
    forall i | 0 <= i < |s| ensures s[i] != '\0' {
      assert UrlSecurity.IsSpace(s[i]);
    }
  }

  /** A request line with only two words (no protocol) is refused. */
  lemma {:induction false} MissingProtocol(lead: string, m: string, sep1: string, u: string, trail: string)
    requires AllSpace(lead) && AllSpace(sep1) && AllSpace(trail) && sep1 != ""
    requires Word(m, 15) && Word(u, 511)
    ensures ScanRequest(lead + m + sep1 + u + trail) == None
  {
    SpaceClean(lead);
    SpaceClean(sep1);
    SpaceClean(trail);
    var r2 := trail;
    var r1 := sep1 + u + r2;
    var s := lead + m + r1;
    assert lead + m + sep1 + u + trail == s;
    assert '\0' !in s by {
      assert s == lead + (m + (sep1 + (u + trail)));
    }
    CStringAppend(s, "");
    assert s + "" == s;
    assert '\0' !in r1 by {
      assert r1 == sep1 + (u + trail);
    }
    assert trail == "" || UrlSecurity.IsSpace(trail[0]);
    ScanWordOf(lead, m, r1, 15);
    ScanWordOf(sep1, u, r2, 511);
  }

  /** Any method other than exactly "GET" is refused, "get" included. */
  lemma {:induction false} OnlyGet(req: string)
    requires ScanRequest(req).Some? && ScanRequest(req).value.verb != "GET"
    ensures Accepted(req).None?
  {
  }

  // ---------------------------------------------------------------------
  // Splitting the target

  /** `url` with a leading "https://" or "http://" taken off; the prefixes
      are compared case-sensitively, "https://" first. */
  function StripScheme(url: string): string
  {
    if IsPrefix("https://", url) then url[8..]
    else if IsPrefix("http://", url) then url[7..]
    else url
  }

  /** What is left after the scheme is the url without one of the three
      possible prefixes. */
  lemma {:induction false} StripSchemeSuffix(url: string)
    ensures var r := StripScheme(url);
      exists scheme :: scheme in ["https://", "http://", ""] && url == scheme + r
  {
    var r := StripScheme(url);
    if IsPrefix("https://", url) {
      assert url == "https://" + r;
    } else if IsPrefix("http://", url) {
      assert url == "http://" + r;
    } else {
      assert url == "" + r;
    }
  }

  /** An upper-case scheme is not recognised and stays in the host. */
  lemma {:induction false} SchemeCaseSensitive(rest: string)
    ensures StripScheme("HTTP://" + rest) == "HTTP://" + rest
  {
    var u := "HTTP://" + rest;
    assert u[0] == 'H';
  }

  /** The length of the run `%<width>[^<stop>]` takes from the front of
      `s`. */
  function RunUntil(s: string, stop: char, width: nat): (n: nat)
    ensures n <= width && n <= |s|
    ensures stop !in s[..n]
    ensures n < width && n < |s| ==> s[n] == stop
  {
    if s == "" || width == 0 || s[0] == stop then 0
    else
      var n := RunUntil(s[1..], stop, width - 1);
      assert s[..n + 1] == [s[0]] + s[1..][..n];
      1 + n
  }

  /** Where host and path stand after the target is split: `host` is None
      when its conversion fails (the buffer keeps whatever it held). */
  datatype Target = Target(host: Option<string>, path: string)

  /** Size of the `host` and `path` buffers, NUL included. */
  const PathBuffer: nat := 256

  /** `sscanf(s, "%255[^/]/%<width>[^\n]", host, path + 1)` with `path`
      holding "/" and zeros: the host is the text before the first '/' (at
      most 255 characters); when a '/' follows it, the path is "/" plus up
      to `width` characters of the rest, stopping at a newline. */
  function SplitWith(s: string, width: nat): (t: Target)
  {
    var h := RunUntil(s, '/', 255);
    if h == 0 then Target(None, "/")
    else if h < |s| && s[h] == '/' then
      var rest := s[h + 1..];
      Target(Some(s[..h]), "/" + rest[..RunUntil(rest, '\n', width)])
    else Target(Some(s[..h]), "/")
  }

  /** The split as ClientToServer.c writes it: up to 255 characters go to
      `path + 1`. */
  function SplitAsWritten(url: string): Target
  {
    SplitWith(StripScheme(url), 255)
  }

  /** The split with the path conversion limited to 254 characters, so
      that "/", the path and its NUL fit the 256-byte buffer. */
  function SplitUrl(url: string): (t: Target)
    ensures 0 < |t.path| < PathBuffer && t.path[0] == '/'
    ensures t.host.Some? ==> 0 < |t.host.value| <= KeyMax && '/' !in t.host.value
  {
    SplitWith(StripScheme(url), 254)
  }

  /** 255 characters of path. */
  const LongPath: string := seq(255, _ => 'a')

  /** As written, 255 characters after the host's '/' give a path of 256
      characters: with its NUL, 257 bytes in the 256-byte buffer. The entry
      stored for it keeps only 255 of them, so the same request never finds
      it again, even in a cache holding nothing else. */
  lemma {:induction false} PathOverflows()
    ensures var t := SplitAsWritten("http://h/" + LongPath);
      && t.host == Some("h") && |t.path| + 1 > PathBuffer
      && Find(AfterInsert([], 1, NewEntry("h", t.path, "x", 1.0, 0.0)), "h", t.path).None?
  {
    var u := "http://h/" + LongPath;
    assert u[4] != "https://"[4];
    assert StripScheme(u) == "h/" + LongPath by {
      assert u[7..] == "h/" + LongPath;
    }
    var s := "h/" + LongPath;
    RunUntilIs(s, '/', 255, 1);
    assert s[1] == '/' && s[..1] == "h" && s[2..] == LongPath;
    RunUntilIs(LongPath, '\n', 255, 255);
    assert LongPath[..255] == LongPath;
    var t := SplitAsWritten(u);
    assert t == Target(Some("h"), "/" + LongPath);
    var e := NewEntry("h", t.path, "x", 1.0, 0.0);
    assert |e.path| == 255;
    assert AfterInsert([], 1, e) == [e];
  }

  /** A host of at most 255 characters followed by "/" and a path of at
      most 254 characters without newlines is split back into the two,
      after either scheme; with nothing after the host the path is "/". */
  lemma {:induction false} SplitHostPath(scheme: string, host: string, path: string)
    requires scheme == "https://" || scheme == "http://"
    requires 0 < |host| <= KeyMax && '/' !in host
    requires |path| <= 254 && '\n' !in path
    ensures SplitUrl(scheme + host + "/" + path) == Target(Some(host), "/" + path)
    ensures SplitUrl(scheme + host) == Target(Some(host), "/")
  {
    var s := host + "/" + path;
    assert scheme + host + "/" + path == scheme + s;
    StripKnownScheme(scheme, s);
    SplitWithPath(host, path);
    StripKnownScheme(scheme, host);
    SplitBare(host);
  }

  /** Either scheme is taken off whole. */
  lemma StripKnownScheme(scheme: string, rest: string)
    requires scheme == "https://" || scheme == "http://"
    ensures StripScheme(scheme + rest) == rest
  {
    var u := scheme + rest;
    if scheme == "http://" {
      assert u[4] != "https://"[4];
    }
    assert u[|scheme|..] == rest;
  }

  /** A host, '/', and a path without newlines of at most 254 characters
      split into the host and "/" plus the path. */
  lemma {:induction false} SplitWithPath(host: string, path: string)
    requires 0 < |host| <= KeyMax && '/' !in host
    requires |path| <= 254 && '\n' !in path
    ensures SplitWith(host + "/" + path, 254) == Target(Some(host), "/" + path)
  {
    var s := host + "/" + path;
    assert s[..|host|] == host;
    RunUntilIs(s, '/', 255, |host|);
    assert s[|host| + 1..] == path;
    RunUntilIs(path, '\n', 254, |path|);
    assert path[..|path|] == path;
  }

  /** A host alone splits into the host and the path "/". */
  lemma {:induction false} SplitBare(host: string)
    requires 0 < |host| <= KeyMax && '/' !in host
    ensures SplitWith(host, 254) == Target(Some(host), "/")
  {
    RunUntilIs(host, '/', 255, |host|);
    assert host[..|host|] == host;
  }

  /** `RunUntil` is the only length with its two properties. */
  lemma {:induction false} RunUntilIs(s: string, stop: char, width: nat, n: nat)
    requires n <= width && n <= |s| && stop !in s[..n]
    requires n < width && n < |s| ==> s[n] == stop
    ensures RunUntil(s, stop, width) == n
  {
    if n > 0 {
      assert s[1..][..n - 1] == s[..n][1..];
      RunUntilIs(s[1..], stop, width - 1, n - 1);
    } else if s != "" && width > 0 {
      assert s[0] == stop;
    }
  }

  /** A host longer than 255 characters is cut there, and since no '/'
      follows the cut the path stays "/", whatever the rest of the url. */
  lemma {:induction false} LongHostLosesPath(scheme: string, host: string, rest: string)
    requires scheme == "https://" || scheme == "http://"
    requires |host| > KeyMax && '/' !in host
    ensures SplitUrl(scheme + host + rest) == Target(Some(host[..KeyMax]), "/")
  {
    var u := scheme + host + rest;
    assert StripScheme(u) == host + rest by {
      if scheme == "http://" {
        assert u[4] != "https://"[4];
      }
      assert u[|scheme|..] == host + rest;
    }
    var s := host + rest;
    assert s[..KeyMax] == host[..KeyMax];
    RunUntilIs(s, '/', 255, KeyMax);
    assert s[KeyMax] == host[KeyMax];
  }

  /** A target that starts with '/' after the scheme gives no host. */
  lemma {:induction false} NoHost(scheme: string, rest: string)
    requires scheme == "https://" || scheme == "http://"
    ensures SplitUrl(scheme + "/" + rest).host == None
  {
    var u := scheme + "/" + rest;
    assert StripScheme(u) == "/" + rest by {
      if scheme == "http://" {
        assert u[4] != "https://"[4];
      }
      assert u[|scheme|..] == "/" + rest;
    }
    RunUntilIs("/" + rest, '/', 255, 0);
  }

  /** The entry stored for a request keeps its host and path whole, so the
      same request finds it while it stays in the cache. */
  lemma {:induction false} KeyKept(url: string, host: string, response: string, size: real, latency: real)
    requires size > 0.0 && SplitUrl(url).host == Some(host)
    ensures var e := NewEntry(host, SplitUrl(url).path, response, size, latency);
      e.url == host && e.path == SplitUrl(url).path
  {
  }

  // ---------------------------------------------------------------------
  // Serving a request

  /** What `FetchResServer` hands back: the response (None for NULL), its
      size and the latency it measured. */
  datatype Fetched = Fetched(response: Option<string>, size: real, latency: real)

  /** The three values `FetchResCache` passes back through `res`,
      `ressize` and `latency`. */
  datatype Reply = Reply(res: Option<string>, size: real, latency: real)

  /** The reply to a request that is not served. */
  const Rejected: Reply := Reply(None, 0.0, 0.0)

  /** The key looked up for an accepted request; `stale` stands for what
      the host buffer held when no host was scanned. */
  function Key(rq: Request, stale: string): (string, string)
  {
    var t := SplitUrl(rq.url);
    (if t.host.Some? then t.host.value else stale, t.path)
  }

  /** A fetch `FetchResCache` keeps: a response and a positive size. */
  predicate Usable(f: Fetched)
  {
    f.response.Some? && f.size > 0.0
  }

  /** One request against a cache holding `es`: the reply, the list
      afterwards and the hits and misses counted. */
  datatype Served = Served(reply: Reply, contents: seq<Entry>, hits: nat, misses: nat)

  /** An accepted request for `host` and `path`: served from the cache on
      a hit, otherwise fetched and, when usable, stored. */
  function Answered(es: seq<Entry>, capacity: int, host: string, path: string, f: Fetched): (s: Served)
    requires AllSized(es)
  {
    match Find(es, host, path)
    case Some(i) =>
      Served(Reply(Some(CString(es[i].response)), es[i].responseSize, 0.0), Hit(es, i), 1, 0)
    case None =>
      if Usable(f) then
        Served(Reply(f.response, f.size, f.latency),
               AfterInsert(es, capacity, NewEntry(host, path, f.response.value, f.size, f.latency)), 0, 1)
      else
        Served(Reply(None, f.size, 0.0), es, 0, 1)
  }

  /** `FetchResCache` on the cache's contents. */
  function Serve(es: seq<Entry>, capacity: int, req: string, f: Fetched, stale: string): (s: Served)
    requires AllSized(es)
  {
    match Accepted(req)
    case None => Served(Rejected, es, 0, 0)
    case Some(rq) =>
      var (host, path) := Key(rq, stale);
      Answered(es, capacity, host, path, f)
  }

  /** The cache work of `FetchResCache` once the key is known. */
  method LookupOrFetch(cache: OptimisedCache, host: string, path: string, f: Fetched) returns (r: Reply)
    requires cache.Valid()
    modifies cache, cache.Repr
    ensures cache.Valid()
    ensures var s := Answered(old(cache.contents), cache.capacity, host, path, f);
      && r == s.reply && cache.contents == s.contents
      && cache.hitCounter == old(cache.hitCounter) + s.hits
      && cache.missCounter == old(cache.missCounter) + s.misses
  {
    ghost var es := cache.contents;
    ghost var ns := cache.nodes;
    var e := cache.Lookup(host, path);
    if e != null {
      ghost var i := Find(es, host, path).value;
      assert es[i] == old(ns[i].Value());
      return Reply(Some(CString(e.response)), e.responseSize, 0.0);
    }
    r := Store(cache, host, path, f);
  }

  /** The miss path of `FetchResCache`: a failed fetch is answered NULL
      and not stored; a usable one is stored and answered as fetched. */
  method Store(cache: OptimisedCache, host: string, path: string, f: Fetched) returns (r: Reply)
    requires cache.Valid() && Find(cache.contents, host, path).None?
    modifies cache`head, cache`tail, cache`nodes, cache`contents, cache`Repr, cache`size
    modifies cache.Repr`next, cache.Repr`prev
    ensures cache.Valid()
    ensures var s := Answered(old(cache.contents), cache.capacity, host, path, f);
      r == s.reply && cache.contents == s.contents
  {
    if f.response.None? || f.size <= 0.0 {
      return Reply(None, f.size, 0.0);
    }
    cache.Insert(Some(host), Some(path), f.response, f.size, f.latency);
    return Reply(f.response, f.size, f.latency);
  }

  /** `FetchResCache` (the `reqsize` argument is unused and left out). */
  method FetchResCache(req: string, cache: OptimisedCache, f: Fetched, stale: string) returns (r: Reply)
    requires cache.Valid()
    modifies cache, cache.Repr
    ensures cache.Valid()
    ensures var s := Serve(old(cache.contents), cache.capacity, req, f, stale);
      && r == s.reply && cache.contents == s.contents
      && cache.hitCounter == old(cache.hitCounter) + s.hits
      && cache.missCounter == old(cache.missCounter) + s.misses
  {
    var request := ScanRequest(req);
    if request.None? || request.value.verb != "GET" {
      return Rejected;
    }
    var t := SplitUrl(request.value.url);
    var host := if t.host.Some? then t.host.value else stale;
    r := LookupOrFetch(cache, host, t.path, f);
  }

  // ---------------------------------------------------------------------
  // Properties

  /** A request that does not scan, or is not a GET, gets the null reply
      and leaves the cache and its counters as they were. */
  lemma {:induction false} RejectedUntouched(es: seq<Entry>, capacity: int, req: string, f: Fetched, stale: string)
    requires AllSized(es)
    requires ScanRequest(req).None? || ScanRequest(req).value.verb != "GET"
    ensures Serve(es, capacity, req, f, stale) == Served(Reply(None, 0.0, 0.0), es, 0, 0)
  {
  }

  /** An accepted request is looked up exactly once: one hit or one miss. */
  lemma {:induction false} OneLookup(es: seq<Entry>, capacity: int, req: string, f: Fetched, stale: string)
    requires AllSized(es) && Accepted(req).Some?
    ensures var s := Serve(es, capacity, req, f, stale); s.hits + s.misses == 1
  {
    var (host, path) := Key(Accepted(req).value, stale);
    assert Serve(es, capacity, req, f, stale) == Answered(es, capacity, host, path, f);
    var s := Answered(es, capacity, host, path, f);
    if Find(es, host, path).Some? {
      assert s.hits == 1 && s.misses == 0;
    } else {
      assert s.misses == 1 && s.hits == 0;
    }
  }

  /** A hit answers with a copy of the stored response (up to its first
      NUL, as `strdup` copies), the stored size and latency 0, and never
      consults the origin: any two fetches give the same result. */
  lemma {:induction false} HitServesCopy(es: seq<Entry>, capacity: int, req: string, f: Fetched, g: Fetched, stale: string)
    requires AllSized(es) && Accepted(req).Some?
    requires var (host, path) := Key(Accepted(req).value, stale); Find(es, host, path).Some?
    ensures Serve(es, capacity, req, f, stale) == Serve(es, capacity, req, g, stale)
    ensures var (host, path) := Key(Accepted(req).value, stale);
      var i := Find(es, host, path).value;
      var s := Serve(es, capacity, req, f, stale);
      && s.reply.res == Some(CString(es[i].response)) && IsPrefix(s.reply.res.value, es[i].response)
      && s.reply.size == es[i].responseSize && s.reply.latency == 0.0 && s.hits == 1
      && |s.contents| == |es|
  {
  }

  /** A miss whose fetch fails (no response, or a size that is not
      positive) answers NULL with latency 0 and stores nothing. */
  lemma {:induction false} FailedFetchNotStored(es: seq<Entry>, capacity: int, req: string, f: Fetched, stale: string)
    requires AllSized(es) && Accepted(req).Some? && !Usable(f)
    requires var (host, path) := Key(Accepted(req).value, stale); Find(es, host, path).None?
    ensures var s := Serve(es, capacity, req, f, stale);
      s.reply.res == None && s.reply.latency == 0.0 && s.contents == es && s.misses == 1
  {
  }

  /** A miss whose fetch succeeds answers with exactly the fetched values
      and stores an entry built from them under the request's key. */
  lemma {:induction false} FetchStored(es: seq<Entry>, capacity: int, req: string, f: Fetched, stale: string)
    requires AllSized(es) && Accepted(req).Some? && Usable(f)
    requires var (host, path) := Key(Accepted(req).value, stale); Find(es, host, path).None?
    ensures var (host, path) := Key(Accepted(req).value, stale);
      var s := Serve(es, capacity, req, f, stale);
      && s.reply == Reply(f.response, f.size, f.latency) && s.misses == 1
      && s.contents == AfterInsert(es, capacity, NewEntry(host, path, f.response.value, f.size, f.latency))
  {
  }

  /** Once a fetched page is stored in a cache with room for it, the same
      request is a hit the next time, whatever the origin would answer. */
  lemma {:induction false} RepeatHits(es: seq<Entry>, capacity: int, req: string, f: Fetched, g: Fetched, stale: string)
    requires Sorted(es) && AllSized(es) && |es| < capacity
    requires Accepted(req).Some? && Usable(f)
    requires var (host, path) := Key(Accepted(req).value, stale);
      (forall i :: 0 <= i < |es| ==> !(es[i].url == host && es[i].path == path)) && |host| <= KeyMax
    ensures var s := Serve(es, capacity, req, f, stale);
      AllSized(s.contents) && Serve(s.contents, capacity, req, g, stale).hits == 1
  {
    var (host, path) := Key(Accepted(req).value, stale);
    var e := NewEntry(host, path, f.response.value, f.size, f.latency);
    assert e.url == host && e.path == path;
    var after := AfterInsert(es, capacity, e);
    FetchStored(es, capacity, req, f, stale);
    InsertKeepsBound(es, capacity, e);
    InsertedFound(es, capacity, e);
    HitWhenFound(after, capacity, req, g, stale);
  }

  /** A request whose key is in the list is a hit. */
  lemma {:induction false} HitWhenFound(es: seq<Entry>, capacity: int, req: string, g: Fetched, stale: string)
    requires AllSized(es) && Accepted(req).Some?
    requires var (host, path) := Key(Accepted(req).value, stale); Find(es, host, path).Some?
    ensures Serve(es, capacity, req, g, stale).hits == 1
  {
    var (host, path) := Key(Accepted(req).value, stale);
    assert Serve(es, capacity, req, g, stale) == Answered(es, capacity, host, path, g);
  }

  /** Below capacity nothing is evicted, so the inserted entry's key is
      found afterwards. */
  lemma {:induction false} InsertedFound(es: seq<Entry>, capacity: int, e: Entry)
    requires Sorted(es) && |es| < capacity
    ensures Find(AfterInsert(es, capacity, e), e.url, e.path).Some?
  {
    var k := InsertPos(es, e.score);
    var l := AfterInsert(es, capacity, e);
    assert l == es[..k] + [e] + es[k..];
    assert l[k] == e;
  }
}

=== FILE: predict_url.dfy ===
/** The decision logic `predict_url` (predict_url.py) wraps around the
    classifier: the allowlist short-circuit, the URL-validity warning, the
    explanation, the score and the result flag. `urlparse` is an input (the
    scheme and netloc it finds) and so is the classifier's output (its top
    two classes with their confidences). Scores are kept in integer
    hundredths. */
module PredictUrl {
  import opened StrUtil

  /** `allowlist` of predict_url.py. */
  const Allowlist: seq<string> := ["www.google.com", "www.microsoft.com", "github.com", "www.wikipedia.org"]

  const TrustedExplanation: string := "Trusted domain (allowlisted)."
  const InvalidWarning: string := "⚠️ Input is not a valid URL. " + "Prediction may not be meaningful."
  const NotAUrlExplanation: string := "Input does not appear to be a URL."
  const EdgeCaseExplanation: string := "Input is a rare/edge-case URL " + "(e.g., IP, FTP, encoded, or partial)."

  /** What `urlparse(url)` gives: the scheme and the netloc. */
  datatype Parsed = Parsed(scheme: string, netloc: string)

  /** What the classifier gives: the top two labels and confidences. */
  datatype Inference = Inference(class1: string, conf1: real, class2: string, conf2: real)

  /** The dictionary `predict_url` returns; `score` in hundredths. */
  datatype Prediction = Prediction(prediction: string, score: int, result: int, explanation: Option<string>)

  /** `parsed.netloc.lower()`. */
  function Domain(p: Parsed): string
  {
    Lower(p.netloc)
  }

  /** The allowlist test: exact membership of the lower-cased netloc. */
  predicate Allowlisted(p: Parsed)
  {
    Domain(p) in Allowlist && Domain(p) != ""
  }

  /** `is_valid_url`: both netloc and scheme are non-empty. */
  predicate IsValidUrl(p: Parsed)
  {
    Domain(p) != "" && Lower(p.scheme) != ""
  }

  /** The validity warning, set only for an invalid URL. */
  function Warning(p: Parsed): (w: Option<string>)
    ensures w.Some? <==> !(p.netloc != "" && p.scheme != "")
    ensures w.Some? ==> w.value == InvalidWarning
  {
    if IsValidUrl(p) then None else Some(InvalidWarning)
  }

  /** The explanation: the not-a-URL message, then the edge-case message,
      then the validity warning. */
  function Explanation(class1: string, warning: Option<string>): Option<string>
  {
    if class1 == "not_a_url" then Some(NotAUrlExplanation)
    else if class1 == "edge_case" then Some(EdgeCaseExplanation)
    else warning
  }

  /** `round(x * 100)` with Python's ties-to-even rule, for `round(x, 2)`
      expressed in hundredths. */
  function RoundHundredths(x: real): (n: int)
    ensures (n as real) - 0.5 <= x * 100.0 <= (n as real) + 0.5
    ensures (n as real) - 0.5 == x * 100.0 ==> n % 2 == 0
    ensures (n as real) + 0.5 == x * 100.0 ==> n % 2 == 0
  {
    var r := x * 100.0;
    var f := r.Floor;
    var frac := r - f as real;
    if frac < 0.5 then f
    else if frac > 0.5 then f + 1
    else if f % 2 == 0 then f
    else f + 1
  }

  /** The score for the top class: 1 for not_a_url, 0 for benign, else
      `max(0.1, round(conf1, 2))`; in hundredths. */
  function Score(class1: string, conf1: real): (s: int)
    ensures class1 == "not_a_url" ==> s == 100
    ensures class1 == "benign" ==> s == 0
    ensures class1 != "not_a_url" && class1 != "benign" ==> s >= 10
    ensures class1 != "not_a_url" && class1 != "benign" && conf1 <= 0.105 ==> s == 10
    ensures class1 != "not_a_url" && class1 != "benign" && conf1 > 0.105 ==>
      (s as real) - 0.5 <= conf1 * 100.0 <= (s as real) + 0.5
  {
    if class1 == "not_a_url" then 100
    else if class1 == "benign" then 0
    else
      var c := RoundHundredths(conf1);
      if c > 10 then c else 10
  }

  /** `predict_url` once `urlparse` and the classifier have run. */
  function PredictUrl(p: Parsed, inf: Inference): (r: Prediction)
    ensures r.result == 0 <==> r.prediction == "benign"
    ensures r.result == 0 || r.result == 1
    ensures Allowlisted(p) ==> r == Prediction("benign", 0, 0, Some(TrustedExplanation))
    ensures !Allowlisted(p) ==> r.prediction == inf.class1
    ensures !Allowlisted(p) ==> r.score == Score(inf.class1, inf.conf1)
    ensures !Allowlisted(p) && inf.class1 == "not_a_url" ==> r.score == 100
  {
    if Allowlisted(p) then Prediction("benign", 0, 0, Some(TrustedExplanation))
    else
      var explanation := Explanation(inf.class1, Warning(p));
      var score := Score(inf.class1, inf.conf1);
      var flag := if inf.class1 == "benign" then 0 else 1;
      Prediction(inf.class1, score, flag, explanation)
  }

  // ---------------------------------------------------------------------
  // Properties

  /** An allowlisted netloc never consults the classifier: any two
      inferences give the same answer. */
  lemma AllowlistShortCircuit(p: Parsed, a: Inference, b: Inference)
    requires Allowlisted(p)
    ensures PredictUrl(p, a) == PredictUrl(p, b)
    ensures PredictUrl(p, a).score == 0 && PredictUrl(p, a).result == 0
  {
  }

  /** A lower-cased string keeps every character that is not an upper-case
      letter. */
  lemma {:induction false} LowerKeeps(s: string, c: char)
    requires c in s && !IsUpper(c)
    ensures c in Lower(s)
  {
    var i :| 0 <= i < |s| && s[i] == c;
    assert Lower(s)[i] == c;
  }

  /** No allowlist entry has a port or userinfo. */
  lemma AllowlistPlain()
    ensures forall k :: 0 <= k < |Allowlist| ==> ':' !in Allowlist[k] && '@' !in Allowlist[k]
  {
    assert ':' !in "www.google.com" && '@' !in "www.google.com";
    assert ':' !in "www.microsoft.com" && '@' !in "www.microsoft.com";
    assert ':' !in "github.com" && '@' !in "github.com";
    assert ':' !in "www.wikipedia.org" && '@' !in "www.wikipedia.org";
  }

  /** Allowlist matching is exact: a netloc with a port or with userinfo
      never matches. */
  lemma {:induction false} PortOrUserinfoNotAllowlisted(p: Parsed)
    requires ':' in p.netloc || '@' in p.netloc
    ensures !Allowlisted(p)
  {
    var c := if ':' in p.netloc then ':' else '@';
    LowerKeeps(p.netloc, c);
    AllowlistPlain();
    forall k | 0 <= k < |Allowlist|
      ensures Allowlist[k] != Domain(p)
    {
      assert c !in Allowlist[k];
    }
  }

  /** The explanation follows a strict priority: the not-a-URL message,
      then the edge-case message, then the validity warning, else nothing. */
  lemma ExplanationPriority(p: Parsed, inf: Inference)
    requires !Allowlisted(p)
    ensures var e := PredictUrl(p, inf).explanation;
      && (inf.class1 == "not_a_url" ==> e == Some(NotAUrlExplanation))
      && (inf.class1 == "edge_case" ==> e == Some(EdgeCaseExplanation))
      && (inf.class1 != "not_a_url" && inf.class1 != "edge_case" ==>
            (e == Some(InvalidWarning) <==> !(p.netloc != "" && p.scheme != ""))
            && (e.None? <==> p.netloc != "" && p.scheme != ""))
  {
  }

  /** A class other than benign and not_a_url never scores below 0.1. */
  lemma ThreatScoreFloor(p: Parsed, inf: Inference)
    requires !Allowlisted(p) && inf.class1 != "benign" && inf.class1 != "not_a_url"
    ensures PredictUrl(p, inf).score >= 10
    ensures inf.conf1 >= 0.105 ==> PredictUrl(p, inf).score == RoundHundredths(inf.conf1)
    ensures inf.conf1 <= 0.105 ==> PredictUrl(p, inf).score == 10
  {
  }

  /** A confidence in [0, 1] gives a score in [0, 1]. */
  lemma {:induction false} ScoreInRange(p: Parsed, inf: Inference)
    requires 0.0 <= inf.conf1 <= 1.0
    ensures 0 <= PredictUrl(p, inf).score <= 100
  {
    var n := RoundHundredths(inf.conf1);
    assert (n as real) - 0.5 <= inf.conf1 * 100.0 <= 100.0;
    assert 0.0 <= inf.conf1 * 100.0 <= (n as real) + 0.5;
  }

  /** Only `class1`, `conf1` and the validity of the URL matter: the
      runner-up class and its confidence are never used. */
  lemma IgnoresRunnerUp(p: Parsed, a: Inference, b: Inference)
    requires a.class1 == b.class1 && a.conf1 == b.conf1
    ensures PredictUrl(p, a) == PredictUrl(p, b)
  {
  }

  /** The netloc `www.google.com` is trusted whatever its case. */
  lemma GoogleTrusted(scheme: string)
    ensures Allowlisted(Parsed(scheme, "WWW.Google.com"))
  {
    assert Lower("WWW.Google.com") == "www.google.com";
  }
}

=== FILE: protocol.dfy ===
/** The two sides of the checker protocol together: the lines
    url-security-middleware/url_checker.py prints, captured and scanned by
    proxy/UrlSecurity.c, fill the proxy's record as the script meant them
    to. Lines are compared as the characters Python prints; every line is
    assumed free of newlines (a URL taken from an HTTP request line is). */
module CheckerProtocol {
  import opened StrUtil
  import opened PredictUrl
  import opened UrlChecker
  import opened UrlSecurity

  /** The value carried by the first line that starts with `pattern`,
      truncated to the buffer. */
  function FirstLineValue(lines: seq<string>, pattern: string, size: nat): Option<string>
    requires size >= 1
  {
    if lines == [] then None
    else if IsPrefix(pattern, lines[0]) then Some(Truncate(lines[0][|pattern|..], size - 1))
    else FirstLineValue(lines[1..], pattern, size)
  }

  /** No line holds a newline. */
  predicate SingleLines(lines: seq<string>)
  {
    forall i :: 0 <= i < |lines| ==> '\n' !in lines[i]
  }

  lemma {:induction false} NewlineAfter(line: string, rest: string)
    requires '\n' !in line
    ensures IndexOf(line + "\n" + rest, '\n') == Some(|line|)
    decreases |line|
  {
    var s := line + "\n" + rest;
    if line != "" {
      assert s[1..] == line[1..] + "\n" + rest;
      NewlineAfter(line[1..], rest);
    }
  }

  /** A pattern without newlines starts the output at a line exactly when
      it starts that line. */
  lemma {:induction false} PrefixOfLine(pattern: string, line: string, rest: string)
    requires '\n' !in pattern && '\n' !in line
    ensures IsPrefix(pattern, line + "\n" + rest) <==> IsPrefix(pattern, line)
  {
    var s := line + "\n" + rest;
    if |pattern| <= |line| {
      assert s[..|pattern|] == line[..|pattern|];
    } else if |pattern| <= |s| {
      assert s[..|pattern|][|line|] == '\n';
      assert pattern[|line|] != '\n';
    }
  }

  /** Scanning the captured output is scanning its lines in order. */
  lemma {:induction false} ScanOutput(lines: seq<string>, pattern: string, size: nat)
    requires size >= 1 && SingleLines(lines) && '\n' !in pattern
    ensures Scan(Output(lines), pattern, size) == FirstLineValue(lines, pattern, size)
    decreases |lines|
  {
    if lines != [] {
      var line := lines[0];
      var rest := Output(lines[1..]);
      var s := Output(lines);
      assert s == line + "\n" + rest;
      NewlineAfter(line, rest);
      assert LineLength(s) == |line|;
      PrefixOfLine(pattern, line, rest);
      if IsPrefix(pattern, line) {
        assert s[|pattern|..|line|] == line[|pattern|..];
      } else {
        assert s[|line| + 1..] == rest;
        assert SingleLines(lines[1..]) by {
          forall i | 0 <= i < |lines| - 1
            ensures '\n' !in lines[1..][i]
          {
            assert lines[1..][i] == lines[i + 1];
          }
        }
        ScanOutput(lines[1..], pattern, size);
      }
    }
  }

  /** Two strings that differ at index `j` are not prefix-related. */
  lemma DiffersAt(pattern: string, line: string, j: nat)
    requires j < |pattern| && j < |line| && pattern[j] != line[j]
    ensures !IsPrefix(pattern, line)
  {
    if |pattern| <= |line| {
      assert line[..|pattern|][j] == line[j];
    }
  }

  /** A line made of a tag and a value starts with the tag. */
  lemma Tagged(tag: string, value: string)
    ensures IsPrefix(tag, tag + value) && (tag + value)[|tag|..] == value
  {
    assert (tag + value)[..|tag|] == tag;
  }

  /** The first line tagged `tag` is at index `k`. */
  lemma {:induction false} FirstLineAt(lines: seq<string>, tag: string, size: nat, k: nat, value: string)
    requires size >= 1 && k < |lines| && lines[k] == tag + value
    requires forall i :: 0 <= i < k ==> !IsPrefix(tag, lines[i])
    ensures FirstLineValue(lines, tag, size) == Some(Truncate(value, size - 1))
    decreases k
  {
    Tagged(tag, value);
    if k > 0 {
      assert lines[1..][k - 1] == lines[k];
      FirstLineAt(lines[1..], tag, size, k - 1, value);
    }
  }

  /** No line is tagged `tag`. */
  lemma {:induction false} NoLineTagged(lines: seq<string>, tag: string, size: nat)
    requires size >= 1
    requires forall i :: 0 <= i < |lines| ==> !IsPrefix(tag, lines[i])
    ensures FirstLineValue(lines, tag, size) == None
    decreases |lines|
  {
    if lines != [] {
      NoLineTagged(lines[1..], tag, size);
    }
  }

  /** The search patterns of the five keys. */
  lemma Patterns()
    ensures Pattern("RESULT") == "RESULT: " && Pattern("PREDICTION") == "PREDICTION: "
    ensures Pattern("SCORE") == "SCORE: " && Pattern("EXPLANATION") == "EXPLANATION: "
    ensures Pattern("ERROR") == "ERROR: "
  {
  }

  /** The record the proxy fills from the captured lines, when every field
      it looks for is found as `FirstLineValue` says. */
  function Expected(lines: seq<string>, atof: string -> real): Report
  {
    Fill(FirstLineValue(lines, "RESULT: ", 64), FirstLineValue(lines, "PREDICTION: ", 64),
         FirstLineValue(lines, "SCORE: ", 64), FirstLineValue(lines, "EXPLANATION: ", 256),
         FirstLineValue(lines, "ERROR: ", 256), atof)
  }

  /** The proxy reads the lines the script printed, field by field. */
  lemma {:induction false} CaptureReadsLines(lines: seq<string>, atof: string -> real)
    requires SingleLines(lines) && |Output(lines)| < OutputSize
    ensures Interpret(Accumulated(FgetsChunks(Output(lines))), atof) == Expected(lines, atof)
  {
    CapturedExactly(Output(lines));
    Patterns();
    ScanOutput(lines, "RESULT: ", 64);
    ScanOutput(lines, "PREDICTION: ", 64);
    ScanOutput(lines, "SCORE: ", 64);
    ScanOutput(lines, "EXPLANATION: ", 256);
    ScanOutput(lines, "ERROR: ", 256);
  }

  // ---------------------------------------------------------------------
  // What the proxy records for each way the script can end

  /** The captured record for the lines of a run. */
  function Captured(lines: seq<string>, atof: string -> real): Report
  {
    Interpret(Accumulated(FgetsChunks(Output(lines))), atof)
  }

  /** A line starting with character `c` is not tagged by a tag that
      starts otherwise. */
  lemma OtherFirst(tag: string, line: string)
    requires |tag| > 0 && |line| > 0 && tag[0] != line[0]
    ensures !IsPrefix(tag, line)
  {
    DiffersAt(tag, line, 0);
  }

  /** The lines of a successful check, one by one. */
  lemma SuccessShape(url: string, p: Prediction)
    requires '\n' !in url && '\n' !in p.prediction && (p.explanation.Some? ==> '\n' !in p.explanation.value)
    ensures var lines := CheckUrl(url, Returned(p)).0;
      && |lines| == (if Truthy(p.explanation) then 6 else 5)
      && lines[0] == "URL: " + url && lines[1] == "PREDICTION: " + p.prediction
      && lines[2] == "SCORE: " + ScoreText(p) && lines[3] == "RESULT: " + IntText(p.result)
      && (Truthy(p.explanation) ==> lines[4] == "EXPLANATION: " + p.explanation.value)
      && lines[|lines| - 1] == "SUCCESS: true"
      && SingleLines(lines)
  {
    var lines := CheckUrl(url, Returned(p)).0;
    assert '\n' !in ScoreText(p) && '\n' !in IntText(p.result);
    forall i | 0 <= i < |lines| ensures '\n' !in lines[i] {
    }
  }

  /** Every line of a successful check but the first four starts with 'E'
      (EXPLANATION) or 'S' (SUCCESS). */
  lemma {:induction false} SuccessFirstChars(url: string, p: Prediction)
    requires '\n' !in url && '\n' !in p.prediction && (p.explanation.Some? ==> '\n' !in p.explanation.value)
    ensures var lines := CheckUrl(url, Returned(p)).0;
      lines[0][0] == 'U' && lines[1][0] == 'P' && lines[2][0] == 'S' && lines[3][0] == 'R'
      && (Truthy(p.explanation) ==> lines[4][0] == 'E' && lines[4][1] == 'X')
      && lines[|lines| - 1][0] == 'S'
  {
    SuccessShape(url, p);
  }

  lemma {:induction false} SuccessResult(url: string, p: Prediction)
    requires '\n' !in url && '\n' !in p.prediction && (p.explanation.Some? ==> '\n' !in p.explanation.value)
    ensures FirstLineValue(CheckUrl(url, Returned(p)).0, "RESULT: ", 64) == Some(Truncate(IntText(p.result), 63))
  {
    var lines := CheckUrl(url, Returned(p)).0;
    SuccessShape(url, p);
    SuccessFirstChars(url, p);
    forall i | 0 <= i < 3 ensures !IsPrefix("RESULT: ", lines[i]) { OtherFirst("RESULT: ", lines[i]); }
    FirstLineAt(lines, "RESULT: ", 64, 3, IntText(p.result));
  }

  lemma {:induction false} SuccessPrediction(url: string, p: Prediction)
    requires '\n' !in url && '\n' !in p.prediction && (p.explanation.Some? ==> '\n' !in p.explanation.value)
    ensures FirstLineValue(CheckUrl(url, Returned(p)).0, "PREDICTION: ", 64) == Some(Truncate(p.prediction, 63))
  {
    var lines := CheckUrl(url, Returned(p)).0;
    SuccessShape(url, p);
    SuccessFirstChars(url, p);
    OtherFirst("PREDICTION: ", lines[0]);
    FirstLineAt(lines, "PREDICTION: ", 64, 1, p.prediction);
  }

  lemma {:induction false} SuccessScore(url: string, p: Prediction)
    requires '\n' !in url && '\n' !in p.prediction && (p.explanation.Some? ==> '\n' !in p.explanation.value)
    ensures FirstLineValue(CheckUrl(url, Returned(p)).0, "SCORE: ", 64) == Some(Truncate(ScoreText(p), 63))
  {
    var lines := CheckUrl(url, Returned(p)).0;
    SuccessShape(url, p);
    SuccessFirstChars(url, p);
    forall i | 0 <= i < 2 ensures !IsPrefix("SCORE: ", lines[i]) { OtherFirst("SCORE: ", lines[i]); }
    FirstLineAt(lines, "SCORE: ", 64, 2, ScoreText(p));
  }

  lemma {:induction false} SuccessExplanation(url: string, p: Prediction)
    requires '\n' !in url && '\n' !in p.prediction && (p.explanation.Some? ==> '\n' !in p.explanation.value)
    ensures FirstLineValue(CheckUrl(url, Returned(p)).0, "EXPLANATION: ", 256) ==
      if Truthy(p.explanation) then Some(Truncate(p.explanation.value, 255)) else None
  {
    var lines := CheckUrl(url, Returned(p)).0;
    SuccessShape(url, p);
    SuccessFirstChars(url, p);
    if Truthy(p.explanation) {
      forall i | 0 <= i < 4 ensures !IsPrefix("EXPLANATION: ", lines[i]) { OtherFirst("EXPLANATION: ", lines[i]); }
      FirstLineAt(lines, "EXPLANATION: ", 256, 4, p.explanation.value);
    } else {
      forall i | 0 <= i < |lines| ensures !IsPrefix("EXPLANATION: ", lines[i]) { OtherFirst("EXPLANATION: ", lines[i]); }
      NoLineTagged(lines, "EXPLANATION: ", 256);
    }
  }

  lemma {:induction false} SuccessError(url: string, p: Prediction)
    requires '\n' !in url && '\n' !in p.prediction && (p.explanation.Some? ==> '\n' !in p.explanation.value)
    ensures FirstLineValue(CheckUrl(url, Returned(p)).0, "ERROR: ", 256) == None
  {
    var lines := CheckUrl(url, Returned(p)).0;
    SuccessShape(url, p);
    SuccessFirstChars(url, p);
    forall i | 0 <= i < |lines| ensures !IsPrefix("ERROR: ", lines[i]) {
      if i == 4 && Truthy(p.explanation) {
        DiffersAt("ERROR: ", lines[i], 1);
      } else {
        OtherFirst("ERROR: ", lines[i]);
      }
    }
    NoLineTagged(lines, "ERROR: ", 256);
  }

  /** A successful check: the proxy reads back the result flag, the
      prediction, the score text, the explanation, and no error. */
  lemma {:induction false} SuccessRecord(url: string, p: Prediction, atof: string -> real)
    requires '\n' !in url && '\n' !in p.prediction && (p.explanation.Some? ==> '\n' !in p.explanation.value)
    requires p.result == 0 || p.result == 1
    requires |Output(CheckUrl(url, Returned(p)).0)| < OutputSize
    ensures Captured(CheckUrl(url, Returned(p)).0, atof) ==
      Report(if p.result == 0 then 1 else 0, Truncate(p.prediction, 63), atof(Truncate(ScoreText(p), 63)),
             if Truthy(p.explanation) then Truncate(p.explanation.value, 255) else "", "")
  {
    var lines := CheckUrl(url, Returned(p)).0;
    SuccessShape(url, p);
    CaptureReadsLines(lines, atof);
    SuccessResult(url, p);
    SuccessPrediction(url, p);
    SuccessScore(url, p);
    SuccessExplanation(url, p);
    SuccessError(url, p);
    AtoiReadsInt(p.result);
    assert |IntText(p.result)| == 1;
  }

  /** The captured output is at most one newline longer per line than
      its lines. */
  lemma {:induction false} OutputBound(lines: seq<string>, m: nat)
    requires forall i :: 0 <= i < |lines| ==> |lines[i]| <= m
    ensures |Output(lines)| <= |lines| * (m + 1)
    decreases |lines|
  {
    if lines != [] {
      OutputBound(lines[1..], m);
    }
  }

  /** The lines printed when the prediction raised, one by one. */
  lemma FailureShape(url: string, message: string)
    requires '\n' !in url && '\n' !in message
    ensures var lines := CheckUrl(url, Raised(message)).0;
      && lines == ["URL: " + url, "ERROR: " + message, "RESULT: " + "0", "SUCCESS: false"]
      && SingleLines(lines)
      && lines[0][0] == 'U' && lines[1][0] == 'E' && lines[1][1] == 'R' && lines[2][0] == 'R'
      && lines[3][0] == 'S' && lines[3][1] == 'U'
  {
  }

  lemma {:induction false} FailureResultAndError(url: string, message: string)
    requires '\n' !in url && '\n' !in message
    ensures FirstLineValue(CheckUrl(url, Raised(message)).0, "RESULT: ", 64) == Some("0")
    ensures FirstLineValue(CheckUrl(url, Raised(message)).0, "ERROR: ", 256) == Some(Truncate(message, 255))
  {
    var lines := CheckUrl(url, Raised(message)).0;
    FailureShape(url, message);
    forall i | 0 <= i < 2 ensures !IsPrefix("RESULT: ", lines[i]) { OtherFirst("RESULT: ", lines[i]); }
    FirstLineAt(lines, "RESULT: ", 64, 2, "0");
    OtherFirst("ERROR: ", lines[0]);
    FirstLineAt(lines, "ERROR: ", 256, 1, message);
  }

  lemma {:induction false} FailureAbsent(url: string, message: string)
    requires '\n' !in url && '\n' !in message
    ensures FirstLineValue(CheckUrl(url, Raised(message)).0, "PREDICTION: ", 64) == None
    ensures FirstLineValue(CheckUrl(url, Raised(message)).0, "SCORE: ", 64) == None
    ensures FirstLineValue(CheckUrl(url, Raised(message)).0, "EXPLANATION: ", 256) == None
  {
    var lines := CheckUrl(url, Raised(message)).0;
    FailureShape(url, message);
    forall i | 0 <= i < 4 ensures !IsPrefix("PREDICTION: ", lines[i]) { OtherFirst("PREDICTION: ", lines[i]); }
    NoLineTagged(lines, "PREDICTION: ", 64);
    forall i | 0 <= i < 4 ensures !IsPrefix("SCORE: ", lines[i]) {
      if i == 3 { DiffersAt("SCORE: ", lines[i], 1); } else { OtherFirst("SCORE: ", lines[i]); }
    }
    NoLineTagged(lines, "SCORE: ", 64);
    forall i | 0 <= i < 4 ensures !IsPrefix("EXPLANATION: ", lines[i]) {
      if i == 1 { DiffersAt("EXPLANATION: ", lines[i], 1); } else { OtherFirst("EXPLANATION: ", lines[i]); }
    }
    NoLineTagged(lines, "EXPLANATION: ", 256);
  }

  /** A check whose prediction raised: the proxy records the error and
      keeps the URL safe. */
  lemma {:induction false} FailureRecord(url: string, message: string, atof: string -> real)
    requires '\n' !in url && '\n' !in message
    requires |Output(CheckUrl(url, Raised(message)).0)| < OutputSize
    ensures Captured(CheckUrl(url, Raised(message)).0, atof) == Report(1, "", 0.0, "", Truncate(message, 255))
  {
    FailureShape(url, message);
    CaptureReadsLines(CheckUrl(url, Raised(message)).0, atof);
    FailureResultAndError(url, message);
    FailureAbsent(url, message);
    AtoiReadsInt(0);
  }

  /** The usage lines, one by one. */
  lemma UsageFits()
    ensures SingleLines(UsageLines) && |Output(UsageLines)| < OutputSize
  {
    UsageOneLine();
    UsageShort();
  }

  lemma UsageOneLine()
    ensures SingleLines(UsageLines)
  {
    forall i | 0 <= i < |UsageLines| ensures '\n' !in UsageLines[i] {
    }
  }

  lemma UsageShort()
    ensures |Output(UsageLines)| < OutputSize
  {
    forall i | 0 <= i < |UsageLines| ensures |UsageLines[i]| <= 50 {
    }
    OutputBound(UsageLines, 50);
  }

  lemma UsageShape()
    ensures UsageLines[0] == "ERROR: " + UsageMessage && UsageLines[1] == "RESULT: " + "0"
    ensures UsageLines[0][0] == 'E' && UsageLines[0][1] == 'R' && UsageLines[1][0] == 'R' && |UsageLines| == 2
    ensures |UsageMessage| <= 255
  {
  }

  lemma {:induction false} UsageFields()
    ensures FirstLineValue(UsageLines, "RESULT: ", 64) == Some("0")
    ensures FirstLineValue(UsageLines, "ERROR: ", 256) == Some(UsageMessage)
    ensures FirstLineValue(UsageLines, "PREDICTION: ", 64) == None
    ensures FirstLineValue(UsageLines, "SCORE: ", 64) == None
    ensures FirstLineValue(UsageLines, "EXPLANATION: ", 256) == None
  {
    var lines := UsageLines;
    UsageShape();
    OtherFirst("RESULT: ", lines[0]);
    FirstLineAt(lines, "RESULT: ", 64, 1, "0");
    FirstLineAt(lines, "ERROR: ", 256, 0, UsageMessage);
    forall i | 0 <= i < 2 ensures !IsPrefix("PREDICTION: ", lines[i]) { OtherFirst("PREDICTION: ", lines[i]); }
    NoLineTagged(lines, "PREDICTION: ", 64);
    forall i | 0 <= i < 2 ensures !IsPrefix("SCORE: ", lines[i]) { OtherFirst("SCORE: ", lines[i]); }
    NoLineTagged(lines, "SCORE: ", 64);
    forall i | 0 <= i < 2 ensures !IsPrefix("EXPLANATION: ", lines[i]) {
      if i == 0 { DiffersAt("EXPLANATION: ", lines[i], 1); } else { OtherFirst("EXPLANATION: ", lines[i]); }
    }
    NoLineTagged(lines, "EXPLANATION: ", 256);
  }

  /** A wrong number of arguments: the usage error is recorded and the URL
      stays safe. */
  lemma {:induction false} UsageRecord(atof: string -> real)
    ensures Captured(UsageLines, atof) == Report(1, "", 0.0, "", UsageMessage)
  {
    UsageFits();
    CaptureReadsLines(UsageLines, atof);
    UsageFields();
    AtoiReadsInt(0);
  }

  /** The import-failure lines, one by one. */
  lemma ImportFits()
    ensures SingleLines(ImportFailureLines) && |Output(ImportFailureLines)| < OutputSize
  {
    ImportOneLine();
    ImportShort();
  }

  lemma ImportOneLine()
    ensures SingleLines(ImportFailureLines)
  {
    forall i | 0 <= i < |ImportFailureLines| ensures '\n' !in ImportFailureLines[i] {
    }
  }

  lemma ImportShort()
    ensures |Output(ImportFailureLines)| < OutputSize
  {
    forall i | 0 <= i < |ImportFailureLines| ensures |ImportFailureLines[i]| <= 50 {
    }
    OutputBound(ImportFailureLines, 50);
  }

  lemma ImportShape()
    ensures var lines := ImportFailureLines;
      && |lines| == 4 && lines[0] == "ERROR: " + ImportMessage && lines[1] == "RESULT: " + "0"
      && lines[2] == "PREDICTION: " + "unknown" && lines[3] == "SCORE: " + "0"
      && lines[0][0] == 'E' && lines[0][1] == 'R' && lines[1][0] == 'R' && lines[2][0] == 'P' && lines[3][0] == 'S'
    ensures |ImportMessage| <= 255
  {
  }

  lemma {:induction false} ImportFields()
    ensures FirstLineValue(ImportFailureLines, "RESULT: ", 64) == Some("0")
    ensures FirstLineValue(ImportFailureLines, "ERROR: ", 256) == Some(ImportMessage)
    ensures FirstLineValue(ImportFailureLines, "PREDICTION: ", 64) == Some("unknown")
    ensures FirstLineValue(ImportFailureLines, "SCORE: ", 64) == Some("0")
    ensures FirstLineValue(ImportFailureLines, "EXPLANATION: ", 256) == None
  {
    var lines := ImportFailureLines;
    ImportShape();
    OtherFirst("RESULT: ", lines[0]);
    FirstLineAt(lines, "RESULT: ", 64, 1, "0");
    FirstLineAt(lines, "ERROR: ", 256, 0, ImportMessage);
    forall i | 0 <= i < 2 ensures !IsPrefix("PREDICTION: ", lines[i]) { OtherFirst("PREDICTION: ", lines[i]); }
    FirstLineAt(lines, "PREDICTION: ", 64, 2, "unknown");
    forall i | 0 <= i < 3 ensures !IsPrefix("SCORE: ", lines[i]) { OtherFirst("SCORE: ", lines[i]); }
    FirstLineAt(lines, "SCORE: ", 64, 3, "0");
    forall i | 0 <= i < 4 ensures !IsPrefix("EXPLANATION: ", lines[i]) {
      if i == 0 { DiffersAt("EXPLANATION: ", lines[i], 1); } else { OtherFirst("EXPLANATION: ", lines[i]); }
    }
    NoLineTagged(lines, "EXPLANATION: ", 256);
  }

  /** The classifier could not be imported: the error and the "unknown"
      prediction are recorded and the URL stays safe. */
  lemma {:induction false} ImportFailureRecord(atof: string -> real)
    ensures Captured(ImportFailureLines, atof) == Report(1, "unknown", atof("0"), "", ImportMessage)
  {
    ImportFits();
    CaptureReadsLines(ImportFailureLines, atof);
    ImportFields();
    AtoiReadsInt(0);
  }

  /** A script that dies before printing anything leaves the cleared
      record: safe, with every text field empty and no error. */
  lemma {:induction false} CrashRecord(atof: string -> real)
    ensures Captured([], atof) == Cleared
  {
    assert Output([]) == "";
    assert FgetsChunks("") == [];
    assert Accumulated([]) == "";
  }

  /** No line the script prints for these inputs holds a newline. */
  predicate OneLineInputs(argv: seq<string>, outcome: Outcome)
  {
    && (|argv| == 2 ==> '\n' !in argv[1])
    && (outcome.Returned? ==>
          '\n' !in outcome.p.prediction && (outcome.p.explanation.Some? ==> '\n' !in outcome.p.explanation.value))
    && (outcome.Raised? ==> '\n' !in outcome.message)
  }

  /** A returned prediction carries the result 0 or 1. */
  predicate FlagResult(outcome: Outcome)
  {
    outcome.Returned? ==> outcome.p.result == 0 || outcome.p.result == 1
  }

  /** The script ran, was given one URL, and the prediction returned the
      result 1. */
  predicate Flagged(imp: Import, argv: seq<string>, outcome: Outcome)
  {
    imp.Imported? && |argv| == 2 && outcome.Returned? && outcome.p.result == 1
  }

  /** The output of one run of the script fits the proxy's capture
      buffer. */
  predicate ScriptFits(imp: Import, argv: seq<string>, outcome: Outcome)
  {
    |Output(Script(imp, argv, outcome).lines)| < OutputSize
  }

  /** The record the proxy fills from one run of the script. */
  function ScriptReport(imp: Import, argv: seq<string>, outcome: Outcome, atof: string -> real): Report
  {
    Captured(Script(imp, argv, outcome).lines, atof)
  }

  /** The proxy blocks a URL exactly when the script ran, got a prediction
      and printed a result of 1: every failure on the way leaves the URL
      marked safe. */
  lemma {:induction false} ProxyVerdict(imp: Import, argv: seq<string>, outcome: Outcome, atof: string -> real)
    requires OneLineInputs(argv, outcome) && FlagResult(outcome)
    requires ScriptFits(imp, argv, outcome)
    ensures ScriptReport(imp, argv, outcome, atof).isSafe == 0 <==> Flagged(imp, argv, outcome)
  {
    if imp.ImportCrashed? {
      CrashRecord(atof);
    } else if imp.ImportFailed? {
      ImportFailureRecord(atof);
    } else if |argv| != 2 {
      UsageRecord(atof);
    } else {
      match outcome
      case Returned(p) => SuccessRecord(argv[1], p, atof);
      case Raised(message) => FailureRecord(argv[1], message, atof);
    }
  }

  /** None of the explanations `predict_url` gives holds a newline. */
  lemma PredictionOneLine(parsed: Parsed, inf: Inference)
    requires '\n' !in inf.class1
    ensures var p := PredictUrl.PredictUrl(parsed, inf);
      '\n' !in p.prediction && (p.explanation.Some? ==> '\n' !in p.explanation.value)
  {
    OneLineTrusted();
    OneLineNotAUrl();
    OneLineEdgeCase();
    OneLineInvalid();
  }

  lemma OneLineTrusted() ensures '\n' !in TrustedExplanation {}
  lemma OneLineNotAUrl() ensures '\n' !in NotAUrlExplanation {}
  lemma OneLineEdgeCase() ensures '\n' !in EdgeCaseExplanation {}
  lemma OneLineInvalid() ensures '\n' !in InvalidWarning {}

  /** From the classifier to the proxy: a URL is blocked exactly when its
      netloc is not allowlisted and the classifier's top class is not
      benign. */
  lemma {:induction false} BlockedExactlyThreats(url: string, parsed: Parsed, inf: Inference, atof: string -> real)
    requires '\n' !in url && '\n' !in inf.class1
    requires |Output(CheckUrl(url, Returned(PredictUrl.PredictUrl(parsed, inf))).0)| < OutputSize
    ensures Captured(CheckUrl(url, Returned(PredictUrl.PredictUrl(parsed, inf))).0, atof).isSafe == 0
        <==> !Allowlisted(parsed) && inf.class1 != "benign"
  {
    var p := PredictUrl.PredictUrl(parsed, inf);
    PredictionOneLine(parsed, inf);
    SuccessRecord(url, p, atof);
  }
}

=== FILE: strutil.dfy ===
/** String helpers shared by the Python and C models: Python's `in`,
    `startswith`, `lower()` (ASCII letters), `str.count`, `str.join`,
    `str(int)`, and C's `strncpy` truncation. */
module StrUtil {

  datatype Option<T> = None | Some(value: T)

  /** `s.startswith(p)`; also C's `strncmp(s, p, strlen(p)) == 0`. */
  predicate IsPrefix(p: string, s: string)
  {
    |p| <= |s| && s[..|p|] == p
  }

  /** Python's `sub in s`. */
  predicate Contains(s: string, sub: string)
    decreases |s|
  {
    IsPrefix(sub, s) || (|s| > 0 && Contains(s[1..], sub))
  }

  lemma {:induction false} ContainsAppendLeft(a: string, b: string, sub: string)
    requires Contains(b, sub)
    ensures Contains(a + b, sub)
    decreases |a|
  {
    if a != [] {
      assert (a + b)[1..] == a[1..] + b;
      ContainsAppendLeft(a[1..], b, sub);
    } else {
      assert a + b == b;
    }
  }

  lemma {:induction false} ContainsPrefixed(a: string, b: string, sub: string)
    requires Contains(a, sub)
    ensures Contains(a + b, sub)
    decreases |a|
  {
    if IsPrefix(sub, a) {
      assert (a + b)[..|sub|] == a[..|sub|];
    } else {
      assert (a + b)[1..] == a[1..] + b;
      ContainsPrefixed(a[1..], b, sub);
    }
  }

  /** The substring `s[i..i+|sub|]` witnesses `sub in s`. */
  lemma {:induction false} ContainsAt(s: string, sub: string, i: nat)
    requires i + |sub| <= |s| && s[i..i + |sub|] == sub
    ensures Contains(s, sub)
    decreases i
  {
    if i == 0 {
      assert s[..|sub|] == sub;
    } else {
      assert s[1..][i - 1..i - 1 + |sub|] == s[i..i + |sub|];
      ContainsAt(s[1..], sub, i - 1);
    }
  }

  /** A character that does not occur in `s` is not a substring of it. */
  lemma {:induction false} NotContainsChar(s: string, c: char)
    requires c !in s
    ensures !Contains(s, [c])
    decreases |s|
  {
    if |s| > 0 {
      assert s[0] != c;
      NotContainsChar(s[1..], c);
    }
  }

  /** A string one of whose characters does not occur in `s` is not a
      substring of it. */
  lemma {:induction false} AbsentChar(s: string, sub: string, k: nat)
    requires k < |sub| && sub[k] !in s
    ensures !Contains(s, sub)
    decreases |s|
  {
    if |sub| <= |s| {
      assert s[..|sub|][k] != sub[k];
    }
    if |s| > 0 {
      assert sub[k] !in s[1..];
      AbsentChar(s[1..], sub, k);
    }
  }

  /** Each occurrence counted by `Count` uses up the copies of `c` in `sub`. */
  lemma {:induction false} CountByChar(s: string, sub: string, c: char)
    requires |sub| > 0
    ensures Count(s, sub) * multiset(sub)[c] <= multiset(s)[c]
    decreases |s|
  {
    if |s| < |sub| {
    } else if IsPrefix(sub, s) {
      var rest := s[|sub|..];
      CountByChar(rest, sub, c);
      assert s == sub + rest;
      assert multiset(s)[c] == multiset(sub)[c] + multiset(rest)[c];
      assert (1 + Count(rest, sub)) * multiset(sub)[c] == multiset(sub)[c] + Count(rest, sub) * multiset(sub)[c];
    } else {
      CountByChar(s[1..], sub, c);
      assert s == [s[0]] + s[1..];
      assert multiset(s)[c] >= multiset(s[1..])[c];
    }
  }

  /** C's `strncpy(dst, s, n); dst[n] = '\0'` on a string without NUL. */
  function Truncate(s: string, n: nat): (r: string)
    ensures |r| <= n && IsPrefix(r, s)
    ensures |s| <= n ==> r == s
    ensures |s| > n ==> |r| == n
  {
    if |s| <= n then s else s[..n]
  }

  predicate IsUpper(c: char) { 'A' <= c <= 'Z' }
  predicate IsLower(c: char) { 'a' <= c <= 'z' }
  predicate IsDigit(c: char) { '0' <= c <= '9' }
  predicate IsAlnum(c: char) { IsUpper(c) || IsLower(c) || IsDigit(c) }

  /** Lower-casing of one character, restricted to ASCII letters. */
  function LowerChar(c: char): (r: char)
    ensures !IsUpper(r)
    ensures !IsUpper(c) ==> r == c
  {
    if IsUpper(c) then (c as int + 32) as char else c
  }

  function Lower(s: string): (r: string)
    ensures |r| == |s|
    ensures forall i :: 0 <= i < |s| ==> r[i] == LowerChar(s[i])
  {
    seq(|s|, i requires 0 <= i < |s| => LowerChar(s[i]))
  }

  /** Python's `s.count(sub)` for a non-empty `sub`: non-overlapping
      occurrences, scanned left to right. */
  function Count(s: string, sub: string): nat
    requires |sub| > 0
    decreases |s|
  {
    if |s| < |sub| then 0
    else if IsPrefix(sub, s) then 1 + Count(s[|sub|..], sub)
    else Count(s[1..], sub)
  }

  /** Python's `sep.join(parts)`. */
  function Join(parts: seq<string>, sep: string): string
  {
    if |parts| == 0 then ""
    else if |parts| == 1 then parts[0]
    else parts[0] + sep + Join(parts[1..], sep)
  }

  function DigitChar(d: nat): char
    requires d < 10
  {
    ('0' as int + d) as char
  }

  /** Python's `str(n)` for a natural number. */
  function NatToString(n: nat): (r: string)
    ensures |r| > 0
    ensures forall i :: 0 <= i < |r| ==> IsDigit(r[i])
  {
    if n < 10 then [DigitChar(n)] else NatToString(n / 10) + [DigitChar(n % 10)]
  }

  /** The value of a string of decimal digits. */
  function DigitsValue(d: string): nat
  {
    if d == [] then 0 else 10 * DigitsValue(d[..|d| - 1]) + ((d[|d| - 1] as int - '0' as int) % 10)
  }

  lemma {:induction false} DigitsValueOfNat(n: nat)
    ensures DigitsValue(NatToString(n)) == n
  {
    var s := NatToString(n);
    if n < 10 {
      assert s[..0] == [];
    } else {
      DigitsValueOfNat(n / 10);
      assert s[..|s| - 1] == NatToString(n / 10);
    }
  }

  /** Index of the first occurrence of `c` in `s`. */
  function IndexOf(s: string, c: char): (r: Option<nat>)
    ensures r.None? ==> c !in s
    ensures r.Some? ==> r.value < |s| && s[r.value] == c && c !in s[..r.value]
  {
    if |s| == 0 then None
    else if s[0] == c then Some(0)
    else match IndexOf(s[1..], c)
      case None => None
      case Some(k) =>
        assert s[..k + 1] == [s[0]] + s[1..][..k];
        Some(k + 1)
  }

  /** Index of the last occurrence of `c` in `s`. */
  function LastIndexOf(s: string, c: char): (r: Option<nat>)
    ensures r.None? ==> c !in s
    ensures r.Some? ==> r.value < |s| && s[r.value] == c && c !in s[r.value + 1..]
  {
    if |s| == 0 then None
    else if s[|s| - 1] == c then Some(|s| - 1)
    else match LastIndexOf(s[..|s| - 1], c)
      case None => None
      case Some(k) =>
        assert s[k + 1..] == s[..|s| - 1][k + 1..] + [s[|s| - 1]];
        Some(k)
  }

  /** The first occurrence is the only index with its two properties. */
  lemma {:induction false} IndexOfIs(s: string, c: char, k: nat)
    requires k < |s| && s[k] == c && c !in s[..k]
    ensures IndexOf(s, c) == Some(k)
  {
    var r := IndexOf(s, c);
    assert r.Some? by {
      assert s[k] in s;
    }
    forall i | 0 <= i < k ensures s[i] != c {
      assert s[i] == s[..k][i];
    }
    forall i | 0 <= i < r.value ensures s[i] != c {
      assert s[i] == s[..r.value][i];
    }
  }

  /** The last occurrence is the only index with its two properties. */
  lemma {:induction false} LastIndexOfIs(s: string, c: char, k: nat)
    requires k < |s| && s[k] == c && c !in s[k + 1..]
    ensures LastIndexOf(s, c) == Some(k)
  {
    var r := LastIndexOf(s, c);
    assert r.Some? by {
      assert s[k] in s;
    }
    forall i | k < i < |s| ensures s[i] != c {
      assert s[i] == s[k + 1..][i - k - 1];
    }
    forall i | r.value < i < |s| ensures s[i] != c {
      assert s[i] == s[r.value + 1..][i - r.value - 1];
    }
  }

  /** Python's `s.split(c)` for a one-character separator. */
  function Split(s: string, c: char): (r: seq<string>)
    ensures |r| >= 1 && (|r| == 1 <==> c !in s)
    ensures forall i :: 0 <= i < |r| ==> c !in r[i]
    decreases |s|
  {
    match IndexOf(s, c)
    case None => [s]
    case Some(k) => [s[..k]] + Split(s[k + 1..], c)
  }

  /** `sep.join` of a list that has a first element and a non-empty rest. */
  lemma {:induction false} JoinCons(x: string, rest: seq<string>, sep: string)
    requires |rest| >= 1
    ensures Join([x] + rest, sep) == x + sep + Join(rest, sep)
  {
    assert ([x] + rest)[1..] == rest;
  }

  /** Joining the pieces of a split gives the string back. */
  lemma {:induction false} JoinSplit(s: string, c: char)
    ensures Join(Split(s, c), [c]) == s
    decreases |s|
  {
    if c in s {
      var k := IndexOf(s, c).value;
      var r := s[k + 1..];
      var rest := Split(r, c);
      assert Split(s, c) == [s[..k]] + rest;
      JoinSplit(r, c);
      JoinCons(s[..k], rest, [c]);
      SplitAround(s, k);
    }
  }

  /** A string is the part before index `k`, the character at `k` and the
      part after it. */
  lemma SplitAround(s: string, k: nat)
    requires k < |s|
    ensures s == s[..k] + [s[k]] + s[k + 1..]
  {
  }

  /** Splitting a join of pieces free of the separator gives the pieces
      back. */
  lemma {:induction false} SplitJoin(parts: seq<string>, c: char)
    requires |parts| >= 1 && forall i :: 0 <= i < |parts| ==> c !in parts[i]
    ensures Split(Join(parts, [c]), c) == parts
    decreases |parts|
  {
    if |parts| > 1 {
      var rest := parts[1..];
      SplitJoin(rest, c);
      JoinCons(parts[0], rest, [c]);
      assert parts == [parts[0]] + rest;
      var s := Join(parts, [c]);
      assert s == parts[0] + [c] + Join(rest, [c]);
      assert s[..|parts[0]|] == parts[0];
      IndexOfIs(s, c, |parts[0]|);
      assert s[|parts[0]| + 1..] == Join(rest, [c]);
    } else {
      assert c !in parts[0];
    }
  }

  /** `sep.join` of a list with one more element at its end. */
  lemma {:induction false} JoinSnoc(init: seq<string>, last: string, sep: string)
    requires |init| >= 1
    ensures Join(init + [last], sep) == Join(init, sep) + sep + last
    decreases |init|
  {
    if |init| == 1 {
      JoinCons(init[0], [last], sep);
      assert init + [last] == [init[0]] + [last];
    } else {
      JoinSnoc(init[1..], last, sep);
      JoinCons(init[0], init[1..] + [last], sep);
      assert init + [last] == [init[0]] + (init[1..] + [last]);
      JoinCons(init[0], init[1..], sep);
      assert init == [init[0]] + init[1..];
    }
  }

  lemma {:induction false} InitLast(xs: seq<string>)
    requires |xs| >= 1
    ensures xs == xs[..|xs| - 1] + [xs[|xs| - 1]]
  {
  }

  /** A string with the separator is the join of all its pieces but the
      last, the separator, and the last piece. */
  lemma {:induction false} SplitLast(s: string, c: char)
    requires c in s
    ensures var parts := Split(s, c);
      s == Join(parts[..|parts| - 1], [c]) + [c] + parts[|parts| - 1]
  {
    var parts := Split(s, c);
    InitLast(parts);
    JoinSplit(s, c);
    JoinSnoc(parts[..|parts| - 1], parts[|parts| - 1], [c]);
  }

  /** `sep.join(s.split(sep)[:-1])` is the text before the last separator. */
  lemma {:induction false} JoinAllButLast(s: string, c: char)
    requires c in s
    ensures var parts := Split(s, c);
      Join(parts[..|parts| - 1], [c]) == s[..LastIndexOf(s, c).value]
  {
    var parts := Split(s, c);
    var front := Join(parts[..|parts| - 1], [c]);
    SplitLast(s, c);
    LastAfter(front, c, parts[|parts| - 1]);
  }

  /** The separator in front of a separator-free last piece is the last
      one. */
  lemma {:induction false} LastAfter(front: string, c: char, last: string)
    requires c !in last
    ensures LastIndexOf(front + [c] + last, c) == Some(|front|)
    ensures (front + [c] + last)[..|front|] == front
  {
    var s := front + [c] + last;
    assert s[|front| + 1..] == last;
    LastIndexOfIs(s, c, |front|);
  }

  /** A character in neither the pieces nor the separator is not in
      their join. */
  lemma {:induction false} JoinAvoids(parts: seq<string>, sep: string, c: char)
    requires c !in sep && forall i :: 0 <= i < |parts| ==> c !in parts[i]
    ensures c !in Join(parts, sep)
    decreases |parts|
  {
    if |parts| > 1 {
      JoinAvoids(parts[1..], sep, c);
      assert parts[1..][0] == parts[1];
    }
  }

  /** Appending text without `c` leaves the last `c` where it was. */
  lemma {:induction false} LastIndexOfAppend(a: string, b: string, c: char)
    requires c in a && c !in b
    ensures LastIndexOf(a + b, c) == LastIndexOf(a, c)
    ensures (a + b)[..LastIndexOf(a, c).value] == a[..LastIndexOf(a, c).value]
  {
    var k := LastIndexOf(a, c).value;
    assert (a + b)[k + 1..] == a[k + 1..] + b;
    LastIndexOfIs(a + b, c, k);
  }

  /** `s` without the characters of `ws` at its start. */
  function StripLeft(s: string, ws: set<char>): (r: string)
    ensures |r| <= |s| && r == s[|s| - |r|..]
    ensures r == "" || r[0] !in ws
    ensures forall i :: 0 <= i < |s| - |r| ==> s[i] in ws
  {
    if s != "" && s[0] in ws then StripLeft(s[1..], ws) else s
  }

  /** `s` without the characters of `ws` at its end. */
  function StripRight(s: string, ws: set<char>): (r: string)
    ensures IsPrefix(r, s)
    ensures r == "" || r[|r| - 1] !in ws
    ensures forall i :: |r| <= i < |s| ==> s[i] in ws
  {
    if s != "" && s[|s| - 1] in ws then StripRight(s[..|s| - 1], ws) else s
  }

  /** `r` is the slice of `s` from `k`, with only characters of `ws`
      before and after it. */
  predicate SliceBetween(s: string, ws: set<char>, k: nat, r: string)
  {
    && k + |r| <= |s| && s[k..k + |r|] == r
    && (forall i :: 0 <= i < k ==> s[i] in ws)
    && (forall i :: k + |r| <= i < |s| ==> s[i] in ws)
  }

  /** Python's `s.strip(chars)` for the characters `ws`: the slice of `s`
      that starts after its leading run of `ws` and ends before its
      trailing run, with none of `ws` at either end. */
  function StripWith(s: string, ws: set<char>): (r: string)
    ensures r == "" || (r[0] !in ws && r[|r| - 1] !in ws)
    ensures SliceBetween(s, ws, |s| - |StripLeft(s, ws)|, r)
  {
    var l := StripLeft(s, ws);
    var r := StripRight(l, ws);
    StripSlice(s, ws, l, r);
    r
  }

  /** The right strip of the left strip is a slice of `s` with only `ws`
      outside it. */
  lemma {:induction false} StripSlice(s: string, ws: set<char>, l: string, r: string)
    requires l == StripLeft(s, ws) && r == StripRight(l, ws)
    ensures SliceBetween(s, ws, |s| - |l|, r)
  {
    var k := |s| - |l|;
    assert l == s[k..];
    PrefixOfSuffix(s, k, r);
    forall i | k + |r| <= i < |s|
      ensures s[i] in ws
    {
      assert s[i] == l[i - k];
    }
  }

  /** A prefix of a suffix is a slice, and starts where the suffix does. */
  lemma PrefixOfSuffix(s: string, k: nat, r: string)
    requires k <= |s| && IsPrefix(r, s[k..])
    ensures k + |r| <= |s| && s[k..k + |r|] == r
    ensures r != "" ==> r[0] == s[k]
  {
  }

  /** Stripping `pre + mid + post`, where `pre` and `post` are made of
      `ws` and `mid` neither starts nor ends with one, gives `mid`. */
  lemma {:induction false} StripAround(pre: string, mid: string, post: string, ws: set<char>)
    requires forall i :: 0 <= i < |pre| ==> pre[i] in ws
    requires forall i :: 0 <= i < |post| ==> post[i] in ws
    requires mid != "" && mid[0] !in ws && mid[|mid| - 1] !in ws
    ensures StripWith(pre + mid + post, ws) == mid
  {
    LeftRun(pre, mid + post, ws);
    assert pre + mid + post == pre + (mid + post);
    RightRun(mid, post, ws);
  }

  lemma {:induction false} LeftRun(pre: string, rest: string, ws: set<char>)
    requires forall i :: 0 <= i < |pre| ==> pre[i] in ws
    requires rest == "" || rest[0] !in ws
    ensures StripLeft(pre + rest, ws) == rest
    decreases |pre|
  {
    if pre == "" {
      assert pre + rest == rest;
    } else {
      assert (pre + rest)[1..] == pre[1..] + rest;
      LeftRun(pre[1..], rest, ws);
    }
  }

  lemma {:induction false} RightRun(rest: string, post: string, ws: set<char>)
    requires forall i :: 0 <= i < |post| ==> post[i] in ws
    requires rest == "" || rest[|rest| - 1] !in ws
    ensures StripRight(rest + post, ws) == rest
    decreases |post|
  {
    if post == "" {
      assert rest + post == rest;
    } else {
      assert (rest + post)[..|rest + post| - 1] == rest + post[..|post| - 1];
      RightRun(rest, post[..|post| - 1], ws);
    }
  }

  /** Text without any of `ws` at its ends is kept whole. */
  lemma {:induction false} StripKeepsTrimmed(s: string, ws: set<char>)
    requires s == "" || (s[0] !in ws && s[|s| - 1] !in ws)
    ensures StripWith(s, ws) == s
  {
    assert StripLeft(s, ws) == s;
  }
}

=== FILE: train_model.dfy ===
/** The synthetic training corpus of train_model.py: the four generators
    that add benign, malicious, edge-case and not-a-URL samples to the
    data set. As in the generator module, every call to `random` is an
    input: each round of a generator's loop is one draw record. */
module Corpus {
  import opened StrUtil
  import opened UrlGenerator

  /** Adding one element grows a set by at most one. */
  lemma {:induction false} AddOne(a: set<string>, x: string)
    ensures |a + {x}| <= |a| + 1
  {
    if x !in a {
      assert |a + {x}| == |a| + 1;
    } else {
      assert a + {x} == a;
    }
  }

  /** Adding the same element to a set and a sequence with the same
      members keeps their members the same. */
  lemma {:induction false} Extend(urls: set<string>, made: seq<string>, url: string)
    requires forall u :: u in urls <==> u in made
    ensures forall u :: u in urls + {url} <==> u in made + [url]
  {
  }

  /** Each of `n` dotted-decimal numbers is between 1 and 255. */
  predicate Octets(octets: seq<int>)
  {
    |octets| == 4 && forall i :: 0 <= i < 4 ==> 1 <= octets[i] <= 255
  }

  /** `f"{a}.{b}.{c}.{d}"`. */
  function DottedQuad(octets: seq<int>): string
    requires Octets(octets)
  {
    Join(OctetTexts(octets), ".")
  }

  // ---------------------------------------------------------------------
  // generate_benign_urls

  /** The TLDs a benign URL may be given. */
  const Tlds: seq<string> := [".com", ".org", ".net", ".edu", ".gov", ".in", ".io", ".ai", ".co", ".info", ".xyz", ".shop"]

  /** One round: the valid URL's draws, whether the TLD is swapped and
      for which, whether an IP URL replaces it and with which numbers. */
  datatype BenignDraw = BenignDraw(valid: ValidDraw, swap: bool, tld: nat, ip: bool, octets: seq<int>)

  predicate BenignDrawn(d: BenignDraw)
  {
    ValidDrawn(d.valid) && (d.swap ==> d.tld < |Tlds|) && (d.ip ==> Octets(d.octets))
  }

  /** `'.'.join(url.split('.')[:-1]) + tld` when the URL has a dot. */
  function SwapTld(url: string, tld: string): string
  {
    var parts := Split(url, '.');
    if |parts| > 1 then Join(parts[..|parts| - 1], ".") + tld else url
  }

  function BenignUrl(d: BenignDraw): string
    requires BenignDrawn(d)
  {
    var url := ValidUrl(d.valid);
    var url := if d.swap then SwapTld(url, Tlds[d.tld]) else url;
    if d.ip then "http://" + DottedQuad(d.octets) + "/home" else url
  }

  /** The TLD swap of one round, on whatever URL the generator gave. */
  method SwapRound(url: string, tld: string) returns (r: string)
    ensures r == SwapTld(url, tld)
  {
    r := url;
    var parts := Split(url, '.');
    if |parts| > 1 {
      r := Join(parts[..|parts| - 1], ".") + tld;
    }
  }

  /** The body of the loop: one URL from one round's draws. */
  method BenignRound(d: BenignDraw) returns (url: string)
    requires BenignDrawn(d)
    ensures url == BenignUrl(d)
  {
    url := ValidUrl(d.valid);
    if d.swap {
      url := SwapRound(url, Tlds[d.tld]);
    }
    if d.ip {
      url := "http://" + DottedQuad(d.octets) + "/home";
    }
  }

  method GenerateBenignUrls(draws: seq<BenignDraw>) returns (urls: set<string>)
    requires forall i :: 0 <= i < |draws| ==> BenignDrawn(draws[i])
    ensures |urls| <= |draws|
    ensures forall u :: u in urls <==> exists j :: 0 <= j < |draws| && u == BenignUrl(draws[j])
  {
    urls := {};
    ghost var made: seq<string> := [];
    var i := 0;
    while i < |draws|
      invariant 0 <= i <= |draws|
      invariant |urls| <= i && |made| == i
      invariant forall j :: 0 <= j < i ==> made[j] == BenignUrl(draws[j])
      invariant forall u :: u in urls <==> u in made
    {
      var url := BenignRound(draws[i]);
      AddOne(urls, url);
      Extend(urls, made, url);
      urls := urls + {url};
      ghost var prev := made;
      made := made + [url];
      forall j | 0 <= j < i + 1 ensures made[j] == BenignUrl(draws[j]) {
        if j < i {
          assert made[j] == prev[j];
        }
      }
      i := i + 1;
    }
    forall u | u in urls ensures exists j :: 0 <= j < |draws| && u == BenignUrl(draws[j]) {
      var j :| 0 <= j < |made| && made[j] == u;
    }
    forall u | exists j :: 0 <= j < |draws| && u == BenignUrl(draws[j]) ensures u in urls {
      var j :| 0 <= j < |draws| && u == BenignUrl(draws[j]);
      assert made[j] == u;
    }
  }

  /** The swap keeps everything before the last dot and puts the new TLD
      after it; a URL without a dot is kept. */
  lemma {:induction false} SwapTldMeaning(url: string, tld: string)
    ensures '.' in url ==> SwapTld(url, tld) == url[..LastIndexOf(url, '.').value] + tld
    ensures '.' !in url ==> SwapTld(url, tld) == url
  {
    if '.' in url {
      SwapTldDotted(url, tld);
    } else {
      assert |Split(url, '.')| == 1;
    }
  }

  lemma {:induction false} SwapTldDotted(url: string, tld: string)
    requires '.' in url
    ensures SwapTld(url, tld) == url[..LastIndexOf(url, '.').value] + tld
  {
    var parts := Split(url, '.');
    var front := Join(parts[..|parts| - 1], ".");
    assert |parts| > 1 && SwapTld(url, tld) == front + tld;
    JoinAllButLast(url, '.');
    assert front == url[..LastIndexOf(url, '.').value];
  }

  /** "https://", the subdomain and the domain of a valid URL. */
  function Origin(d: ValidDraw): (r: string)
    requires ValidDrawn(d)
    ensures '.' in r && '?' !in r
  {
    var r := "https://" + ValidSubdomains[d.subdomain] + SafeDomains[d.domain];
    OriginWords();
    r
  }

  /** Every listed domain has a dot; no subdomain or domain has a "?". */
  lemma {:induction false} OriginWords()
    ensures forall i :: 0 <= i < |ValidSubdomains| ==> '?' !in ValidSubdomains[i]
    ensures forall i :: 0 <= i < |SafeDomains| ==> '?' !in SafeDomains[i] && '.' in SafeDomains[i]
  {
    assert '?' !in "www." && '?' !in "api." && '?' !in "shop." && '?' !in "blog.";
    DomainsDotted();
  }

  lemma {:induction false} DomainsDotted()
    ensures forall i :: 0 <= i < |SafeDomains| ==> '?' !in SafeDomains[i] && '.' in SafeDomains[i]
  {
    FirstDomainsDotted();
    LastDomainsDotted();
  }

  lemma {:induction false} FirstDomainsDotted()
    ensures forall i :: 0 <= i < 3 ==> '?' !in SafeDomains[i] && '.' in SafeDomains[i]
  {
    DomainWord("example.com", 7);
    DomainWord("mytrustedsite.org", 13);
    DomainWord("shop.safe.net", 4);
  }

  lemma {:induction false} LastDomainsDotted()
    ensures forall i :: 3 <= i < 5 ==> '?' !in SafeDomains[i] && '.' in SafeDomains[i]
  {
    DomainWord("university.edu", 10);
    DomainWord("govservices.in", 11);
  }

  lemma {:induction false} DomainWord(w: string, k: nat)
    requires k < |w| && w[k] == '.' && '?' !in w
    ensures '.' in w && '?' !in w
  {
  }

  /** No listed path, query key or query value has a dot. */
  lemma {:induction false} TailWords()
    ensures forall i :: 0 <= i < |SafePaths| ==> '.' !in SafePaths[i]
    ensures forall i :: 0 <= i < |SafeQueryKeys| ==> '.' !in SafeQueryKeys[i]
    ensures forall i :: 0 <= i < |QueryValues| ==> '.' !in QueryValues[i]
  {
    assert '.' !in "/home" && '.' !in "/about" && '.' !in "/products" && '.' !in "/services";
    assert '.' !in "/contact" && '.' !in "/blog" && '.' !in "/news" && '.' !in "/dashboard";
    assert '.' !in "utm_source" && '.' !in "ref" && '.' !in "id" && '.' !in "lang" && '.' !in "theme";
    assert '.' !in "google" && '.' !in "newsletter" && '.' !in "42" && '.' !in "en" && '.' !in "dark";
  }

  /** After the origin a valid URL has no dot. */
  lemma {:induction false} ValidTailDotless(d: ValidDraw)
    requires ValidDrawn(d)
    ensures ValidUrl(d) == Origin(d) + (SafePaths[d.path] + RandomQuery(SafeQueryKeys, d.picks))
    ensures '.' !in SafePaths[d.path] + RandomQuery(SafeQueryKeys, d.picks)
  {
    var q := Dict(SafeQueryKeys, d.picks);
    ValidUrlShape(d);
    TailWords();
    SafeQueryPlain(d.picks);
    var raw := RawPairs(q);
    forall i | 0 <= i < |raw| ensures '.' !in raw[i] {
      assert raw[i] == q[i].0 + "=" + q[i].1;
    }
    JoinAvoids(raw, "&", '.');
    Assoc(Origin(d), SafePaths[d.path], RandomQuery(SafeQueryKeys, d.picks));
  }

  lemma {:induction false} TldsPlain()
    ensures forall i :: 0 <= i < |Tlds| ==> '?' !in Tlds[i]
  {
    assert '?' !in ".com" && '?' !in ".org" && '?' !in ".net" && '?' !in ".edu" && '?' !in ".gov";
    assert '?' !in ".in" && '?' !in ".io" && '?' !in ".ai" && '?' !in ".co" && '?' !in ".info";
    assert '?' !in ".xyz" && '?' !in ".shop";
  }

  /** The last dot of a valid URL is in its domain, so swapping the TLD
      also drops the path and the query: what is left is the origin up to
      its last dot, then the new TLD, and there is no "?" in it. */
  lemma {:induction false} SwapDropsPathAndQuery(d: ValidDraw, tld: nat)
    requires ValidDrawn(d) && tld < |Tlds|
    ensures var o := Origin(d);
      var u := SwapTld(ValidUrl(d), Tlds[tld]);
      && u == o[..LastIndexOf(o, '.').value] + Tlds[tld]
      && '?' !in u
  {
    var o := Origin(d);
    var rest := SafePaths[d.path] + RandomQuery(SafeQueryKeys, d.picks);
    ValidTailDotless(d);
    LastIndexOfAppend(o, rest, '.');
    SwapTldMeaning(ValidUrl(d), Tlds[tld]);
    TldsPlain();
    PrefixThenAbsent(o, LastIndexOf(o, '.').value, Tlds[tld], '?');
  }

  /** A prefix of text without `c`, followed by more text without `c`,
      has no `c`. */
  lemma PrefixThenAbsent(a: string, k: nat, b: string, c: char)
    requires k <= |a| && c !in a && c !in b
    ensures c !in a[..k] + b
  {
    assert forall i :: 0 <= i < k ==> a[..k][i] == a[i];
  }

  /** An IP round replaces the URL whatever the other draws were, and the
      host reads back as its four numbers. */
  lemma {:induction false} BenignIp(d: BenignDraw, e: BenignDraw)
    requires BenignDrawn(d) && BenignDrawn(e) && d.ip && e.ip && d.octets == e.octets
    ensures BenignUrl(d) == BenignUrl(e)
    ensures var u := BenignUrl(d);
      && IsPrefix("http://", u) && |u| >= 12
      && var parts := Split(u[7..|u| - 5], '.');
      |parts| == 4 && forall i :: 0 <= i < 4 ==> DigitsValue(parts[i]) == d.octets[i]
  {
    var h := DottedQuad(d.octets);
    var u := "http://" + h + "/home";
    assert u[7..|u| - 5] == h;
    assert u[..7] == "http://";
    OctetsReadBack(d.octets);
  }

  // ---------------------------------------------------------------------
  // generate_malicious_urls

  /** The escaped `<svg/onload=alert(1)>` that is sometimes appended. */
  const SvgSuffix: string := "%3Csvg/onload=alert(1)%3E"

  /** One round: the invalid URL's draws, whether the suffix is appended,
      whether an ftp URL replaces it and with which two numbers. */
  datatype MaliciousDraw = MaliciousDraw(invalid: InvalidDraw, svg: bool, ftp: bool, site: int, file: int)

  predicate MaliciousDrawn(d: MaliciousDraw)
  {
    InvalidDrawn(d.invalid) && (d.ftp ==> 1000 <= d.site <= 9999 && 1 <= d.file <= 99999)
  }

  function MaliciousUrl(d: MaliciousDraw): string
    requires MaliciousDrawn(d)
  {
    var url := InvalidUrl(d.invalid);
    var url := if d.svg then url + SvgSuffix else url;
    if d.ftp then "ftp://malicious-" + NatToString(d.site) + ".tk/" + NatToString(d.file) else url
  }

  /** The body of the loop: one URL from one round's draws. */
  method MaliciousRound(d: MaliciousDraw) returns (url: string)
    requires MaliciousDrawn(d)
    ensures url == MaliciousUrl(d)
  {
    url := InvalidUrl(d.invalid);
    if d.svg {
      url := url + SvgSuffix;
    }
    if d.ftp {
      url := "ftp://malicious-" + NatToString(d.site) + ".tk/" + NatToString(d.file);
    }
  }

  method GenerateMaliciousUrls(draws: seq<MaliciousDraw>) returns (urls: set<string>)
    requires forall i :: 0 <= i < |draws| ==> MaliciousDrawn(draws[i])
    ensures |urls| <= |draws|
    ensures forall u :: u in urls <==> exists j :: 0 <= j < |draws| && u == MaliciousUrl(draws[j])
  {
    urls := {};
    ghost var made: seq<string> := [];
    var i := 0;
    while i < |draws|
      invariant 0 <= i <= |draws|
      invariant |urls| <= i && |made| == i
      invariant forall j :: 0 <= j < i ==> made[j] == MaliciousUrl(draws[j])
      invariant forall u :: u in urls <==> u in made
    {
      var url := MaliciousRound(draws[i]);
      AddOne(urls, url);
      Extend(urls, made, url);
      urls := urls + {url};
      ghost var prev := made;
      made := made + [url];
      forall j | 0 <= j < i + 1 ensures made[j] == MaliciousUrl(draws[j]) {
        if j < i {
          assert made[j] == prev[j];
        }
      }
      i := i + 1;
    }
    forall u | u in urls ensures exists j :: 0 <= j < |draws| && u == MaliciousUrl(draws[j]) {
      var j :| 0 <= j < |made| && made[j] == u;
    }
    forall u | exists j :: 0 <= j < |draws| && u == MaliciousUrl(draws[j]) ensures u in urls {
      var j :| 0 <= j < |draws| && u == MaliciousUrl(draws[j]);
      assert made[j] == u;
    }
  }

  /** An ftp round replaces the URL whatever the invalid URL and the
      suffix were; every malicious URL is http, https or ftp. */
  lemma {:induction false} MaliciousSchemes(d: MaliciousDraw, e: MaliciousDraw)
    requires MaliciousDrawn(d) && MaliciousDrawn(e)
    requires d.ftp && e.ftp && d.site == e.site && d.file == e.file
    ensures MaliciousUrl(d) == MaliciousUrl(e)
    ensures IsPrefix("ftp://malicious-", MaliciousUrl(d))
  {
    var u := MaliciousUrl(d);
    var rest := NatToString(d.site) + ".tk/" + NatToString(d.file);
    Assoc("ftp://malicious-", NatToString(d.site), ".tk/" + NatToString(d.file));
    Assoc("ftp://malicious-" + NatToString(d.site), ".tk/", NatToString(d.file));
    Assoc(NatToString(d.site), ".tk/", NatToString(d.file));
    assert u == "ftp://malicious-" + rest;
    assert u[..16] == "ftp://malicious-";
  }

  /** Without ftp, a malicious URL keeps the invalid URL's http or https
      scheme. */
  lemma {:induction false} MaliciousWebScheme(d: MaliciousDraw)
    requires MaliciousDrawn(d) && !d.ftp
    ensures IsPrefix("http://", MaliciousUrl(d)) || IsPrefix("https://", MaliciousUrl(d))
  {
    var u := InvalidUrl(d.invalid);
    InvalidScheme(d.invalid);
    if d.svg {
      assert MaliciousUrl(d) == u + SvgSuffix;
      if IsPrefix("http://", u) {
        PrefixKept("http://", u, SvgSuffix);
      } else {
        PrefixKept("https://", u, SvgSuffix);
      }
    }
  }

  /** Appending keeps a prefix. */
  lemma PrefixKept(p: string, u: string, suffix: string)
    requires IsPrefix(p, u)
    ensures IsPrefix(p, u + suffix)
  {
    assert (u + suffix)[..|p|] == u[..|p|];
  }

  /** The suffix holds no "&" (though it does hold an "="). */
  lemma {:induction false} SuffixPlain()
    ensures '&' !in SvgSuffix && SvgSuffix[13] == '='
  {
  }

  /** The appended suffix lengthens the one query value instead of adding
      a pair: the query text after "?" still has no "&", its first "="
      still ends the key, and what follows is the escaped payload and the
      suffix. */
  lemma {:induction false} SuffixJoinsValue(d: MaliciousDraw)
    requires MaliciousDrawn(d) && d.svg && !d.ftp
    ensures var q := InvalidQuery(d.invalid);
      var body := q[1..] + SvgSuffix;
      var k := InvalidQueryKeys[d.invalid.key];
      && MaliciousUrl(d) == InvalidUrl(d.invalid) + SvgSuffix
      && '&' !in body
      && IndexOf(body, '=') == Some(|k|)
      && body[..|k|] == k && body[|k| + 1..] == QuotePlus(QueryPayloads[d.invalid.value]) + SvgSuffix
  {
    var k := InvalidQueryKeys[d.invalid.key];
    var enc := QuotePlus(QueryPayloads[d.invalid.value]);
    OneQueryKey(d.invalid);
    var q := InvalidQuery(d.invalid);
    var s := Split(q[1..], '=');
    assert '&' !in q[1..] by {
      assert Split(q[1..], '&') == [q[1..]];
    }
    assert '=' !in k by {
      assert s[0] == k && '=' !in s[0];
    }
    SuffixPlain();
    QuerySuffix(k, enc, SvgSuffix);
    assert q[1..] == k + "=" + enc by {
      Assoc("?", k, "=" + enc);
      Assoc("?" + k, "=", enc);
      Assoc(k, "=", enc);
      assert ("?" + (k + "=" + enc))[1..] == k + "=" + enc;
    }
  }

  /** `k=e` followed by a suffix: the first "=" is the one after `k`. */
  lemma {:induction false} QuerySuffix(k: string, e: string, suffix: string)
    requires '=' !in k
    ensures var body := k + "=" + e + suffix;
      && IndexOf(body, '=') == Some(|k|)
      && body[..|k|] == k && body[|k| + 1..] == e + suffix
  {
    var body := k + "=" + e + suffix;
    assert body[..|k|] == k;
    assert body[|k|] == '=';
    IndexOfIs(body, '=', |k|);
    assert body[|k| + 1..] == e + suffix;
  }

  // ---------------------------------------------------------------------
  // generate_edge_case_urls

  /** The escaped-payload edge case. */
  const EncodedEdge: string := "http://example.com/" + SvgSuffix

  /** One round: the template chosen and the integers it draws (four
      octets; a site and a file number; none; a port; a site and a path
      number). */
  datatype EdgeDraw = EdgeDraw(choice: nat, nums: seq<int>)

  predicate EdgeDrawn(d: EdgeDraw)
  {
    && d.choice < 5
    && (d.choice == 0 ==> Octets(d.nums))
    && (d.choice == 1 ==> |d.nums| == 2 && 1 <= d.nums[0] <= 9999 && 1 <= d.nums[1] <= 99999)
    && (d.choice == 2 ==> d.nums == [])
    && (d.choice == 3 ==> |d.nums| == 1 && 1025 <= d.nums[0] <= 65535)
    && (d.choice == 4 ==> |d.nums| == 2 && 1 <= d.nums[0] <= 9999 && 1 <= d.nums[1] <= 999)
  }

  function EdgeUrl(d: EdgeDraw): string
    requires EdgeDrawn(d)
  {
    match d.choice
    case 0 => "http://" + DottedQuad(d.nums)
    case 1 => "ftp://randomsite" + NatToString(d.nums[0]) + ".xyz/file" + NatToString(d.nums[1]) + ".txt"
    case 2 => EncodedEdge
    case 3 => "http://example.com:" + NatToString(d.nums[0]) + "/index"
    case _ => "www.site" + NatToString(d.nums[0]) + ".com/path" + NatToString(d.nums[1])
  }

  /** The body of the loop: one URL from one round's draws. */
  method EdgeRound(d: EdgeDraw) returns (url: string)
    requires EdgeDrawn(d)
    ensures url == EdgeUrl(d)
  {
    if d.choice == 0 {
      url := "http://" + DottedQuad(d.nums);
    } else if d.choice == 1 {
      url := "ftp://randomsite" + NatToString(d.nums[0]) + ".xyz/file" + NatToString(d.nums[1]) + ".txt";
    } else if d.choice == 2 {
      url := EncodedEdge;
    } else if d.choice == 3 {
      url := "http://example.com:" + NatToString(d.nums[0]) + "/index";
    } else {
      url := "www.site" + NatToString(d.nums[0]) + ".com/path" + NatToString(d.nums[1]);
    }
  }

  method GenerateEdgeCaseUrls(draws: seq<EdgeDraw>) returns (urls: set<string>)
    requires forall i :: 0 <= i < |draws| ==> EdgeDrawn(draws[i])
    ensures |urls| <= |draws|
    ensures forall u :: u in urls <==> exists j :: 0 <= j < |draws| && u == EdgeUrl(draws[j])
  {
    urls := {};
    ghost var made: seq<string> := [];
    var i := 0;
    while i < |draws|
      invariant 0 <= i <= |draws|
      invariant |urls| <= i && |made| == i
      invariant forall j :: 0 <= j < i ==> made[j] == EdgeUrl(draws[j])
      invariant forall u :: u in urls <==> u in made
    {
      var url := EdgeRound(draws[i]);
      AddOne(urls, url);
      Extend(urls, made, url);
      urls := urls + {url};
      ghost var prev := made;
      made := made + [url];
      forall j | 0 <= j < i + 1 ensures made[j] == EdgeUrl(draws[j]) {
        if j < i {
          assert made[j] == prev[j];
        }
      }
      i := i + 1;
    }
    forall u | u in urls ensures exists j :: 0 <= j < |draws| && u == EdgeUrl(draws[j]) {
      var j :| 0 <= j < |made| && made[j] == u;
    }
    forall u | exists j :: 0 <= j < |draws| && u == EdgeUrl(draws[j]) ensures u in urls {
      var j :| 0 <= j < |draws| && u == EdgeUrl(draws[j]);
      assert made[j] == u;
    }
  }

  /** The IP template reads back as four numbers from 1 to 255. */
  lemma {:induction false} EdgeIp(d: EdgeDraw)
    requires EdgeDrawn(d) && d.choice == 0
    ensures var u := EdgeUrl(d);
      && IsPrefix("http://", u)
      && var parts := Split(u[7..], '.');
      |parts| == 4 && forall i :: 0 <= i < 4 ==> 1 <= DigitsValue(parts[i]) <= 255
  {
    var u := EdgeUrl(d);
    assert u[7..] == DottedQuad(d.nums);
    assert u[..7] == "http://";
    OctetsReadBack(d.nums);
  }

  /** The port template has its last ':' right after the host, and the
      digits up to the next '/' read back as the drawn port. */
  lemma {:induction false} EdgePort(d: EdgeDraw)
    requires EdgeDrawn(d) && d.choice == 3
    ensures var u := EdgeUrl(d);
      && LastIndexOf(u, ':') == Some(18)
      && var rest := u[19..];
      var j := IndexOf(rest, '/');
      && j.Some? && DigitsValue(rest[..j.value]) == d.nums[0]
      && 1025 <= DigitsValue(rest[..j.value]) <= 65535
  {
    var p := NatToString(d.nums[0]);
    var host := "http://example.com:";
    var u := host + p + "/index";
    assert |host| == 19 && u[18] == ':';
    assert u[19..] == p + "/index";
    var rest := u[19..];
    assert ':' !in rest by {
      forall i | 0 <= i < |rest| ensures rest[i] != ':' {
        if i < |p| {
          assert rest[i] == p[i] && IsDigit(p[i]);
        } else {
          assert rest[i] == "/index"[i - |p|];
        }
      }
    }
    LastIndexOfIs(u, ':', 18);
    assert '/' !in rest[..|p|] by {
      assert rest[..|p|] == p;
      forall i | 0 <= i < |p| ensures p[i] != '/' {
        assert IsDigit(p[i]);
      }
    }
    assert rest[|p|] == '/';
    IndexOfIs(rest, '/', |p|);
    assert rest[..|p|] == p;
    DigitsValueOfNat(d.nums[0]);
  }

  /** The partial template has no scheme: it starts with "www." and has no
      ':' at all. */
  lemma {:induction false} EdgePartial(d: EdgeDraw)
    requires EdgeDrawn(d) && d.choice == 4
    ensures IsPrefix("www.", EdgeUrl(d)) && ':' !in EdgeUrl(d)
  {
    var a := NatToString(d.nums[0]);
    var b := NatToString(d.nums[1]);
    var u := EdgeUrl(d);
    assert u == "www.site" + a + ".com/path" + b;
    assert u[..4] == "www.";
    assert ':' !in a by {
      forall i | 0 <= i < |a| ensures a[i] != ':' {
        assert IsDigit(a[i]);
      }
    }
    assert ':' !in b by {
      forall i | 0 <= i < |b| ensures b[i] != ':' {
        assert IsDigit(b[i]);
      }
    }
    assert ':' !in "www.site" && ':' !in ".com/path";
  }

  // ---------------------------------------------------------------------
  // generate_not_a_url_samples

  /** `string.punctuation`. */
  const Punctuation: string := "!\"#$%&'()*+,-./:;<=>?@[\\]^_`{|}~"
  /** `string.punctuation + string.digits`. */
  const PunctDigits: string := Punctuation + "0123456789"

  /** `string.ascii_lowercase[i]`. */
  function LowerAt(i: nat): (c: char)
    requires i < 26
    ensures IsLower(c)
  {
    ('a' as int + i) as char
  }

  predicate Below(picks: seq<nat>, n: nat)
  {
    forall i :: 0 <= i < |picks| ==> picks[i] < n
  }

  /** `''.join(random.choices(string.ascii_lowercase, k=|picks|))`. */
  function LowerText(picks: seq<nat>): (r: string)
    requires Below(picks, 26)
    ensures |r| == |picks| && forall i :: 0 <= i < |r| ==> IsLower(r[i])
  {
    seq(|picks|, i requires 0 <= i < |picks| => LowerAt(picks[i]))
  }

  /** `''.join(random.choices(string.punctuation + string.digits, k=|picks|))`. */
  function SymbolText(picks: seq<nat>): (r: string)
    requires Below(picks, |PunctDigits|)
    ensures |r| == |picks| && forall i :: 0 <= i < |r| ==> r[i] in PunctDigits
  {
    seq(|picks|, i requires 0 <= i < |picks| => PunctDigits[picks[i]])
  }

  function WordTexts(words: seq<seq<nat>>): (r: seq<string>)
    requires forall i :: 0 <= i < |words| ==> Below(words[i], 26)
    ensures |r| == |words|
  {
    seq(|words|, i requires 0 <= i < |words| && Below(words[i], 26) => LowerText(words[i]))
  }

  /** One round: the drawn `length`, the template chosen, the characters
      drawn for templates 0, 2 and 3, and the words drawn for template 1. */
  datatype SampleDraw = SampleDraw(length: nat, choice: nat, picks: seq<nat>, words: seq<seq<nat>>)

  predicate SampleDrawn(d: SampleDraw)
  {
    && 8 <= d.length <= 40 && d.choice < 4
    && (d.choice == 0 ==> |d.picks| == d.length && Below(d.picks, 62))
    && (d.choice == 1 ==>
          2 <= |d.words| <= 7 && forall i :: 0 <= i < |d.words| ==> 2 <= |d.words[i]| <= 8 && Below(d.words[i], 26))
    && (d.choice == 2 ==> |d.picks| == d.length && Below(d.picks, |PunctDigits|))
    && (d.choice == 3 ==> 1 <= |d.picks| <= 5 && Below(d.picks, 26))
  }

  function NotAUrlSample(d: SampleDraw): string
    requires SampleDrawn(d)
  {
    match d.choice
    case 0 => AlnumText(d.picks)
    case 1 => Join(WordTexts(d.words), " ")
    case 2 => SymbolText(d.picks)
    case _ => "http://" + LowerText(d.picks)
  }

  /** Unlike the URL generators, this one keeps duplicates: one sample
      per round, in order. */
  method GenerateNotAUrlSamples(draws: seq<SampleDraw>) returns (samples: seq<string>)
    requires forall i :: 0 <= i < |draws| ==> SampleDrawn(draws[i])
    ensures |samples| == |draws|
    ensures forall i :: 0 <= i < |draws| ==> samples[i] == NotAUrlSample(draws[i])
  {
    samples := [];
    var i := 0;
    while i < |draws|
      invariant 0 <= i <= |draws|
      invariant |samples| == i
      invariant forall j :: 0 <= j < i ==> samples[j] == NotAUrlSample(draws[j])
    {
      var s := DrawSample(draws[i]);
      samples := samples + [s];
      i := i + 1;
    }
  }

  /** The template branches of one round. */
  method DrawSample(d: SampleDraw) returns (s: string)
    requires SampleDrawn(d)
    ensures s == NotAUrlSample(d)
  {
    if d.choice == 0 {
      s := AlnumText(d.picks);
    } else if d.choice == 1 {
      s := Join(WordTexts(d.words), " ");
    } else if d.choice == 2 {
      s := SymbolText(d.picks);
    } else {
      s := "http://" + LowerText(d.picks);
    }
  }

  /** Templates 0 and 2 are exactly `length` characters, 8 to 40:
      letters and digits, or punctuation and digits with no letter. */
  lemma {:induction false} FixedLengthSamples(d: SampleDraw)
    requires SampleDrawn(d) && (d.choice == 0 || d.choice == 2)
    ensures var s := NotAUrlSample(d);
      && |s| == d.length && 8 <= |s| <= 40
      && (d.choice == 0 ==> forall i :: 0 <= i < |s| ==> IsAlnum(s[i]))
      && (d.choice == 2 ==> forall i :: 0 <= i < |s| ==> !IsUpper(s[i]) && !IsLower(s[i]))
  {
    if d.choice == 2 {
      var s := NotAUrlSample(d);
      forall i | 0 <= i < |s| ensures !IsUpper(s[i]) && !IsLower(s[i]) {
        var k :| 0 <= k < |PunctDigits| && PunctDigits[k] == s[i];
        NoLetterSymbols(k);
      }
    }
  }

  lemma {:induction false} NoLetterSymbols(k: nat)
    requires k < |PunctDigits|
    ensures !IsUpper(PunctDigits[k]) && !IsLower(PunctDigits[k])
  {
    assert |Punctuation| == 32;
    if k < 32 {
      assert forall j :: 0 <= j < 32 ==> !IsUpper(Punctuation[j]) && !IsLower(Punctuation[j]);
      assert PunctDigits[k] == Punctuation[k];
    } else {
      assert PunctDigits[k] == "0123456789"[k - 32];
    }
  }

  /** A join of `n` pieces of `lo` to `hi` characters with a one-character
      separator is `n * lo + n - 1` to `n * hi + n - 1` long. */
  lemma {:induction false} JoinLength(parts: seq<string>, sep: string, lo: nat, hi: nat)
    requires |parts| >= 1 && |sep| == 1
    requires forall i :: 0 <= i < |parts| ==> lo <= |parts[i]| <= hi
    ensures |parts| * lo + |parts| - 1 <= |Join(parts, sep)| <= |parts| * hi + |parts| - 1
    decreases |parts|
  {
    if |parts| > 1 {
      var n := |parts|;
      JoinLength(parts[1..], sep, lo, hi);
      assert |Join(parts, sep)| == |parts[0]| + 1 + |Join(parts[1..], sep)|;
      OneMore(n, lo);
      OneMore(n, hi);
    }
  }

  lemma OneMore(n: nat, x: nat)
    requires n >= 1
    ensures (n - 1) * x + x == n * x
  {
  }

  /** Template 1 is two to seven words of two to eight lower-case letters
      separated by single spaces: splitting at ' ' gives the words back,
      and it is 5 to 62 characters long, whatever `length` was drawn. */
  lemma {:induction false} SentenceSample(d: SampleDraw)
    requires SampleDrawn(d) && d.choice == 1
    ensures var s := NotAUrlSample(d);
      var ws := Split(s, ' ');
      && ws == WordTexts(d.words) && 2 <= |ws| <= 7
      && (forall i :: 0 <= i < |ws| ==> 2 <= |ws[i]| <= 8 && forall j :: 0 <= j < |ws[i]| ==> IsLower(ws[i][j]))
      && 5 <= |s| <= 62
  {
    var ws := WordTexts(d.words);
    WordsFit(d.words, ws);
    SplitJoin(ws, ' ');
    JoinLength(ws, " ", 2, 8);
    SentenceBounds(|ws|);
  }

  /** Each drawn word is two to eight lower-case letters. */
  lemma {:induction false} WordsFit(words: seq<seq<nat>>, ws: seq<string>)
    requires forall i :: 0 <= i < |words| ==> 2 <= |words[i]| <= 8 && Below(words[i], 26)
    requires ws == WordTexts(words)
    ensures forall i :: 0 <= i < |ws| ==> ' ' !in ws[i] && 2 <= |ws[i]| <= 8
    ensures forall i :: 0 <= i < |ws| ==> forall j :: 0 <= j < |ws[i]| ==> IsLower(ws[i][j])
  {
    forall i | 0 <= i < |ws|
      ensures ' ' !in ws[i] && 2 <= |ws[i]| <= 8 && forall j :: 0 <= j < |ws[i]| ==> IsLower(ws[i][j])
    {
      assert ws[i] == LowerText(words[i]);
    }
  }

  /** Two to seven words of two to eight letters, with one space between
      words, make 5 to 62 characters. */
  lemma SentenceBounds(n: nat)
    requires 2 <= n <= 7
    ensures n * 2 + n - 1 >= 5 && n * 8 + n - 1 <= 62
  {
  }

  /** Template 3 is "http://" and one to five lower-case letters: 8 to 12
      characters, whatever `length` was drawn. */
  lemma {:induction false} SchemeOnlySample(d: SampleDraw)
    requires SampleDrawn(d) && d.choice == 3
    ensures var s := NotAUrlSample(d);
      && IsPrefix("http://", s) && 8 <= |s| <= 12
      && forall i :: 7 <= i < |s| ==> IsLower(s[i])
  {
    var s := NotAUrlSample(d);
    assert s[..7] == "http://";
  }
}

=== FILE: url_checker.dfy ===
/** The line protocol of url-security-middleware/url_checker.py: the lines
    `check_url` prints and the value it returns, the exit code `main`
    chooses, and the block printed when the classifier cannot be imported.
    Each `print` is one line; the captured standard output is the lines,
    each followed by a newline. */
module UrlChecker {
  import opened StrUtil
  import opened PredictUrl

  /** What `predict_url(url)` did: returned a dictionary or raised an
      exception with the given message. */
  datatype Outcome = Returned(p: Prediction) | Raised(message: string)

  /** The lines printed and the exit code of one run of the script. */
  datatype Run = Run(lines: seq<string>, exitCode: int)

  /** Python's `str(i)` for an integer. */
  function IntText(i: int): (r: string)
    ensures |r| > 0
    ensures forall k :: 0 <= k < |r| ==> r[k] == '-' || IsDigit(r[k])
  {
    if i < 0 then "-" + NatToString(-i) else NatToString(i)
  }

  /** The score is printed as a `float`: the class is neither not_a_url
      nor benign (and the score is not negative, which no prediction
      gives). */
  predicate FloatScore(p: Prediction)
  {
    !(p.prediction == "not_a_url" || p.prediction == "benign" || p.score < 0)
  }

  /** Python's `str(score)` for a score in hundredths: an `int` for the
      not_a_url and benign classes (and the allowlist answer), a `float`
      otherwise, printed in its shortest form ("0.1", "0.87", "1.0"). Read
      back, the text gives the score again. */
  function ScoreText(p: Prediction): (r: string)
    ensures |r| > 0 && forall k :: 0 <= k < |r| ==> r[k] == '-' || r[k] == '.' || IsDigit(r[k])
    ensures '.' in r <==> FloatScore(p)
    ensures FloatScore(p) ==> ReadHundredths(r) == p.score
    ensures !FloatScore(p) ==> ReadInt(r) == p.score / 100
  {
    if !FloatScore(p) then
      IntTextReads(p.score / 100);
      IntText(p.score / 100)
    else
      var whole := NatToString(p.score / 100);
      var cents := p.score % 100;
      if cents % 10 == 0 then
        OneDigitReads(p.score / 100, cents / 10);
        whole + "." + [DigitChar(cents / 10)]
      else
        TwoDigitReads(p.score / 100, cents / 10, cents % 10);
        whole + "." + [DigitChar(cents / 10), DigitChar(cents % 10)]
  }

  /** The value of an `int` printed by Python. */
  function ReadInt(t: string): int
  {
    if t != "" && t[0] == '-' then -(DigitsValue(t[1..]) as int) else DigitsValue(t)
  }

  /** The value, in hundredths, of a `float` printed by Python with one or
      two digits after the point; 0 for any other text. */
  function ReadHundredths(t: string): int
  {
    if |t| >= 2 && t[|t| - 2] == '.' then
      DigitsValue(t[..|t| - 2]) * 100 + 10 * DigitsValue(t[|t| - 1..])
    else if |t| >= 3 && t[|t| - 3] == '.' then
      DigitsValue(t[..|t| - 3]) * 100 + DigitsValue(t[|t| - 2..])
    else 0
  }

  lemma {:induction false} IntTextReads(i: int)
    ensures ReadInt(IntText(i)) == i
  {
    if i < 0 {
      assert IntText(i)[1..] == NatToString(-i);
      DigitsValueOfNat(-i);
    } else {
      assert IsDigit(NatToString(i)[0]);
      DigitsValueOfNat(i);
    }
  }

  /** `n.d` reads back as `n` units and `d` tenths. */
  lemma {:induction false} OneDigitReads(n: nat, d: nat)
    requires d < 10
    ensures ReadHundredths(NatToString(n) + "." + [DigitChar(d)]) == n * 100 + 10 * d
  {
    var t := NatToString(n) + "." + [DigitChar(d)];
    assert t[|t| - 2] == '.';
    assert t[..|t| - 2] == NatToString(n);
    assert t[|t| - 1..] == [DigitChar(d)];
    OneDigitValue(d);
    DigitsValueOfNat(n);
  }

  /** A single digit reads back as itself. */
  lemma OneDigitValue(d: nat)
    requires d < 10
    ensures DigitsValue([DigitChar(d)]) == d
  {
    assert [DigitChar(d)][..0] == [];
  }

  /** `n.de` reads back as `n` units, `d` tenths and `e` hundredths. */
  lemma {:induction false} TwoDigitReads(n: nat, d: nat, e: nat)
    requires d < 10 && e < 10
    ensures ReadHundredths(NatToString(n) + "." + [DigitChar(d), DigitChar(e)]) == n * 100 + 10 * d + e
  {
    var t := NatToString(n) + "." + [DigitChar(d), DigitChar(e)];
    assert t[|t| - 2] == DigitChar(d) != '.';
    assert t[..|t| - 3] == NatToString(n);
    assert t[|t| - 3] == '.';
    var f := t[|t| - 2..];
    assert f == [DigitChar(d), DigitChar(e)];
    assert f[..1] == [DigitChar(d)];
    OneDigitValue(d);
    DigitsValueOfNat(n);
  }

  /** `result.get('explanation')` is truthy: present and non-empty. */
  predicate Truthy(e: Option<string>)
  {
    e.Some? && e.value != ""
  }

  /** The lines `check_url(url)` prints and the value it returns. */
  function CheckUrl(url: string, outcome: Outcome): (r: (seq<string>, int))
    ensures outcome.Raised? ==> r.1 == 0
    ensures outcome.Returned? ==> r.1 == outcome.p.result
    ensures |r.0| >= 4 && r.0[0] == "URL: " + url
    ensures r.0[|r.0| - 1] == (if outcome.Returned? then "SUCCESS: true" else "SUCCESS: false")
  {
    match outcome
    case Returned(p) =>
      var head := ["URL: " + url, "PREDICTION: " + p.prediction, "SCORE: " + ScoreText(p), "RESULT: " + IntText(p.result)];
      var explanation := if Truthy(p.explanation) then ["EXPLANATION: " + p.explanation.value] else [];
      (head + explanation + ["SUCCESS: true"], p.result)
    case Raised(message) =>
      (["URL: " + url, "ERROR: " + message, "RESULT: " + "0", "SUCCESS: false"], 0)
  }

  const UsageMessage: string := "Usage: python3 url_checker.py <url>"
  const UsageLines: seq<string> := ["ERROR: " + UsageMessage, "RESULT: " + "0"]
  const ImportMessage: string := "Malware detection not available"
  const ImportFailureLines: seq<string> := ["ERROR: " + ImportMessage, "RESULT: " + "0", "PREDICTION: " + "unknown", "SCORE: " + "0"]

  /** `main()` for the argument vector `argv` (`argv[0]` is the script). */
  function Main(argv: seq<string>, outcome: Outcome): (r: Run)
    ensures |argv| != 2 ==> r == Run(UsageLines, 1)
    ensures |argv| == 2 ==> r.exitCode == (if CheckUrl(argv[1], outcome).1 == 1 then 1 else 0)
  {
    if |argv| != 2 then Run(UsageLines, 1)
    else
      var (lines, value) := CheckUrl(argv[1], outcome);
      Run(lines, if value == 1 then 1 else 0)
  }

  /** How `from predict_url import predict_url` ends. Importing runs
      predict_url's module level, which loads the model and the pickled
      tokenizer and encoder from paths relative to the working directory,
      so besides an `ImportError` it can raise anything else (a missing
      file, say), which the `except ImportError` does not catch. */
  datatype Import = Imported | ImportFailed | ImportCrashed

  /** The whole script: `main()` runs after a successful import; an
      `ImportError` prints its block and exits 1; any other exception
      escapes, so Python prints the traceback on standard error, nothing
      on standard output, and exits 1. */
  function Script(imp: Import, argv: seq<string>, outcome: Outcome): (r: Run)
    ensures imp.Imported? ==> r == Main(argv, outcome)
    ensures imp.ImportFailed? ==> r == Run(ImportFailureLines, 1)
    ensures imp.ImportCrashed? ==> r == Run([], 1)
  {
    match imp
    case Imported => Main(argv, outcome)
    case ImportFailed => Run(ImportFailureLines, 1)
    case ImportCrashed => Run([], 1)
  }

  /** The captured standard output: every line followed by a newline. */
  function Output(lines: seq<string>): string
  {
    if lines == [] then "" else lines[0] + "\n" + Output(lines[1..])
  }

  // ---------------------------------------------------------------------
  // Properties

  /** The number of lines that begin with "RESULT: ". */
  function ResultLines(lines: seq<string>): nat
  {
    if lines == [] then 0
    else ResultLines(lines[..|lines| - 1]) + (if IsPrefix("RESULT: ", lines[|lines| - 1]) then 1 else 0)
  }

  lemma {:induction false} ResultLinesAppend(a: seq<string>, b: seq<string>)
    ensures ResultLines(a + b) == ResultLines(a) + ResultLines(b)
    decreases |b|
  {
    if b != [] {
      assert (a + b)[..|a + b| - 1] == a + b[..|b| - 1];
      ResultLinesAppend(a, b[..|b| - 1]);
    } else {
      assert a + b == a;
    }
  }

  /** A line whose first character is not 'R' is not a RESULT line. */
  predicate OtherLine(line: string)
  {
    |line| > 0 && line[0] != 'R'
  }

  /** Every way the script can end prints exactly one RESULT line, except
      an import that raises something other than `ImportError`, which
      prints nothing at all and exits 1. */
  lemma ExactlyOneResult(imp: Import, argv: seq<string>, outcome: Outcome)
    ensures ResultLines(Script(imp, argv, outcome).lines) == (if imp.ImportCrashed? then 0 else 1)
    ensures imp.ImportCrashed? ==> Script(imp, argv, outcome) == Run([], 1)
  {
    if imp.ImportCrashed? {
    } else if imp.ImportFailed? {
      OneResultAmong(ImportFailureLines, 1);
    } else if |argv| != 2 {
      OneResultAmong(UsageLines, 1);
    } else {
      CheckUrlOneResult(argv[1], outcome);
    }
  }

  lemma {:induction false} CheckUrlOneResult(url: string, outcome: Outcome)
    ensures ResultLines(CheckUrl(url, outcome).0) == 1
  {
    match outcome
    case Returned(p) =>
      var head := ["URL: " + url, "PREDICTION: " + p.prediction, "SCORE: " + ScoreText(p), "RESULT: " + IntText(p.result)];
      assert IsPrefix("RESULT: ", head[3]) by {
        assert head[3][..8] == "RESULT: ";
      }
      OneResultAmong(head, 3);
      var explanation := if Truthy(p.explanation) then ["EXPLANATION: " + p.explanation.value] else [];
      NoResultAmong(explanation);
      NoResultAmong(["SUCCESS: true"]);
      ResultLinesAppend(head, explanation);
      ResultLinesAppend(head + explanation, ["SUCCESS: true"]);
    case Raised(message) =>
      OneResultAmong(["URL: " + url, "ERROR: " + message, "RESULT: " + "0", "SUCCESS: false"], 2);
  }

  /** A list whose only RESULT line is at index `k` has one RESULT line. */
  lemma {:induction false} OneResultAmong(lines: seq<string>, k: nat)
    requires k < |lines| && IsPrefix("RESULT: ", lines[k])
    requires forall i :: 0 <= i < |lines| && i != k ==> OtherLine(lines[i])
    ensures ResultLines(lines) == 1
  {
    NoResultAmong(lines[..k]);
    NoResultAmong(lines[k + 1..]);
    assert lines == lines[..k] + [lines[k]] + lines[k + 1..];
    ResultLinesAppend(lines[..k] + [lines[k]], lines[k + 1..]);
    ResultLinesAppend(lines[..k], [lines[k]]);
    assert ResultLines([lines[k]]) == 1 by {
      assert [lines[k]][..0] == [];
    }
  }

  lemma {:induction false} NoResultAmong(lines: seq<string>)
    requires forall i :: 0 <= i < |lines| ==> OtherLine(lines[i])
    ensures ResultLines(lines) == 0
    decreases |lines|
  {
    if lines != [] {
      NoResultAmong(lines[..|lines| - 1]);
      var last := lines[|lines| - 1];
      assert OtherLine(last);
      assert !IsPrefix("RESULT: ", last) by {
        if |last| >= 8 {
          assert last[..8][0] == last[0];
        }
      }
    }
  }

  /** The EXPLANATION line is printed exactly when the explanation is
      truthy, and always between RESULT and SUCCESS. */
  lemma ExplanationLine(url: string, p: Prediction)
    ensures var lines := CheckUrl(url, Returned(p)).0;
      (|lines| == 6 <==> Truthy(p.explanation))
      && (|lines| == 6 ==> lines[4] == "EXPLANATION: " + p.explanation.value)
      && IsPrefix("RESULT: ", lines[3]) && lines[|lines| - 1] == "SUCCESS: true"
  {
  }

  /** Internal errors exit 0; only a returned result of 1 exits 1. */
  lemma ExitCodeRule(url: string, outcome: Outcome)
    ensures Main(["url_checker.py", url], outcome).exitCode == 1
        <==> outcome.Returned? && outcome.p.result == 1
  {
  }
}

=== FILE: url_generator.dfy ===
/** The synthetic URL generator (url_generator.py): `URLGenerator` builds
    benign-looking and malicious-looking URLs from fixed word lists. Every
    call to `random` is an input here: a draw record holds the index each
    `random.choice` picked, the integer each `random.randint` returned and
    the outcome of each `random.random() < p` test. */
module UrlGenerator {
  import opened StrUtil

  const SafeDomains: seq<string> := ["example.com", "mytrustedsite.org", "shop.safe.net", "university.edu", "govservices.in"]
  const SafePaths: seq<string> := ["/home", "/about", "/products", "/services", "/contact", "/blog", "/news", "/dashboard"]
  const SafeQueryKeys: seq<string> := ["utm_source", "ref", "id", "lang", "theme"]
  /** The values `_random_query` draws from. */
  const QueryValues: seq<string> := ["google", "newsletter", "42", "en", "dark"]
  /** The subdomains of `generate_valid_url`. */
  const ValidSubdomains: seq<string> := ["", "www.", "api.", "shop.", "blog."]

  const SuspiciousTlds: seq<string> := [".ru", ".xyz", ".top", ".biz", ".click", ".gq", ".ml", ".tk"]
  const SuspiciousDomains: seq<string> := ["malware-download", "free-bitcoin", "get-rich-now", "ph1shing", "clickjack", "untrustedlogin"]

  const SqlInjectionPayloads: seq<string> := ["' OR 1=1 --", "'; DROP TABLE users; --", "' UNION SELECT password " + "FROM users --"]
  const XssPayloads: seq<string> := ["<script>alert(1)</script>", "<img src=x onerror=alert('XSS')>", "<svg/onload=alert(1)>"]
  const RedirectionPayloads: seq<string> := ["?redirect=http://evil.com", "?next=https://phish.com"]
  /** The base64 text of `<script>alert('hacked')</script>`. */
  const EncodedPayloads: seq<string> := ["PHNjcmlwdD5hbGVydCgnaGFja2Vk" + "Jyk8L3NjcmlwdD4="]
  const Schemes: seq<string> := ["http", "https"]
  /** The subdomains of `generate_invalid_url`. */
  const InvalidSubdomains: seq<string> := ["", "login.", "secure.", "click.", "verify.", "track."]
  /** The keys of the suspicious query. */
  const InvalidQueryKeys: seq<string> := ["q", "search", "input", "url"]

  /** The payloads the path is drawn from. */
  const PathPayloads: seq<string> := SqlInjectionPayloads + XssPayloads + RedirectionPayloads + EncodedPayloads
  /** The payloads the suspicious query value is drawn from. */
  const QueryPayloads: seq<string> := SqlInjectionPayloads + XssPayloads + EncodedPayloads

  // ---------------------------------------------------------------------
  // Characters

  /** `(string.ascii_letters + string.digits)[i]`. */
  function AlnumAt(i: nat): (c: char)
    requires i < 62
    ensures IsAlnum(c)
  {
    if i < 26 then ('a' as int + i) as char
    else if i < 52 then ('A' as int + i - 26) as char
    else ('0' as int + i - 52) as char
  }

  /** The text `random.choices(ascii_letters + digits, k=|picks|)` gives. */
  function AlnumText(picks: seq<nat>): (r: string)
    requires forall i :: 0 <= i < |picks| ==> picks[i] < 62
    ensures |r| == |picks| && forall i :: 0 <= i < |r| ==> IsAlnum(r[i])
  {
    seq(|picks|, i requires 0 <= i < |picks| => AlnumAt(picks[i]))
  }

  /** The characters Python's `str.isspace` accepts. */
  const PySpaces: set<char> := {
    ' ', '\t', '\n', '\U{B}', '\U{C}', '\r', '\U{1C}', '\U{1D}', '\U{1E}', '\U{1F}', '\U{85}', '\U{A0}',
    '\U{1680}', '\U{2000}', '\U{2001}', '\U{2002}', '\U{2003}', '\U{2004}', '\U{2005}', '\U{2006}',
    '\U{2007}', '\U{2008}', '\U{2009}', '\U{200A}', '\U{2028}', '\U{2029}', '\U{202F}', '\U{205F}',
    '\U{3000}'}

  /** Python's `s.strip()`: white space off both ends and nothing else. */
  function Strip(s: string): string
  {
    StripWith(s, PySpaces)
  }

  // ---------------------------------------------------------------------
  // urlencode

  /** Characters `quote_plus` leaves as they are. */
  predicate Unreserved(c: char)
  {
    IsAlnum(c) || c == '_' || c == '.' || c == '-' || c == '~'
  }

  predicate AllUnreserved(s: string)
  {
    forall i :: 0 <= i < |s| ==> Unreserved(s[i])
  }

  predicate IsAscii(s: string)
  {
    forall i :: 0 <= i < |s| ==> (s[i] as int) < 128
  }

  predicate IsHex(c: char)
  {
    IsDigit(c) || 'A' <= c <= 'F' || 'a' <= c <= 'f'
  }

  /** The upper-case hexadecimal digit for `n`. */
  function HexDigit(n: nat): (c: char)
    requires n < 16
    ensures IsHex(c) && IsAlnum(c) && HexValue(c) == n
  {
    if n < 10 then ('0' as int + n) as char else ('A' as int + n - 10) as char
  }

  function HexValue(c: char): (n: nat)
    requires IsHex(c)
    ensures n < 16
  {
    if IsDigit(c) then c as int - '0' as int
    else if 'A' <= c <= 'F' then c as int - 'A' as int + 10
    else c as int - 'a' as int + 10
  }

  /** The UTF-8 bytes of a character. */
  function Utf8(c: char): (bs: seq<nat>)
    ensures 1 <= |bs| <= 4 && forall i :: 0 <= i < |bs| ==> bs[i] < 256
    ensures (c as int) < 128 ==> bs == [c as int]
  {
    var n := c as int;
    if n < 0x80 then [n]
    else if n < 0x800 then [0xC0 + n / 0x40, 0x80 + n % 0x40]
    else if n < 0x1_0000 then [0xE0 + n / 0x1000, 0x80 + (n / 0x40) % 0x40, 0x80 + n % 0x40]
    else [0xF0 + (n / 0x4_0000) % 8, 0x80 + (n / 0x1000) % 0x40, 0x80 + (n / 0x40) % 0x40, 0x80 + n % 0x40]
  }

  /** `%XX` for each byte. */
  function Escapes(bs: seq<nat>): (r: string)
    requires forall i :: 0 <= i < |bs| ==> bs[i] < 256
    ensures |r| == 3 * |bs|
    ensures forall i :: 0 <= i < |r| ==> r[i] == '%' || IsAlnum(r[i])
  {
    if bs == [] then "" else ['%', HexDigit(bs[0] / 16), HexDigit(bs[0] % 16)] + Escapes(bs[1..])
  }

  function QuoteChar(c: char): string
  {
    if Unreserved(c) then [c] else if c == ' ' then "+" else Escapes(Utf8(c))
  }

  /** `quote_plus(s)`, as `urlencode` applies it to keys and values. */
  function QuotePlus(s: string): (r: string)
    ensures forall i :: 0 <= i < |r| ==> Unreserved(r[i]) || r[i] == '+' || r[i] == '%'
  {
    if s == "" then "" else QuoteChar(s[0]) + QuotePlus(s[1..])
  }

  /** `unquote_plus(t)` for text whose escapes stand for ASCII bytes. */
  function UnquotePlus(t: string): string
  {
    if t == "" then ""
    else if t[0] == '%' && |t| >= 3 && IsHex(t[1]) && IsHex(t[2]) then
      [(HexValue(t[1]) * 16 + HexValue(t[2])) as char] + UnquotePlus(t[3..])
    else if t[0] == '+' then " " + UnquotePlus(t[1..])
    else [t[0]] + UnquotePlus(t[1..])
  }

  lemma {:induction false} UnquoteStep(c: char, rest: string)
    requires (c as int) < 128
    ensures UnquotePlus(QuoteChar(c) + rest) == [c] + UnquotePlus(rest)
  {
    var t := QuoteChar(c) + rest;
    if Unreserved(c) {
      assert t[1..] == rest;
    } else if c == ' ' {
      assert t[1..] == rest;
    } else {
      var n := c as int;
      assert QuoteChar(c) == Escapes([n]) by {
        assert Utf8(c) == [n];
      }
      EscapeStep(n, rest);
    }
  }

  /** `%XX` for an ASCII byte reads back as that character. */
  lemma {:induction false} EscapeStep(n: nat, rest: string)
    requires n < 128
    ensures UnquotePlus(Escapes([n]) + rest) == [n as char] + UnquotePlus(rest)
  {
    var e := ['%', HexDigit(n / 16), HexDigit(n % 16)];
    assert Escapes([n]) == e + Escapes([]);
    var t := e + rest;
    assert t[1] == HexDigit(n / 16) && t[2] == HexDigit(n % 16);
    assert t[3..] == rest;
    assert (n / 16) * 16 + n % 16 == n;
  }

  /** `unquote_plus` undoes `quote_plus` on ASCII text. */
  lemma {:induction false} QuoteRoundTrip(s: string)
    requires IsAscii(s)
    ensures UnquotePlus(QuotePlus(s)) == s
    decreases |s|
  {
    if s != "" {
      QuoteRoundTrip(s[1..]);
      UnquoteStep(s[0], QuotePlus(s[1..]));
      assert s == [s[0]] + s[1..];
    }
  }

  /** Text of unreserved characters is not escaped. */
  lemma {:induction false} QuoteKeepsUnreserved(s: string)
    requires AllUnreserved(s)
    ensures QuotePlus(s) == s
    decreases |s|
  {
    if s != "" {
      QuoteKeepsUnreserved(s[1..]);
      assert s == [s[0]] + s[1..];
    }
  }

  /** A dictionary as its (key, value) pairs in insertion order. */
  type Pairs = seq<(string, string)>

  predicate DistinctKeys(d: Pairs)
  {
    forall i, j :: 0 <= i < j < |d| ==> d[i].0 != d[j].0
  }

  /** `d[k] = v`: a key already present keeps its place and takes the new
      value; a new key goes last. */
  function Put(d: Pairs, k: string, v: string): (r: Pairs)
  {
    if d == [] then [(k, v)]
    else if d[0].0 == k then [(k, v)] + d[1..]
    else [d[0]] + Put(d[1..], k, v)
  }

  /** Storing a key keeps the keys distinct; an existing key is updated
      in place and a new one appended. */
  lemma {:induction false} PutMeaning(d: Pairs, k: string, v: string)
    requires DistinctKeys(d)
    ensures var r := Put(d, k, v);
      && DistinctKeys(r)
      && ((exists i :: 0 <= i < |d| && d[i].0 == k) ==>
            |r| == |d| && forall i :: 0 <= i < |d| ==> r[i] == (if d[i].0 == k then (k, v) else d[i]))
      && ((forall i :: 0 <= i < |d| ==> d[i].0 != k) ==> r == d + [(k, v)])
  {
    var r := Put(d, k, v);
    if exists i :: 0 <= i < |d| && d[i].0 == k {
      PutExisting(d, k, v);
      forall i, j | 0 <= i < j < |r| ensures r[i].0 != r[j].0 {
        assert r[i].0 == d[i].0 && r[j].0 == d[j].0;
      }
    } else {
      PutNew(d, k, v);
    }
  }

  /** Storing a key that is present replaces its value in place. */
  lemma {:induction false} PutExisting(d: Pairs, k: string, v: string)
    requires DistinctKeys(d) && exists i :: 0 <= i < |d| && d[i].0 == k
    ensures var r := Put(d, k, v);
      |r| == |d| && forall i :: 0 <= i < |d| ==> r[i] == (if d[i].0 == k then (k, v) else d[i])
    decreases |d|
  {
    var r := Put(d, k, v);
    if d[0].0 == k {
      assert r == [(k, v)] + d[1..];
      forall i | 0 < i < |d| ensures d[i].0 != k {
        assert d[0].0 != d[i].0;
      }
    } else {
      var i :| 0 <= i < |d| && d[i].0 == k;
      assert d[1..][i - 1].0 == k;
      PutExisting(d[1..], k, v);
      assert r == [d[0]] + Put(d[1..], k, v);
    }
  }

  /** Storing a key that is absent appends it. */
  lemma {:induction false} PutNew(d: Pairs, k: string, v: string)
    requires forall i :: 0 <= i < |d| ==> d[i].0 != k
    ensures Put(d, k, v) == d + [(k, v)]
    decreases |d|
  {
    if d != [] {
      assert forall i :: 0 <= i < |d| - 1 ==> d[1..][i] == d[i + 1];
      PutNew(d[1..], k, v);
      assert d == [d[0]] + d[1..];
    }
  }

  /** One round of the comprehension in `_random_query`: the indices of the
      key and of the value drawn. */
  datatype Pick = Pick(key: nat, value: nat)

  predicate PicksIn(picks: seq<Pick>, keys: nat)
  {
    forall j :: 0 <= j < |picks| ==> picks[j].key < keys && picks[j].value < |QueryValues|
  }

  /** The dict comprehension of `_random_query`, round by round. */
  function Dict(keys: seq<string>, picks: seq<Pick>): Pairs
    requires PicksIn(picks, |keys|)
  {
    if picks == [] then []
    else
      var p := picks[|picks| - 1];
      Put(Dict(keys, picks[..|picks| - 1]), keys[p.key], QueryValues[p.value])
  }

  /** `k: v` comes from round `j` and no later round drew `k`. */
  predicate LastDrawn(keys: seq<string>, picks: seq<Pick>, k: string, v: string)
    requires PicksIn(picks, |keys|)
  {
    exists j :: 0 <= j < |picks| && keys[picks[j].key] == k && QueryValues[picks[j].value] == v
      && forall l :: j < l < |picks| ==> keys[picks[l].key] != k
  }

  /** The entry at `i` after storing `k`: the new value where the key is
      `k`, the old entry elsewhere. */
  lemma {:induction false} PutAt(d: Pairs, k: string, v: string, i: nat)
    requires DistinctKeys(d) && i < |Put(d, k, v)|
    ensures Put(d, k, v)[i].0 == k ==> Put(d, k, v)[i].1 == v
    ensures Put(d, k, v)[i].0 != k ==> i < |d| && Put(d, k, v)[i] == d[i]
  {
    PutMeaning(d, k, v);
  }

  /** Storing keeps every key and adds `k`, at most one entry more. */
  lemma {:induction false} PutKeys(d: Pairs, k: string, v: string) returns (at: nat)
    requires DistinctKeys(d)
    ensures var r := Put(d, k, v);
      && DistinctKeys(r) && |d| <= |r| <= |d| + 1
      && (forall i :: 0 <= i < |d| ==> r[i].0 == d[i].0)
      && at < |r| && r[at].0 == k
  {
    PutMeaning(d, k, v);
    var r := Put(d, k, v);
    if i :| 0 <= i < |d| && d[i].0 == k {
      at := i;
    } else {
      at := |d|;
    }
  }

  /** The last round and the rounds before it. */
  lemma {:induction false} DictStep(keys: seq<string>, picks: seq<Pick>)
    requires PicksIn(picks, |keys|) && picks != []
    ensures var init := picks[..|picks| - 1];
      var p := picks[|picks| - 1];
      && PicksIn(init, |keys|)
      && Dict(keys, picks) == Put(Dict(keys, init), keys[p.key], QueryValues[p.value])
  {
  }

  /** The dictionary has distinct keys and at least one, at most as many
      entries as rounds; every key drawn is in it. */
  lemma {:induction false} DictKeys(keys: seq<string>, picks: seq<Pick>)
    requires PicksIn(picks, |keys|)
    ensures var d := Dict(keys, picks);
      && DistinctKeys(d) && |d| <= |picks| && (|picks| > 0 ==> |d| > 0)
      && (forall j :: 0 <= j < |picks| ==> exists i :: 0 <= i < |d| && d[i].0 == keys[picks[j].key])
    decreases |picks|
  {
    if picks != [] {
      var init := picks[..|picks| - 1];
      var p := picks[|picks| - 1];
      DictStep(keys, picks);
      DictKeys(keys, init);
      var e := Dict(keys, init);
      var d := Dict(keys, picks);
      var at := PutKeys(e, keys[p.key], QueryValues[p.value]);
      forall j | 0 <= j < |picks| ensures exists i :: 0 <= i < |d| && d[i].0 == keys[picks[j].key] {
        if j < |init| {
          assert picks[j] == init[j];
          var i :| 0 <= i < |e| && e[i].0 == keys[init[j].key];
          assert d[i].0 == e[i].0;
        } else {
          assert d[at].0 == keys[picks[j].key];
        }
      }
    }
  }

  /** A pair last drawn before one more round that draws another key is
      still the last drawn. */
  lemma {:induction false} LastDrawnKept(keys: seq<string>, init: seq<Pick>, p: Pick, k: string, v: string)
    requires PicksIn(init, |keys|) && PicksIn(init + [p], |keys|) && p.key < |keys| && LastDrawn(keys, init, k, v) && keys[p.key] != k
    ensures LastDrawn(keys, init + [p], k, v)
  {
    var picks := init + [p];
    var j :| 0 <= j < |init| && keys[init[j].key] == k && QueryValues[init[j].value] == v
      && forall l :: j < l < |init| ==> keys[init[l].key] != k;
    assert picks[j] == init[j];
    forall l | j < l < |picks| ensures keys[picks[l].key] != k {
      if l < |init| {
        assert picks[l] == init[l];
      }
    }
  }

  /** Each entry holds the value of the last round that drew its key. */
  lemma {:induction false} DictValues(keys: seq<string>, picks: seq<Pick>)
    requires PicksIn(picks, |keys|)
    ensures var d := Dict(keys, picks);
      forall i :: 0 <= i < |d| ==> LastDrawn(keys, picks, d[i].0, d[i].1)
    decreases |picks|
  {
    if picks != [] {
      var init := picks[..|picks| - 1];
      var p := picks[|picks| - 1];
      var k := keys[p.key];
      var v := QueryValues[p.value];
      DictStep(keys, picks);
      DictValues(keys, init);
      DictKeys(keys, init);
      assert picks == init + [p];
      var e := Dict(keys, init);
      var d := Dict(keys, picks);
      forall i | 0 <= i < |d| ensures LastDrawn(keys, picks, d[i].0, d[i].1) {
        PutAt(e, k, v, i);
        if d[i].0 == k {
          assert picks[|picks| - 1] == p;
        } else {
          LastDrawnKept(keys, init, p, d[i].0, d[i].1);
        }
      }
    }
  }

  /** What the dictionary holds: distinct keys, one entry per key drawn,
      each with the value of the last round that drew it. */
  lemma {:induction false} DictMeaning(keys: seq<string>, picks: seq<Pick>)
    requires PicksIn(picks, |keys|)
    ensures var d := Dict(keys, picks);
      && DistinctKeys(d) && |d| <= |picks| && (|picks| > 0 ==> |d| > 0)
      && (forall i :: 0 <= i < |d| ==> LastDrawn(keys, picks, d[i].0, d[i].1))
      && (forall j :: 0 <= j < |picks| ==> exists i :: 0 <= i < |d| && d[i].0 == keys[picks[j].key])
  {
    DictKeys(keys, picks);
    DictValues(keys, picks);
  }

  /** `k=v` for each pair, both escaped. */
  function EncodedPairs(d: Pairs): (r: seq<string>)
    ensures |r| == |d|
  {
    seq(|d|, i requires 0 <= i < |d| => QuotePlus(d[i].0) + "=" + QuotePlus(d[i].1))
  }

  /** `urlencode(d)`. */
  function UrlEncode(d: Pairs): string
  {
    Join(EncodedPairs(d), "&")
  }

  /** `_random_query(keys)`: "?" and the encoded dictionary. */
  function RandomQuery(keys: seq<string>, picks: seq<Pick>): string
    requires PicksIn(picks, |keys|)
  {
    "?" + UrlEncode(Dict(keys, picks))
  }

  // ---------------------------------------------------------------------
  // generate_valid_url

  /** The draws of one `generate_valid_url` call. */
  datatype ValidDraw = ValidDraw(domain: nat, subdomain: nat, path: nat, picks: seq<Pick>)

  /** What `random` can give: indices within their lists and one to three
      rounds in the query. */
  predicate ValidDrawn(d: ValidDraw)
  {
    && d.domain < |SafeDomains| && d.subdomain < |ValidSubdomains| && d.path < |SafePaths|
    && 1 <= |d.picks| <= 3 && PicksIn(d.picks, |SafeQueryKeys|)
  }

  function ValidUrl(d: ValidDraw): string
    requires ValidDrawn(d)
  {
    "https://" + ValidSubdomains[d.subdomain] + SafeDomains[d.domain] + SafePaths[d.path]
      + RandomQuery(SafeQueryKeys, d.picks)
  }

  /** The pairs as `k=v` without escaping. */
  function RawPairs(d: Pairs): (r: seq<string>)
    ensures |r| == |d|
  {
    seq(|d|, i requires 0 <= i < |d| => d[i].0 + "=" + d[i].1)
  }

  lemma {:induction false} SafeWordsUnreserved()
    ensures forall i :: 0 <= i < |SafeQueryKeys| ==> AllUnreserved(SafeQueryKeys[i])
    ensures forall i :: 0 <= i < |QueryValues| ==> AllUnreserved(QueryValues[i])
  {
    assert AllUnreserved("utm_source") && AllUnreserved("ref") && AllUnreserved("id");
    assert AllUnreserved("lang") && AllUnreserved("theme");
    assert AllUnreserved("google") && AllUnreserved("newsletter") && AllUnreserved("42");
    assert AllUnreserved("en") && AllUnreserved("dark");
  }

  /** A dictionary of safe words is encoded without any escape. */
  lemma {:induction false} SafeQueryPlain(picks: seq<Pick>)
    requires PicksIn(picks, |SafeQueryKeys|)
    ensures var d := Dict(SafeQueryKeys, picks);
      && EncodedPairs(d) == RawPairs(d)
      && forall i :: 0 <= i < |d| ==> AllUnreserved(d[i].0) && AllUnreserved(d[i].1)
  {
    var d := Dict(SafeQueryKeys, picks);
    SafeDictUnreserved(picks, d);
    PlainPairs(d);
  }

  /** Every key and value of a dictionary of safe words is unreserved. */
  lemma {:induction false} SafeDictUnreserved(picks: seq<Pick>, d: Pairs)
    requires PicksIn(picks, |SafeQueryKeys|) && d == Dict(SafeQueryKeys, picks)
    ensures forall i :: 0 <= i < |d| ==> AllUnreserved(d[i].0) && AllUnreserved(d[i].1)
  {
    DictWords(SafeQueryKeys, picks, d);
    SafeWordsUnreserved();
    forall i | 0 <= i < |d| ensures AllUnreserved(d[i].0) && AllUnreserved(d[i].1) {
      var a :| 0 <= a < |SafeQueryKeys| && SafeQueryKeys[a] == d[i].0;
      var b :| 0 <= b < |QueryValues| && QueryValues[b] == d[i].1;
    }
  }

  /** Every key of a drawn dictionary is one of `keys` and every value one
      of the listed values. */
  lemma {:induction false} DictWords(keys: seq<string>, picks: seq<Pick>, d: Pairs)
    requires PicksIn(picks, |keys|) && d == Dict(keys, picks)
    ensures forall i :: 0 <= i < |d| ==> d[i].0 in keys && d[i].1 in QueryValues
  {
    DictValues(keys, picks);
    forall i | 0 <= i < |d| ensures d[i].0 in keys && d[i].1 in QueryValues {
      assert LastDrawn(keys, picks, d[i].0, d[i].1);
      var j :| 0 <= j < |picks| && keys[picks[j].key] == d[i].0 && QueryValues[picks[j].value] == d[i].1;
    }
  }

  /** Pairs of unreserved words are encoded as they are. */
  lemma {:induction false} PlainPairs(d: Pairs)
    requires forall i :: 0 <= i < |d| ==> AllUnreserved(d[i].0) && AllUnreserved(d[i].1)
    ensures EncodedPairs(d) == RawPairs(d)
  {
    forall i | 0 <= i < |d| ensures EncodedPairs(d)[i] == RawPairs(d)[i] {
      QuoteKeepsUnreserved(d[i].0);
      QuoteKeepsUnreserved(d[i].1);
    }
  }

  /** A valid URL is "https://", a listed subdomain, a listed domain, a
      listed path and "?" followed by one to three distinct listed keys,
      each with a listed value, written as `k=v` joined by "&" with no
      escapes; splitting the query at "&" gives the pairs back. */
  lemma {:induction false} ValidUrlShape(d: ValidDraw)
    requires ValidDrawn(d)
    ensures var q := Dict(SafeQueryKeys, d.picks);
      && ValidUrl(d) == "https://" + ValidSubdomains[d.subdomain] + SafeDomains[d.domain] + SafePaths[d.path]
           + "?" + Join(RawPairs(q), "&")
      && 1 <= |q| <= 3 && DistinctKeys(q)
      && (forall i :: 0 <= i < |q| ==> q[i].0 in SafeQueryKeys && q[i].1 in QueryValues)
      && Split(Join(RawPairs(q), "&"), '&') == RawPairs(q)
  {
    var q := Dict(SafeQueryKeys, d.picks);
    DictMeaning(SafeQueryKeys, d.picks);
    DictWords(SafeQueryKeys, d.picks, q);
    SafeDictUnreserved(d.picks, q);
    RawPairsPlain(q);
    SplitJoin(RawPairs(q), '&');
    ValidUrlText(d, q);
  }

  /** With safe words, the query of a valid URL is its raw pairs. */
  lemma {:induction false} ValidUrlText(d: ValidDraw, q: Pairs)
    requires ValidDrawn(d) && q == Dict(SafeQueryKeys, d.picks)
    requires forall i :: 0 <= i < |q| ==> AllUnreserved(q[i].0) && AllUnreserved(q[i].1)
    ensures ValidUrl(d) == "https://" + ValidSubdomains[d.subdomain] + SafeDomains[d.domain] + SafePaths[d.path]
      + "?" + Join(RawPairs(q), "&")
  {
    PlainPairs(q);
    var pre := "https://" + ValidSubdomains[d.subdomain] + SafeDomains[d.domain] + SafePaths[d.path];
    Assoc(pre, "?", Join(RawPairs(q), "&"));
  }

  lemma {:induction false} Assoc(a: string, b: string, c: string)
    ensures a + (b + c) == a + b + c
  {
  }

  /** Pairs of unreserved text hold no "&" once written as `k=v`. */
  lemma {:induction false} RawPairsPlain(d: Pairs)
    requires forall i :: 0 <= i < |d| ==> AllUnreserved(d[i].0) && AllUnreserved(d[i].1)
    ensures forall i :: 0 <= i < |d| ==> '&' !in RawPairs(d)[i]
  {
    forall i, c | 0 <= i < |d| && 0 <= c < |RawPairs(d)[i]| ensures RawPairs(d)[i][c] != '&' {
      var r := RawPairs(d)[i];
      assert r == d[i].0 + "=" + d[i].1;
      if c < |d[i].0| {
        assert r[c] == d[i].0[c];
      } else if c > |d[i].0| {
        assert r[c] == d[i].1[c - |d[i].0| - 1];
      }
    }
  }

  // ---------------------------------------------------------------------
  // generate_invalid_url

  /** The draws of one `generate_invalid_url` call: `ip` is the outcome of
      `random.random() < 0.33`, `junk` the drawn characters when
      `random.random() < 0.5` held. */
  datatype InvalidDraw = InvalidDraw(scheme: nat, ip: bool, octets: seq<int>, domain: nat, tld: nat,
                                     subdomain: nat, payload: nat, junk: Option<seq<nat>>,
                                     key: nat, value: nat)

  predicate InvalidDrawn(d: InvalidDraw)
  {
    && d.scheme < |Schemes| && d.subdomain < |InvalidSubdomains| && d.payload < |PathPayloads|
    && d.key < |InvalidQueryKeys| && d.value < |QueryPayloads|
    && (d.ip ==> |d.octets| == 4 && forall i :: 0 <= i < 4 ==> 1 <= d.octets[i] <= 255)
    && (!d.ip ==> d.domain < |SuspiciousDomains| && d.tld < |SuspiciousTlds|)
    && (d.junk.Some? ==> 10 <= |d.junk.value| <= 100 && forall i :: 0 <= i < |d.junk.value| ==> d.junk.value[i] < 62)
  }

  /** `str(n)` for each octet. */
  function OctetTexts(octets: seq<int>): (r: seq<string>)
    requires forall i :: 0 <= i < |octets| ==> octets[i] >= 0
    ensures |r| == |octets|
  {
    seq(|octets|, i requires 0 <= i < |octets| => NatToString(octets[i]))
  }

  function Host(d: InvalidDraw): string
    requires InvalidDrawn(d)
  {
    if d.ip then Join(OctetTexts(d.octets), ".")
    else SuspiciousDomains[d.domain] + SuspiciousTlds[d.tld]
  }

  function InvalidPath(d: InvalidDraw): string
    requires InvalidDrawn(d)
  {
    var path := "/" + Strip(PathPayloads[d.payload]);
    if d.junk.Some? then path + "/" + AlnumText(d.junk.value) else path
  }

  function InvalidQuery(d: InvalidDraw): string
    requires InvalidDrawn(d)
  {
    "?" + UrlEncode([(InvalidQueryKeys[d.key], QueryPayloads[d.value])])
  }

  function InvalidUrl(d: InvalidDraw): string
    requires InvalidDrawn(d)
  {
    Schemes[d.scheme] + "://" + (InvalidSubdomains[d.subdomain] + Host(d) + InvalidPath(d) + InvalidQuery(d))
  }

  lemma {:induction false} SchemePrefix(scheme: string, rest: string)
    requires scheme in Schemes
    ensures IsPrefix("http://", scheme + "://" + rest) || IsPrefix("https://", scheme + "://" + rest)
  {
    var u := scheme + "://" + rest;
    assert u[..|scheme| + 3] == scheme + "://";
  }

  /** The scheme is http or https. */
  lemma {:induction false} InvalidScheme(d: InvalidDraw)
    requires InvalidDrawn(d)
    ensures IsPrefix("http://", InvalidUrl(d)) || IsPrefix("https://", InvalidUrl(d))
  {
    SchemePrefix(Schemes[d.scheme], InvalidSubdomains[d.subdomain] + Host(d) + InvalidPath(d) + InvalidQuery(d));
  }

  /** Dotted decimal text reads back, piece by piece, as the numbers it
      was written from. */
  lemma {:induction false} OctetsReadBack(octets: seq<int>)
    requires |octets| >= 1 && forall i :: 0 <= i < |octets| ==> octets[i] >= 0
    ensures var parts := Split(Join(OctetTexts(octets), "."), '.');
      |parts| == |octets| && forall i :: 0 <= i < |octets| ==> DigitsValue(parts[i]) == octets[i]
  {
    var texts := OctetTexts(octets);
    forall i | 0 <= i < |octets| ensures '.' !in texts[i] && DigitsValue(texts[i]) == octets[i] {
      DigitsValueOfNat(octets[i]);
    }
    SplitJoin(texts, '.');
  }

  /** An IP host reads back as four decimal numbers from 1 to 255. */
  lemma {:induction false} IpHostReadsBack(d: InvalidDraw)
    requires InvalidDrawn(d) && d.ip
    ensures var parts := Split(Host(d), '.');
      |parts| == 4 && forall i :: 0 <= i < 4 ==> 1 <= DigitsValue(parts[i]) <= 255
  {
    OctetsReadBack(d.octets);
  }

  /** Each suspicious domain word is dot-free; each suspicious TLD is a dot
      and a dot-free word. */
  lemma {:induction false} SuspiciousWordsDotless()
    ensures forall i :: 0 <= i < |SuspiciousDomains| ==> '.' !in SuspiciousDomains[i]
    ensures forall i :: 0 <= i < |SuspiciousTlds| ==>
      |SuspiciousTlds[i]| >= 2 && SuspiciousTlds[i][0] == '.' && '.' !in SuspiciousTlds[i][1..]
  {
  }

  /** A named host splits at its one dot into the drawn domain word and
      the drawn TLD. */
  lemma {:induction false} NamedHostReadsBack(d: InvalidDraw)
    requires InvalidDrawn(d) && !d.ip
    ensures Split(Host(d), '.') == [SuspiciousDomains[d.domain], SuspiciousTlds[d.tld][1..]]
  {
    SuspiciousWordsDotless();
    var w := SuspiciousDomains[d.domain];
    var t := SuspiciousTlds[d.tld];
    var parts := [w, t[1..]];
    JoinCons(w, [t[1..]], ".");
    assert [w] + [t[1..]] == parts;
    assert t == "." + t[1..];
    assert Join(parts, ".") == Host(d);
    SplitJoin(parts, '.');
  }

  /** The optional junk is the last piece of the path: after its last
      '/' come 10 to 100 letters and digits. */
  lemma {:induction false} JunkLast(d: InvalidDraw)
    requires InvalidDrawn(d) && d.junk.Some?
    ensures var p := InvalidPath(d);
      var k := LastIndexOf(p, '/');
      && k.Some? && 10 <= |p[k.value + 1..]| <= 100
      && forall i :: k.value + 1 <= i < |p| ==> IsAlnum(p[i])
  {
    var front := "/" + Strip(PathPayloads[d.payload]);
    var junk := AlnumText(d.junk.value);
    assert InvalidPath(d) == front + "/" + junk;
    AlnumTail(front, junk);
  }

  /** After a '/' and letters and digits, the last '/' is that one. */
  lemma {:induction false} AlnumTail(front: string, junk: string)
    requires forall i :: 0 <= i < |junk| ==> IsAlnum(junk[i])
    ensures var p := front + "/" + junk;
      var k := LastIndexOf(p, '/');
      && k == Some(|front|) && p[k.value + 1..] == junk
  {
    assert '/' !in junk by {
      forall i | 0 <= i < |junk| ensures junk[i] != '/' {
        assert IsAlnum(junk[i]);
      }
    }
    LastAfter(front, '/', junk);
    var p := front + "/" + junk;
    assert p[|front| + 1..] == junk;
  }

  /** The keys of the suspicious query need no escape. */
  lemma {:induction false} InvalidKeysPlain()
    ensures forall i :: 0 <= i < |InvalidQueryKeys| ==> AllUnreserved(InvalidQueryKeys[i])
  {
    assert AllUnreserved("q") && AllUnreserved("search") && AllUnreserved("input") && AllUnreserved("url");
  }

  /** A one-pair dictionary with a plain key encodes as `k=` and the
      escaped value, with no "&" and no "?", splitting at "=" into the
      two. */
  lemma {:induction false} OnePair(k: string, v: string)
    requires AllUnreserved(k)
    ensures var body := UrlEncode([(k, v)]);
      && body == k + "=" + QuotePlus(v)
      && Split(body, '&') == [body]
      && Split(body, '=') == [k, QuotePlus(v)]
      && '?' !in body
  {
    var enc := QuotePlus(v);
    QuoteKeepsUnreserved(k);
    assert EncodedPairs([(k, v)]) == [k + "=" + enc];
    var body := k + "=" + enc;
    PairAvoids(k, enc);
    SplitJoin([k, enc], '=');
    JoinCons(k, [enc], "=");
    SplitJoin([body], '&');
  }

  /** `k=v` with an unreserved key and an escaped value holds no "&" and
      no "?", and its key holds no "=". */
  lemma {:induction false} PairAvoids(k: string, enc: string)
    requires AllUnreserved(k)
    requires forall i :: 0 <= i < |enc| ==> Unreserved(enc[i]) || enc[i] == '+' || enc[i] == '%'
    ensures var body := k + "=" + enc; '&' !in body && '?' !in body && '=' !in k
  {
    var body := k + "=" + enc;
    forall i | 0 <= i < |body| ensures body[i] != '&' && body[i] != '?' {
      if i < |k| {
        assert body[i] == k[i] && Unreserved(k[i]);
      } else if i > |k| {
        assert body[i] == enc[i - |k| - 1];
      }
    }
    forall i | 0 <= i < |k| ensures k[i] != '=' {
      assert Unreserved(k[i]);
    }
  }

  /** The query holds exactly one pair: after "?" there is no "&" and no
      further "?", and the text splits at "=" into a listed key and the
      escaped payload, which `unquote_plus` turns back into the payload
      when it is ASCII. */
  lemma {:induction false} OneQueryKey(d: InvalidDraw)
    requires InvalidDrawn(d)
    ensures var q := InvalidQuery(d);
      var k := InvalidQueryKeys[d.key];
      var enc := QuotePlus(QueryPayloads[d.value]);
      && q == "?" + k + "=" + enc
      && Split(q[1..], '&') == [q[1..]]
      && Split(q[1..], '=') == [k, enc]
      && '?' !in q[1..]
      && (IsAscii(QueryPayloads[d.value]) ==> UnquotePlus(enc) == QueryPayloads[d.value])
  {
    var k := InvalidQueryKeys[d.key];
    var v := QueryPayloads[d.value];
    InvalidKeysPlain();
    OnePair(k, v);
    var body := UrlEncode([(k, v)]);
    assert ("?" + body)[1..] == body;
    Assoc("?", k, "=" + QuotePlus(v));
    Assoc("?" + k, "=", QuotePlus(v));
    Assoc(k, "=", QuotePlus(v));
    if IsAscii(v) {
      QuoteRoundTrip(v);
    }
  }
}

=== FILE: url_security.dfy ===
/** The proxy's side of the URL check (proxy/UrlSecurity.c): it captures the
    checker script's standard output with `fgets` into a 2048-byte buffer,
    pulls the `KEY: value` lines out of it with `extract_value`, and fills
    the `url_security_result_t` record in place. The record fails open: it
    starts out safe and only a RESULT line whose value is a non-zero
    integer marks the URL as unsafe. C strings are sequences of bytes; here
    each byte is a `char` below 256, and no captured byte is NUL. */
module UrlSecurity {
  import opened StrUtil

  /** `char output[2048]`: the captured text stays strictly shorter. */
  const OutputSize: nat := 2048
  /** `char buffer[1024]`: one `fgets` call reads at most 1023 bytes. */
  const ReadSize: nat := 1024
  /** `char search_pattern[128]`. */
  const PatternSize: nat := 128
  /** `char html[4096]`. */
  const PageSize: nat := 4096

  // ---------------------------------------------------------------------
  // extract_value

  /** `snprintf(search_pattern, 128, "%s: ", key)`. */
  function Pattern(key: string): (r: string)
    ensures |r| < PatternSize
    ensures |key| + 2 < PatternSize ==> r == key + ": "
  {
    Truncate(key + ": ", PatternSize - 1)
  }

  /** The length of the first line of `s`: up to `strchr(s, '\n')`, or the
      whole of `s` when it holds no newline. */
  function LineLength(s: string): (n: nat)
    ensures n <= |s| && '\n' !in s[..n]
    ensures n < |s| ==> s[n] == '\n'
  {
    match IndexOf(s, '\n')
    case None => assert s[..|s|] == s; |s|
    case Some(k) => k
  }

  /** What `extract_value` copies for a line that matched: the bytes after
      the pattern up to the end of the line, at most `size - 1` of them,
      and nothing when the pattern ran past the end of the line. */
  function ValueOf(s: string, pattern: string, size: nat): (v: string)
    requires size >= 1
    ensures |v| < size && '\n' !in v
  {
    var end := LineLength(s);
    if |pattern| <= end then
      assert forall i :: 0 <= i < end - |pattern| ==> s[|pattern|..end][i] == s[..end][|pattern| + i];
      Truncate(s[|pattern|..end], size - 1)
    else ""
  }

  /** The line-by-line scan of `extract_value`: the value of the first line
      at which the pattern starts (compared against the rest of the
      output, as `strncmp` does), or None. */
  function Scan(s: string, pattern: string, size: nat): (r: Option<string>)
    requires size >= 1
    decreases |s|
  {
    if s == "" then None
    else if IsPrefix(pattern, s) then Some(ValueOf(s, pattern, size))
    else
      var n := LineLength(s);
      if n < |s| then Scan(s[n + 1..], pattern, size) else None
  }

  /** `extract_value(output, key, buffer, size)`: Some(buffer) when it
      returns 1, None when it returns 0. */
  function Extract(output: string, key: string, size: nat): Option<string>
    requires size >= 1
  {
    Scan(output, Pattern(key), size)
  }

  /** `p` is where a line of `s` starts. */
  predicate LineStart(s: string, p: nat)
  {
    p == 0 || (0 < p <= |s| && s[p - 1] == '\n')
  }

  /** A line of `s` starts at `p` and the pattern starts there. */
  predicate KeyLine(s: string, pattern: string, p: nat)
  {
    LineStart(s, p) && p < |s| && IsPrefix(pattern, s[p..])
  }

  /** `p` is the first line of `s` at which the pattern starts. */
  predicate FirstKeyLine(s: string, pattern: string, p: nat)
  {
    KeyLine(s, pattern, p) && forall q :: 0 <= q < p ==> !KeyLine(s, pattern, q)
  }

  /** No line starts inside the first line of `s`. */
  lemma {:induction false} InsideFirstLine(s: string, p: nat)
    requires 0 < p <= LineLength(s)
    ensures !LineStart(s, p)
  {
    assert s[..LineLength(s)][p - 1] == s[p - 1];
  }

  /** Past the first line, the lines of `s` are those of the rest. */
  lemma {:induction false} ShiftKeyLine(s: string, pattern: string, p: nat)
    requires LineLength(s) < |s| && LineLength(s) + 1 <= p
    ensures var t := s[LineLength(s) + 1..];
      (KeyLine(s, pattern, p) <==> KeyLine(t, pattern, p - LineLength(s) - 1))
      && (p <= |s| ==> s[p..] == t[p - LineLength(s) - 1..])
  {
    var n := LineLength(s);
    var t := s[n + 1..];
    if p <= |s| {
      SliceShift(s, n + 1, p);
    }
    if p == n + 1 {
      assert LineStart(s, p) && LineStart(t, 0);
    } else if p <= |s| {
      assert s[p - 1] == t[p - n - 2];
    }
  }

  /** A shorter slice from the same start is a prefix of the longer one. */
  lemma {:induction false} SlicePrefix(s: string, a: nat, b: nat, c: nat)
    requires a <= b <= c <= |s|
    ensures s[a..b] == s[a..c][..b - a]
  {
  }

  /** A suffix of a suffix is a suffix. */
  lemma {:induction false} SliceShift(s: string, m: nat, p: nat)
    requires m <= p <= |s|
    ensures s[p..] == s[m..][p - m..]
  {
  }

  /** The scan finds nothing exactly when no line starts with the pattern. */
  lemma {:induction false} ScanNone(s: string, pattern: string, size: nat)
    requires size >= 1
    ensures Scan(s, pattern, size).None? <==> forall p :: 0 <= p < |s| ==> !KeyLine(s, pattern, p)
    decreases |s|
  {
    if s == "" {
    } else if IsPrefix(pattern, s) {
      assert s[0..] == s;
      assert KeyLine(s, pattern, 0);
    } else {
      var n := LineLength(s);
      assert !KeyLine(s, pattern, 0) by { assert s[0..] == s; }
      forall p | 0 < p <= n {
        InsideFirstLine(s, p);
      }
      if n < |s| {
        var t := s[n + 1..];
        ScanNone(t, pattern, size);
        forall p | n + 1 <= p < |s| {
          ShiftKeyLine(s, pattern, p);
        }
        if !Scan(s, pattern, size).None? {
          var q :| 0 <= q < |t| && KeyLine(t, pattern, q);
          ShiftKeyLine(s, pattern, q + n + 1);
        }
      }
    }
  }

  /** When the scan finds a value, it is the value of the first line that
      starts with the pattern. */
  lemma {:induction false} ScanFirst(s: string, pattern: string, size: nat, p: nat)
    requires size >= 1 && p < |s| && FirstKeyLine(s, pattern, p)
    ensures Scan(s, pattern, size) == Some(ValueOf(s[p..], pattern, size))
    decreases |s|
  {
    if IsPrefix(pattern, s) {
      assert s[0..] == s;
      assert KeyLine(s, pattern, 0);
      assert p == 0;
    } else {
      var n := LineLength(s);
      PastFirstLine(s, pattern, p);
      var t, q := s[n + 1..], p - n - 1;
      assert q < |t| && s[p..] == t[q..];
      ScanMiss(s, pattern, size);
      assert Scan(s, pattern, size) == Scan(t, pattern, size);
      ScanFirst(t, pattern, size, q);
    }
  }

  /** A first key line past the first line of `s` is the first key line of
      the rest. */
  lemma {:induction false} PastFirstLine(s: string, pattern: string, p: nat)
    requires p < |s| && FirstKeyLine(s, pattern, p) && !IsPrefix(pattern, s)
    ensures LineLength(s) + 1 <= p
    ensures var n := LineLength(s);
      FirstKeyLine(s[n + 1..], pattern, p - n - 1) && s[p..] == s[n + 1..][p - n - 1..]
  {
    var n := LineLength(s);
    assert !KeyLine(s, pattern, 0) by { assert s[0..] == s; }
    if p <= n {
      InsideFirstLine(s, p);
    }
    var t := s[n + 1..];
    ShiftKeyLine(s, pattern, p);
    forall q | 0 <= q < p - n - 1
      ensures !KeyLine(t, pattern, q)
    {
      ShiftKeyLine(s, pattern, q + n + 1);
    }
  }

  /** A line that does not start with the pattern passes the scan on to
      the next line, or ends it when it is the last. */
  lemma {:induction false} ScanMiss(s: string, pattern: string, size: nat)
    requires size >= 1 && s != "" && !IsPrefix(pattern, s)
    ensures LineLength(s) < |s| ==> Scan(s, pattern, size) == Scan(s[LineLength(s) + 1..], pattern, size)
    ensures LineLength(s) == |s| ==> Scan(s, pattern, size) == None
  {
  }

  /** `extract_value`, step by step over the output's lines. */
  method ExtractValue(output: string, key: string, bufferSize: nat) returns (r: Option<string>)
    requires bufferSize >= 1
    ensures r == Extract(output, key, bufferSize)
  {
    var pattern := Pattern(key);
    var lineStart := 0;
    while lineStart < |output|
      invariant lineStart <= |output|
      invariant Scan(output[lineStart..], pattern, bufferSize) == Extract(output, key, bufferSize)
      decreases |output| - lineStart
    {
      var line := output[lineStart..];
      var lineEnd := lineStart + LineLength(line);
      if IsPrefix(pattern, line) {
        r := CopyValue(line, pattern, bufferSize);
        return;
      }
      ScanMiss(line, pattern, bufferSize);
      if lineEnd < |output| {
        SliceShift(output, lineStart, lineEnd + 1);
        lineStart := lineEnd + 1;
      } else {
        return None;
      }
    }
    return None;
  }

  /** The copy loop of `extract_value` for a line that matched. */
  method CopyValue(line: string, pattern: string, bufferSize: nat) returns (r: Option<string>)
    requires bufferSize >= 1 && line != "" && IsPrefix(pattern, line)
    ensures r == Some(ValueOf(line, pattern, bufferSize))
  {
    var lineEnd := LineLength(line);
    var valueStart := |pattern|;
    var value := "";
    while valueStart < lineEnd && |value| < bufferSize - 1
      invariant valueStart == |pattern| + |value| <= |line|
      invariant value == line[|pattern|..valueStart]
      invariant |value| <= bufferSize - 1
      invariant |pattern| <= lineEnd ==> valueStart <= lineEnd
      invariant |pattern| > lineEnd ==> value == ""
      decreases lineEnd - valueStart
    {
      value := value + [line[valueStart]];
      valueStart := valueStart + 1;
    }
    if |pattern| <= lineEnd {
      var rest := line[|pattern|..lineEnd];
      SlicePrefix(line, |pattern|, valueStart, lineEnd);
      if |rest| <= bufferSize - 1 {
        assert valueStart == lineEnd;
        assert value == rest;
      } else {
        assert |value| == bufferSize - 1;
      }
      assert value == Truncate(rest, bufferSize - 1);
    } else {
      assert value == "";
    }
    assert value == ValueOf(line, pattern, bufferSize);
    return Some(value);
  }

  // ---------------------------------------------------------------------
  // Reading the checker's output

  /** The concatenation of the chunks. */
  function Concat(chunks: seq<string>): (s: string)
  {
    if chunks == [] then "" else Concat(chunks[..|chunks| - 1]) + chunks[|chunks| - 1]
  }

  /** The text the read loop keeps: each chunk is appended only when the
      total stays below the 2048-byte buffer, otherwise it is dropped
      whole and reading goes on. */
  function Accumulated(chunks: seq<string>): (s: string)
    ensures |s| < OutputSize
  {
    if chunks == [] then ""
    else
      var before := Accumulated(chunks[..|chunks| - 1]);
      var chunk := chunks[|chunks| - 1];
      if |before| + |chunk| < OutputSize then before + chunk else before
  }

  /** The `fgets`/`strcat` loop over the chunks `fgets` returns. */
  method ReadOutput(chunks: seq<string>) returns (output: string)
    ensures output == Accumulated(chunks)
  {
    output := "";
    var k := 0;
    while k < |chunks|
      invariant k <= |chunks|
      invariant output == Accumulated(chunks[..k])
    {
      assert chunks[..k + 1][..k] == chunks[..k];
      if |output| + |chunks[k]| < OutputSize {
        output := output + chunks[k];
      }
      k := k + 1;
    }
    assert chunks[..k] == chunks;
  }

  /** The chunks successive `fgets(buffer, 1024, pipe)` calls return for the
      text `s`: each ends after a newline or after 1023 bytes. */
  function FgetsChunks(s: string): (chunks: seq<string>)
    ensures forall i :: 0 <= i < |chunks| ==> 0 < |chunks[i]| < ReadSize
    decreases |s|
  {
    if s == "" then []
    else
      var n := LineLength(s);
      var line := if n < |s| then n + 1 else n;
      var take := if line < ReadSize - 1 then line else ReadSize - 1;
      [s[..take]] + FgetsChunks(s[take..])
  }

  lemma {:induction false} ConcatCons(head: string, rest: seq<string>)
    ensures Concat([head] + rest) == head + Concat(rest)
    decreases |rest|
  {
    if rest == [] {
      assert [head] + rest == [head];
      assert [head][..0] == [];
    } else {
      var xs := [head] + rest;
      var init, last := rest[..|rest| - 1], rest[|rest| - 1];
      assert xs[..|xs| - 1] == [head] + init;
      assert xs[|xs| - 1] == last;
      ConcatCons(head, init);
      assert Concat(xs) == head + Concat(init) + last;
      assert Concat(rest) == Concat(init) + last;
    }
  }

  /** `fgets` loses nothing: the chunks put back together are the text. */
  lemma {:induction false} ChunksRejoin(s: string)
    ensures Concat(FgetsChunks(s)) == s
    decreases |s|
  {
    if s != "" {
      var chunks := FgetsChunks(s);
      var take := |chunks[0]|;
      assert chunks == [s[..take]] + FgetsChunks(s[take..]);
      ChunksRejoin(s[take..]);
      ConcatCons(s[..take], FgetsChunks(s[take..]));
      assert s[..take] + s[take..] == s;
    }
  }

  /** Output that fits the buffer is kept whole. */
  lemma {:induction false} ShortOutputKept(chunks: seq<string>)
    requires |Concat(chunks)| < OutputSize
    ensures Accumulated(chunks) == Concat(chunks)
    decreases |chunks|
  {
    if chunks != [] {
      ShortOutputKept(chunks[..|chunks| - 1]);
    }
  }

  /** The read loop captures any output shorter than 2048 bytes exactly. */
  lemma CapturedExactly(s: string)
    requires |s| < OutputSize
    ensures Accumulated(FgetsChunks(s)) == s
  {
    ChunksRejoin(s);
    ShortOutputKept(FgetsChunks(s));
  }

  // ---------------------------------------------------------------------
  // atoi

  /** The bytes C's `isspace` accepts. */
  predicate IsSpace(c: char)
  {
    c == ' ' || c == '\t' || c == '\n' || c == '\U{B}' || c == '\U{C}' || c == '\r'
  }

  /** The number of leading bytes of `s` that satisfy `isspace`. */
  function SpaceRun(s: string): (n: nat)
    ensures n <= |s| && forall i :: 0 <= i < n ==> IsSpace(s[i])
    ensures n < |s| ==> !IsSpace(s[n])
  {
    if s != "" && IsSpace(s[0]) then 1 + SpaceRun(s[1..]) else 0
  }

  /** The number of leading decimal digits of `s`. */
  function DigitRun(s: string): (n: nat)
    ensures n <= |s| && forall i :: 0 <= i < n ==> IsDigit(s[i])
    ensures n < |s| ==> !IsDigit(s[n])
  {
    if s != "" && IsDigit(s[0]) then 1 + DigitRun(s[1..]) else 0
  }

  /** `atoi(s)`: leading white space, an optional sign, then the leading
      digits (an overflow, undefined in C, is not modelled). */
  function Atoi(s: string): (r: int)
    ensures SpaceRun(s) == |s| ==> r == 0
    ensures SpaceRun(s) < |s| && s[SpaceRun(s)] != '-' && s[SpaceRun(s)] != '+' && !IsDigit(s[SpaceRun(s)]) ==> r == 0
    ensures r < 0 ==> SpaceRun(s) < |s| && s[SpaceRun(s)] == '-'
  {
    var t := s[SpaceRun(s)..];
    if t != "" && (t[0] == '-' || t[0] == '+') then
      var v: int := DigitsValue(t[1..][..DigitRun(t[1..])]);
      if t[0] == '-' then -v else v
    else DigitsValue(t[..DigitRun(t)])
  }

  lemma {:induction false} DigitRunAll(s: string)
    requires forall i :: 0 <= i < |s| ==> IsDigit(s[i])
    ensures DigitRun(s) == |s|
  {
    if s != "" {
      DigitRunAll(s[1..]);
    }
  }

  lemma DigitRunOfNat(n: nat)
    ensures DigitRun(NatToString(n)) == |NatToString(n)|
  {
    DigitRunAll(NatToString(n));
  }

  /** `atoi` reads back what Python's `str` printed for a natural number. */
  lemma AtoiReadsNat(n: nat)
    ensures Atoi(NatToString(n)) == n
  {
    var s := NatToString(n);
    assert SpaceRun(s) == 0 by { assert IsDigit(s[0]); }
    assert s[0..] == s;
    DigitRunOfNat(n);
    assert s[..|s|] == s;
    DigitsValueOfNat(n);
  }

  /** `atoi` reads back what Python's `str` printed for any integer. */
  lemma AtoiReadsInt(i: int)
    ensures Atoi(if i < 0 then "-" + NatToString(-i) else NatToString(i)) == i
  {
    if i < 0 {
      var s := "-" + NatToString(-i);
      assert SpaceRun(s) == 0;
      assert s[0..] == s && s[1..] == NatToString(-i);
      DigitRunOfNat(-i);
      assert s[1..][..|s[1..]|] == s[1..];
      DigitsValueOfNat(-i);
    } else {
      AtoiReadsNat(i);
    }
  }

  // ---------------------------------------------------------------------
  // check_url_security

  /** The contents of a `url_security_result_t`. */
  datatype Report = Report(isSafe: int, prediction: string, score: real, explanation: string, error: string)

  /** The record after `memset` and `is_safe = 1`. */
  const Cleared: Report := Report(1, "", 0.0, "", "")

  /** A field that was found with a non-empty value. */
  predicate Present(v: Option<string>)
  {
    v.Some? && v.value != ""
  }

  /** What `strncpy(field, value, size - 1)` on a cleared field leaves when
      the value was found and non-empty: a prefix of the value, cut to
      `size - 1` characters; otherwise the field stays empty. */
  predicate Copied(found: Option<string>, field: string, size: nat)
  {
    && |field| < size
    && (found.None? ==> field == "")
    && (found.Some? && |found.value| < size ==> field == found.value)
    && (Present(found) ==> IsPrefix(field, found.value))
    && (Present(found) && |found.value| >= size ==> |field| == size - 1)
  }

  /** The record `check_url_security` fills from what `extract_value`
      found for the five keys (None when a key was not found); `atof` is
      C's conversion of the SCORE text. Only a non-empty value replaces a
      cleared field. */
  function Fill(result: Option<string>, prediction: Option<string>, score: Option<string>,
                explanation: Option<string>, error: Option<string>, atof: string -> real): (r: Report)
    ensures r.isSafe == 0 || r.isSafe == 1
    ensures r.isSafe == 0 <==> result.Some? && Atoi(result.value) != 0
    ensures Copied(prediction, r.prediction, 64)
    ensures Copied(explanation, r.explanation, 256)
    ensures Copied(error, r.error, 256)
    ensures Present(score) ==> r.score == atof(score.value)
    ensures !Present(score) ==> r.score == 0.0
  {
    Report(
      if Present(result) && Atoi(result.value) != 0 then 0 else 1,
      if Present(prediction) then Truncate(prediction.value, 63) else "",
      if Present(score) then atof(score.value) else 0.0,
      if Present(explanation) then Truncate(explanation.value, 255) else "",
      if Present(error) then Truncate(error.value, 255) else "")
  }

  /** The record `check_url_security` fills from the captured output. */
  function Interpret(output: string, atof: string -> real): Report
  {
    Fill(Extract(output, "RESULT", 64), Extract(output, "PREDICTION", 64), Extract(output, "SCORE", 64),
         Extract(output, "EXPLANATION", 256), Extract(output, "ERROR", 256), atof)
  }

  /** The `url_security_result_t` the caller passes in and
      `check_url_security` fills. */
  class SecurityResult {
    var isSafe: int
    var prediction: string
    var score: real
    var explanation: string
    var error: string

    constructor ()
      ensures Value() == Cleared
    {
      isSafe := 1;
      prediction := "";
      score := 0.0;
      explanation := "";
      error := "";
    }

    function Value(): Report
      reads this
    {
      Report(isSafe, prediction, score, explanation, error)
    }

    /** The five `extract_value` calls on the captured output and the
        field updates that follow, into a freshly cleared record. */
    method Parse(output: string, atof: string -> real)
      requires Value() == Cleared
      modifies this
      ensures Value() == Interpret(output, atof)
    {
      var result := ExtractValue(output, "RESULT", 64);
      var prediction := ExtractValue(output, "PREDICTION", 64);
      var score := ExtractValue(output, "SCORE", 64);
      var explanation := ExtractValue(output, "EXPLANATION", 256);
      var error := ExtractValue(output, "ERROR", 256);
      if Present(result) {
        var value := Atoi(result.value);
        isSafe := if value == 0 then 1 else 0;
      }
      if Present(prediction) {
        this.prediction := Truncate(prediction.value, 63);
      }
      if Present(score) {
        this.score := atof(score.value);
      }
      if Present(explanation) {
        this.explanation := Truncate(explanation.value, 255);
      }
      if Present(error) {
        this.error := Truncate(error.value, 255);
      }
    }

    /** `strcpy(result->error, message)`. */
    method SetError(message: string)
      modifies this
      ensures Value() == old(Value()).(error := message)
    {
      error := message;
    }

    /** `memset(result, 0, ...)` followed by `result->is_safe = 1`. */
    method Clear()
      modifies this
      ensures Value() == Cleared
    {
      isSafe := 1;
      prediction := "";
      score := 0.0;
      explanation := "";
      error := "";
    }
  }

  /** The record `check_url_security` leaves for a non-NULL URL: an error
      when the script is missing or cannot be started, else what the
      captured output says. */
  function Filled(scriptExists: bool, pipeOpened: bool, chunks: seq<string>, atof: string -> real): (r: Report)
    ensures !scriptExists || !pipeOpened ==> r.isSafe == 1 && r.error != ""
  {
    if !scriptExists then Cleared.(error := "URL checker script not found")
    else if !pipeOpened then Cleared.(error := "Failed to execute URL checker")
    else Interpret(Accumulated(chunks), atof)
  }

  /** `check_url_security(url, result)`. A missing `url` or `result` is the
      C NULL pointer; `scriptExists` is the `stat` of the checker script,
      `pipeOpened` whether `popen` succeeded, and `chunks` what `fgets`
      returned from the pipe. */
  method CheckUrlSecurity(url: Option<string>, result: SecurityResult?, scriptExists: bool, pipeOpened: bool,
                          chunks: seq<string>, atof: string -> real) returns (status: int)
    modifies result
    ensures url.None? || result == null ==> status == -1
    ensures url.None? && result != null ==> result.Value() == old(result.Value())
    ensures url.Some? && result != null ==> status == (if scriptExists && pipeOpened then 0 else -1)
    ensures url.Some? && result != null ==> result.Value() == Filled(scriptExists, pipeOpened, chunks, atof)
  {
    if url.None? || result == null {
      return -1;
    }
    result.Clear();
    if !scriptExists {
      result.SetError("URL checker script not found");
      return -1;
    }
    if !pipeOpened {
      result.SetError("Failed to execute URL checker");
      return -1;
    }
    var output := ReadOutput(chunks);
    result.Parse(output, atof);
    status := 0;
  }

  /** The record fails open: without a RESULT line carrying a non-zero
      integer the URL stays safe, whatever else the output says. */
  lemma FailOpen(output: string, atof: string -> real)
    requires forall p :: 0 <= p < |output| ==> !KeyLine(output, "RESULT: ", p)
    ensures Interpret(output, atof).isSafe == 1
  {
    assert Pattern("RESULT") == "RESULT: ";
    ScanNone(output, "RESULT: ", 64);
  }

  // ---------------------------------------------------------------------
  // get_block_page_html

  /** The page up to the `%s` for the reason. The emoji in the heading is
      its four UTF-8 bytes. */
  const PageHead: string :=
    "<!DOCTYPE html><html><head><title>Access Blocked - Security Alert</title><style>"
    + "body { font-family: Arial, sans-serif; margin: 40px; background-color: #f5f5f5; }"
    + ".container { max-width: 600px; margin: 0 auto; background: white; padding: 30px; border-radius: 10px; box-shadow: 0 2px 10px rgba(0,0,0,0.1); }"
    + ".alert { background-color: #fff3cd; border: 1px solid #ffeaa7; color: #856404; padding: 15px; border-radius: 5px; margin: 20px 0; }"
    + ".danger { background-color: #f8d7da; border: 1px solid #f5c6cb; color: #721c24; padding: 15px; border-radius: 5px; margin: 20px 0; }"
    + "h1 { color: #dc3545; }"
    + ".details { background-color: #f8f9fa; padding: 15px; border-radius: 5px; margin: 20px 0; }"
    + "</style></head><body><div class='container'>"
    + "<h1>\U{F0}\U{9F}\U{9A}\U{AB} Access Blocked</h1>"
    + "<div class='danger'><strong>Security Alert:</strong> This request has been blocked by the proxy server's malware detection system.</div>"
    + "<div class='details'><h3>Block Reason:</h3><p>"

  /** The page after the reason. */
  const PageTail: string :=
    "</p></div><div class='alert'><strong>Note:</strong> This protection is provided by the integrated URL security middleware that analyzes URLs for potential threats including phishing, malware, and other malicious content.</div>"
    + "</div></body></html>"

  const DefaultReason: string := "Unknown threat detected"

  /** `snprintf` of the page into the 4096-byte buffer: at most 4095 bytes
      are kept. */
  function Page(head: string, text: string, tail: string): (page: string)
    ensures |page| < PageSize && IsPrefix(page, head + text + tail)
  {
    Truncate(head + text + tail, PageSize - 1)
  }

  /** `get_block_page_html(reason)`, a NULL reason being None. */
  function BlockPage(reason: Option<string>): string
  {
    Page(PageHead, if reason.Some? then reason.value else DefaultReason, PageTail)
  }

  /** The block page shows the given reason, or "Unknown threat detected"
      when there is none, between the page's head and tail. */
  lemma {:induction false} BlockPageReason(reason: Option<string>)
    requires reason.Some? ==> |PageHead| + |reason.value| + |PageTail| < PageSize
    ensures var text := if reason.Some? then reason.value else DefaultReason;
      && BlockPage(reason) == PageHead + text + PageTail
      && BlockPage(reason)[|PageHead|..|PageHead| + |text|] == text
  {
    var text := if reason.Some? then reason.value else DefaultReason;
    PageShowsText(PageHead, text, PageTail);
  }

  /** A reason that fits is shown whole, between the page's head and tail. */
  lemma {:induction false} PageShowsText(head: string, text: string, tail: string)
    requires |head| + |text| + |tail| < PageSize
    ensures Page(head, text, tail) == head + text + tail
    ensures Page(head, text, tail)[|head|..|head| + |text|] == text
  {
    assert (head + text + tail)[|head|..|head| + |text|] == text;
  }

  /** However long the text, the page opens with as much of the head as
      fits. */
  lemma {:induction false} PageKeepsHead(head: string, text: string, tail: string)
    requires |head| < PageSize
    ensures IsPrefix(head, Page(head, text, tail))
  {
    var full := head + text + tail;
    assert full[..|head|] == head;
    if |full| >= PageSize {
      assert Page(head, text, tail)[..|head|] == full[..|head|];
    }
  }
}

=== FILE: url_validator.dfy ===
/** The lexical rule engine `validate_url` (url_validator.py). The score is
    kept in integer hundredths: it starts at 100 and every signal subtracts
    a fixed weight (30, 20, 10 or 5) and appends one reason. URL parsing,
    domain splitting, `inet_aton`, Shannon entropy and the regular
    expressions that are not plain alternations of literals are inputs or
    oracles; each oracle is consulted only where a necessary condition
    for its answer already holds, so inputs that fail that condition get a
    concrete verdict. */
module UrlValidator {
  import opened StrUtil

  // ---------------------------------------------------------------------
  // Patterns and constant lists

  /** A pattern from the lists in url_validator.py:10-19, with its source
      text (which the reasons quote). A `Literal` is an alternation of plain
      strings and is decided here; for a `Regex` the `needs` are literals
      that every match contains (after ASCII lower-casing), and an oracle
      decides the rest. */
  datatype Pattern = Literal(raw: string, alts: seq<string>) | Regex(raw: string, needs: seq<string>)

  const SqlInjectionPatterns: seq<Pattern> := [
    Literal("(\\%27)|(')|(--)", ["%27", "'", "--"]),
    Literal("(\\%3D)|(=)", ["%3d", "="]),
    Literal("(\\%3B)|(;)", ["%3b", ";"]),
    Regex("(OR\\s+1=1)", ["or", "1=1"]),
    Regex("(UNION\\s+SELECT)", ["union", "select"]),
    Regex("(DROP\\s+TABLE)", ["drop", "table"])
  ]

  const XssPatterns: seq<Pattern> := [
    Regex("<script.*?>.*?</script.*?>", ["<script", ">", "</script"]),
    Regex("<.*?onerror=.*?>", ["<", "onerror=", ">"]),
    Regex("<svg.*?onload=.*?>", ["<svg", "onload=", ">"]),
    Literal("(document\\.cookie)", ["document.cookie"]),
    Regex("(alert\\s*\\()", ["alert", "("])
  ]

  const EncodedPayloadPatterns: seq<Pattern> := [
    Literal("(base64,)", ["base64,"]),
    Literal("(data:text/html)", ["data:text/html"]),
    Regex("(eval\\(.*\\))", ["eval(", ")"])
  ]

  /** The patterns tried on the path, and on each query item. */
  const PathPatterns: seq<Pattern> := SqlInjectionPatterns + XssPatterns
  const QueryPatterns: seq<Pattern> := SqlInjectionPatterns + XssPatterns + EncodedPayloadPatterns

  const SuspiciousTlds: seq<string> := [".ru", ".xyz", ".top", ".biz", ".click", ".gq", ".ml", ".tk", ".zip", ".country"]
  const SuspiciousDomains: seq<string> := ["ph1sh", "cl1ck", "0auth", "secure-login", "getrich", "malware", "update-your-password"]
  /** Substrings of a lower-cased query key that mark it as a redirect. */
  const RedirectKeys: seq<string> := ["redirect", "url", "next"]

  // ---------------------------------------------------------------------
  // Inputs

  /** One `parse_qs` item: a key and its values, in order. */
  datatype QueryItem = QueryItem(key: string, values: seq<string>)

  /** What `urlparse` and `tldextract` make of the URL. */
  datatype UrlParts = UrlParts(
    scheme: string,
    hostname: Option<string>,
    subdomain: string, domain: string, suffix: string,
    path: string,
    query: seq<QueryItem>)

  /** The library calls: whether `inet_aton` accepts a string, whether
      `calculate_entropy` exceeds 4.5, and whether a regular expression is
      found (case-insensitively) in a text. */
  datatype Oracles = Oracles(
    inetAton: string -> bool,
    entropyAbove: string -> bool,
    search: (string, string) -> bool)

  // ---------------------------------------------------------------------
  // The signals

  /** Some string of `subs` occurs in `text`. */
  predicate AnyIn(text: string, subs: seq<string>)
  {
    |subs| > 0 && (Contains(text, subs[0]) || AnyIn(text, subs[1..]))
  }

  /** Every string of `subs` occurs in `text`. */
  predicate AllIn(text: string, subs: seq<string>)
  {
    |subs| == 0 || (Contains(text, subs[0]) && AllIn(text, subs[1..]))
  }

  /** `re.search(pattern, text, re.IGNORECASE)` succeeds. */
  predicate Matches(p: Pattern, text: string, o: Oracles)
  {
    match p
    case Literal(_, alts) => AnyIn(Lower(text), alts)
    case Regex(raw, needs) => AllIn(Lower(text), needs) && o.search(raw, text)
  }

  /** The index of the first pattern of `pats` found in `text`. */
  function FirstMatch(pats: seq<Pattern>, text: string, o: Oracles): (r: Option<nat>)
    ensures r.Some? ==> r.value < |pats| && Matches(pats[r.value], text, o)
    ensures r.Some? ==> forall j :: 0 <= j < r.value ==> !Matches(pats[j], text, o)
    ensures r.None? ==> forall j :: 0 <= j < |pats| ==> !Matches(pats[j], text, o)
  {
    if pats == [] then None
    else if Matches(pats[0], text, o) then Some(0)
    else match FirstMatch(pats[1..], text, o)
      case None => None
      case Some(k) => Some(k + 1)
  }

  /** The characters of `s` without repeats, first occurrences first
      (`dict.fromkeys(list(text))`). */
  function Distinct(s: string): (r: string)
    ensures forall c :: c in r <==> c in s
    ensures forall i, j :: 0 <= i < j < |r| ==> r[i] != r[j]
    ensures |r| <= |s|
  {
    if s == [] then []
    else
      var u := Distinct(s[..|s| - 1]);
      if s[|s| - 1] in u then u else u + [s[|s| - 1]]
  }

  /** `is_ip_address`: `inet_aton` accepts nothing that does not start with
      a digit. */
  predicate IsIpAddress(h: string, o: Oracles)
  {
    |h| > 0 && IsDigit(h[0]) && o.inetAton(h)
  }

  /** `calculate_entropy(text) > 4.5`. The entropy of a text is at most the
      base-2 logarithm of its number of distinct characters, so it takes at
      least 23 of them to exceed 4.5 (2^4.5 < 23). */
  predicate HighEntropy(text: string, o: Oracles)
  {
    |Distinct(text)| >= 23 && o.entropyAbove(text)
  }

  /** Python's `s.strip(".")`: the slice of `s` between its leading and
      its trailing dots. */
  function StripDots(s: string): (r: string)
    ensures r == "" || (r[0] != '.' && r[|r| - 1] != '.')
    ensures SliceBetween(s, {'.'}, |s| - |StripLeft(s, {'.'})|, r)
  {
    StripWith(s, {'.'})
  }

  /** `full_domain` of url_validator.py:57. */
  function FullDomain(parts: UrlParts): string
  {
    StripDots(parts.subdomain + "." + parts.domain + "." + parts.suffix)
  }

  // ---------------------------------------------------------------------
  // The specification: the signals, in the order found

  /** One risk signal. Each subtracts its `Weight` and appends its
      `Reason`. */
  datatype Signal =
    | InsecureScheme
    | IpHost
    | SuspiciousTld(tld: string)
    | SuspiciousDomain
    | PathPattern(pattern: string)
    | LongPath
    | HighEntropyPath
    | QueryPattern(pattern: string)
    | SuspiciousRedirect
    | LongUrl
    | HighEntropyUrl
    | RedirectSegments

  /** The weight of a signal, in hundredths. */
  function Weight(s: Signal): (w: nat)
    ensures w == 5 || w == 10 || w == 20 || w == 30
  {
    match s
    case InsecureScheme => 10
    case IpHost => 30
    case SuspiciousTld(_) => 20
    case SuspiciousDomain => 20
    case PathPattern(_) => 20
    case LongPath => 10
    case HighEntropyPath => 10
    case QueryPattern(_) => 20
    case SuspiciousRedirect => 20
    case LongUrl => 10
    case HighEntropyUrl => 10
    case RedirectSegments => 5
  }

  /** The text appended to `reasons` for a signal. */
  function Reason(s: Signal): string
  {
    match s
    case InsecureScheme => "Insecure scheme (not HTTPS)"
    case IpHost => "IP address used instead of domain"
    case SuspiciousTld(tld) => "Suspicious top-level domain: " + tld
    case SuspiciousDomain => "Suspicious domain name pattern"
    case PathPattern(p) => "Suspicious path pattern matched: " + p
    case LongPath => "Path is unusually long"
    case HighEntropyPath => "High entropy path (possible obfuscation)"
    case QueryPattern(p) => "Suspicious query pattern: " + p
    case SuspiciousRedirect => "Suspicious redirection in query"
    case LongUrl => "Very long URL"
    case HighEntropyUrl => "High entropy URL"
    case RedirectSegments => "Multiple redirect-like segments (//)"
  }

  /** The sum of the weights. */
  function Total(ss: seq<Signal>): nat
  {
    if ss == [] then 0 else Total(ss[..|ss| - 1]) + Weight(ss[|ss| - 1])
  }

  function Reasons(ss: seq<Signal>): (r: seq<string>)
    ensures |r| == |ss|
  {
    if ss == [] then [] else Reasons(ss[..|ss| - 1]) + [Reason(ss[|ss| - 1])]
  }

  function If(c: bool, s: Signal): seq<Signal>
  {
    if c then [s] else []
  }

  /** The host tested by `is_ip_address`: `parsed.hostname or ""`. */
  function Host(parts: UrlParts): string
  {
    if parts.hostname.Some? then parts.hostname.value else ""
  }

  /** Section 1 of `validate_url`: the scheme. */
  function SchemeSignals(parts: UrlParts): seq<Signal>
  {
    If(parts.scheme != "https", InsecureScheme)
  }

  /** Section 2: host, top-level domain, domain keywords. */
  function DomainSignals(parts: UrlParts, o: Oracles): seq<Signal>
  {
    If(IsIpAddress(Host(parts), o), IpHost)
    + If("." + parts.suffix in SuspiciousTlds, SuspiciousTld("." + parts.suffix))
    + If(AnyIn(FullDomain(parts), SuspiciousDomains), SuspiciousDomain)
  }

  /** The source text of the first pattern of `pats` found in `text`. */
  function FirstRaw(pats: seq<Pattern>, text: string, o: Oracles): Option<string>
  {
    match FirstMatch(pats, text, o)
    case None => None
    case Some(i) => Some(pats[i].raw)
  }

  /** Section 3: the lower-cased path. */
  function PathSignals(parts: UrlParts, o: Oracles): seq<Signal>
  {
    var path := Lower(parts.path);
    var m := FirstRaw(PathPatterns, path, o);
    If(m.Some?, PathPattern(if m.Some? then m.value else ""))
    + If(|path| > 100, LongPath)
    + If(HighEntropy(path, o), HighEntropyPath)
  }

  /** The text tested for one query item: `key=` and the values joined by
      spaces. */
  function ItemText(item: QueryItem): string
  {
    item.key + "=" + Join(item.values, " ")
  }

  /** One signal per value that names a suspicious domain. */
  function RedirectSignals(values: seq<string>): seq<Signal>
  {
    if values == [] then []
    else RedirectSignals(values[..|values| - 1]) + If(AnyIn(values[|values| - 1], SuspiciousDomains), SuspiciousRedirect)
  }

  /** A key that contains "redirect", "url" or "next", ignoring case. */
  predicate RedirectKey(key: string)
  {
    AnyIn(Lower(key), RedirectKeys)
  }

  /** Section 4 for one item: the first matching pattern, then the
      redirect values when the key looks like a redirect. */
  function ItemSignals(item: QueryItem, o: Oracles): seq<Signal>
  {
    var m := FirstRaw(QueryPatterns, ItemText(item), o);
    If(m.Some?, QueryPattern(if m.Some? then m.value else ""))
    + (if RedirectKey(item.key) then RedirectSignals(item.values) else [])
  }

  function QuerySignals(items: seq<QueryItem>, o: Oracles): seq<Signal>
  {
    if items == [] then [] else QuerySignals(items[..|items| - 1], o) + ItemSignals(items[|items| - 1], o)
  }

  /** Section 5: the whole URL. */
  function StructureSignals(url: string, o: Oracles): seq<Signal>
  {
    If(|url| > 200, LongUrl)
    + If(HighEntropy(url, o), HighEntropyUrl)
    + If(Count(url, "//") > 2, RedirectSegments)
  }

  /** Every signal `validate_url` finds, in order. */
  function Signals(url: string, parts: UrlParts, o: Oracles): seq<Signal>
  {
    SchemeSignals(parts) + DomainSignals(parts, o) + PathSignals(parts, o)
    + QuerySignals(parts.query, o) + StructureSignals(url, o)
  }

  /** `round(max(min(score, 1.0), 0.0), 2)` in hundredths. */
  function Clamp(raw: int): (r: int)
    ensures 0 <= r <= 100
    ensures 0 <= raw <= 100 ==> r == raw
    ensures raw < 0 ==> r == 0
  {
    if raw < 0 then 0 else if raw > 100 then 100 else raw
  }

  /** The category of a final score in hundredths. */
  function Category(score: int): string
  {
    if score >= 85 then "SAFE" else if score >= 60 then "MODERATE RISK" else "DANGEROUS"
  }

  /** The dictionary `validate_url` returns; `score` in hundredths. */
  datatype Verdict = Verdict(url: string, score: int, category: string, reasons: seq<string>)

  // ---------------------------------------------------------------------
  // The rule engine

  lemma {:induction false} Step(ss: seq<Signal>, s: Signal)
    ensures Total(ss + [s]) == Total(ss) + Weight(s)
    ensures Reasons(ss + [s]) == Reasons(ss) + [Reason(s)]
  {
    assert (ss + [s])[..|ss|] == ss;
  }

  /** The `for pattern in ...: if re.search(...): ... break` loop: the
      index of the first pattern found. */
  method ScanPatterns(pats: seq<Pattern>, text: string, o: Oracles) returns (hit: Option<nat>)
    ensures hit == FirstMatch(pats, text, o)
  {
    hit := None;
    var i := 0;
    while i < |pats|
      invariant 0 <= i <= |pats|
      invariant forall j :: 0 <= j < i ==> !Matches(pats[j], text, o)
      decreases |pats| - i
    {
      if Matches(pats[i], text, o) {
        hit := Some(i);
        break;
      }
      i := i + 1;
    }
  }

  /** One signal applied: its weight subtracted, its reason appended. */
  method Deduct(score: int, reasons: seq<string>, ghost ss: seq<Signal>, s: Signal)
    returns (score': int, reasons': seq<string>, ghost ss': seq<Signal>)
    requires score == 100 - Total(ss) && reasons == Reasons(ss)
    ensures ss' == ss + [s]
    ensures score' == 100 - Total(ss') && reasons' == Reasons(ss')
  {
    score' := score - Weight(s);
    reasons' := reasons + [Reason(s)];
    ss' := ss + [s];
    Step(ss, s);
  }

  /** `if c: score -= weight; reasons.append(reason)` for one signal. */
  method Flag(c: bool, s: Signal, score: int, reasons: seq<string>, ghost ss: seq<Signal>)
    returns (score': int, reasons': seq<string>, ghost ss': seq<Signal>)
    requires score == 100 - Total(ss) && reasons == Reasons(ss)
    ensures ss' == ss + If(c, s)
    ensures score' == 100 - Total(ss') && reasons' == Reasons(ss')
  {
    if c {
      score', reasons', ss' := Deduct(score, reasons, ss, s);
    } else {
      score', reasons', ss' := score, reasons, ss;
      assert ss + [] == ss;
    }
  }

  /** The loop over the values of a redirect-like key. */
  method ScanRedirects(values: seq<string>, score0: int, reasons0: seq<string>, ghost ss0: seq<Signal>)
    returns (score: int, reasons: seq<string>, ghost ss: seq<Signal>)
    requires score0 == 100 - Total(ss0) && reasons0 == Reasons(ss0)
    ensures ss == ss0 + RedirectSignals(values)
    ensures score == 100 - Total(ss) && reasons == Reasons(ss)
  {
    score, reasons, ss := score0, reasons0, ss0;
    var i := 0;
    while i < |values|
      invariant 0 <= i <= |values|
      invariant ss == ss0 + RedirectSignals(values[..i])
      invariant score == 100 - Total(ss) && reasons == Reasons(ss)
      decreases |values| - i
    {
      assert values[..i + 1][..i] == values[..i];
      if AnyIn(values[i], SuspiciousDomains) {
        score, reasons, ss := Deduct(score, reasons, ss, SuspiciousRedirect);
      }
      i := i + 1;
    }
    assert values[..i] == values;
  }

  /** The body of the query loop for one item. */
  method ScanItem(item: QueryItem, o: Oracles, score0: int, reasons0: seq<string>, ghost ss0: seq<Signal>)
    returns (score: int, reasons: seq<string>, ghost ss: seq<Signal>)
    requires score0 == 100 - Total(ss0) && reasons0 == Reasons(ss0)
    ensures ss == ss0 + ItemSignals(item, o)
    ensures score == 100 - Total(ss) && reasons == Reasons(ss)
  {
    score, reasons, ss := score0, reasons0, ss0;
    var full := item.key + "=" + Join(item.values, " ");
    var hit := ScanPatterns(QueryPatterns, full, o);
    if hit.Some? {
      score, reasons, ss := Deduct(score, reasons, ss, QueryPattern(QueryPatterns[hit.value].raw));
    }
    ghost var first := If(hit.Some?, QueryPattern(if hit.Some? then QueryPatterns[hit.value].raw else ""));
    assert ss == ss0 + first;
    ghost var rest: seq<Signal> := [];
    if AnyIn(Lower(item.key), RedirectKeys) {
      score, reasons, ss := ScanRedirects(item.values, score, reasons, ss);
      rest := RedirectSignals(item.values);
    }
    assert ss == ss0 + first + rest;
    assert ItemText(item) == full;
    assert ItemSignals(item, o) == first + rest;
    AppendAssoc(ss0, first, rest);
  }

  /** The signals of a URL with no query whose path and structure are
      clean are those of its scheme and its domain. */
  lemma SchemeAndDomainOnly(url: string, parts: UrlParts, o: Oracles, a: seq<Signal>, b: seq<Signal>)
    requires SchemeSignals(parts) == a && DomainSignals(parts, o) == b
    requires PathSignals(parts, o) == [] && parts.query == [] && StructureSignals(url, o) == []
    ensures Signals(url, parts, o) == a + b
  {
    assert QuerySignals(parts.query, o) == [];
    EmptiesAfter(a + b);
  }

  lemma EmptiesAfter<T>(s: seq<T>)
    ensures s + [] + [] + [] == s
  {
  }

  lemma EmptyPrefix<T>(a: seq<T>)
    ensures [] + a == a
  {
  }

  lemma AppendAssoc<T>(a: seq<T>, b: seq<T>, c: seq<T>)
    ensures a + (b + c) == (a + b) + c
  {
  }

  lemma Assoc3<T>(s: seq<T>, a: seq<T>, b: seq<T>, c: seq<T>)
    ensures s + a + b + c == s + (a + b + c)
  {
  }

  lemma {:induction false} QuerySignalsStep(items: seq<QueryItem>, i: nat, o: Oracles)
    requires i < |items|
    ensures QuerySignals(items[..i + 1], o) == QuerySignals(items[..i], o) + ItemSignals(items[i], o)
  {
    assert items[..i + 1][..i] == items[..i];
  }

  /** The query section: the loop over the `parse_qs` items. */
  method ScanQuery(items: seq<QueryItem>, o: Oracles, score0: int, reasons0: seq<string>, ghost ss0: seq<Signal>)
    returns (score: int, reasons: seq<string>, ghost ss: seq<Signal>)
    requires score0 == 100 - Total(ss0) && reasons0 == Reasons(ss0)
    ensures ss == ss0 + QuerySignals(items, o)
    ensures score == 100 - Total(ss) && reasons == Reasons(ss)
  {
    score, reasons, ss := score0, reasons0, ss0;
    var i := 0;
    while i < |items|
      invariant 0 <= i <= |items|
      invariant ss == ss0 + QuerySignals(items[..i], o)
      invariant score == 100 - Total(ss) && reasons == Reasons(ss)
      decreases |items| - i
    {
      QuerySignalsStep(items, i, o);
      AppendAssoc(ss0, QuerySignals(items[..i], o), ItemSignals(items[i], o));
      score, reasons, ss := ScanItem(items[i], o, score, reasons, ss);
      i := i + 1;
    }
    assert items[..i] == items;
  }

  /** Section 2 of `validate_url`: host, top-level domain, domain
      keywords. */
  method ScanDomain(parts: UrlParts, o: Oracles, score0: int, reasons0: seq<string>, ghost ss0: seq<Signal>)
    returns (score: int, reasons: seq<string>, ghost ss: seq<Signal>)
    requires score0 == 100 - Total(ss0) && reasons0 == Reasons(ss0)
    ensures ss == ss0 + DomainSignals(parts, o)
    ensures score == 100 - Total(ss) && reasons == Reasons(ss)
  {
    var host := if parts.hostname.Some? then parts.hostname.value else "";
    var tld := "." + parts.suffix;
    ghost var s1, s2;
    score, reasons, s1 := Flag(IsIpAddress(host, o), IpHost, score0, reasons0, ss0);
    score, reasons, s2 := Flag(tld in SuspiciousTlds, SuspiciousTld(tld), score, reasons, s1);
    score, reasons, ss := Flag(AnyIn(FullDomain(parts), SuspiciousDomains), SuspiciousDomain, score, reasons, s2);
    Assoc3(ss0, If(IsIpAddress(host, o), IpHost), If(tld in SuspiciousTlds, SuspiciousTld(tld)),
           If(AnyIn(FullDomain(parts), SuspiciousDomains), SuspiciousDomain));
  }

  /** Section 3 of `validate_url`: the lower-cased path. */
  method ScanPath(parts: UrlParts, o: Oracles, score0: int, reasons0: seq<string>, ghost ss0: seq<Signal>)
    returns (score: int, reasons: seq<string>, ghost ss: seq<Signal>)
    requires score0 == 100 - Total(ss0) && reasons0 == Reasons(ss0)
    ensures ss == ss0 + PathSignals(parts, o)
    ensures score == 100 - Total(ss) && reasons == Reasons(ss)
  {
    var path := Lower(parts.path);
    var hit := ScanPatterns(PathPatterns, path, o);
    var raw := if hit.Some? then PathPatterns[hit.value].raw else "";
    ghost var s1, s2;
    score, reasons, s1 := Flag(hit.Some?, PathPattern(raw), score0, reasons0, ss0);
    score, reasons, s2 := Flag(|path| > 100, LongPath, score, reasons, s1);
    score, reasons, ss := Flag(HighEntropy(path, o), HighEntropyPath, score, reasons, s2);
    Assoc3(ss0, If(hit.Some?, PathPattern(raw)), If(|path| > 100, LongPath), If(HighEntropy(path, o), HighEntropyPath));
  }

  /** Section 5 of `validate_url`: the whole URL. */
  method ScanStructure(url: string, o: Oracles, score0: int, reasons0: seq<string>, ghost ss0: seq<Signal>)
    returns (score: int, reasons: seq<string>, ghost ss: seq<Signal>)
    requires score0 == 100 - Total(ss0) && reasons0 == Reasons(ss0)
    ensures ss == ss0 + StructureSignals(url, o)
    ensures score == 100 - Total(ss) && reasons == Reasons(ss)
  {
    ghost var s1, s2;
    score, reasons, s1 := Flag(|url| > 200, LongUrl, score0, reasons0, ss0);
    score, reasons, s2 := Flag(HighEntropy(url, o), HighEntropyUrl, score, reasons, s1);
    score, reasons, ss := Flag(Count(url, "//") > 2, RedirectSegments, score, reasons, s2);
    Assoc3(ss0, If(|url| > 200, LongUrl), If(HighEntropy(url, o), HighEntropyUrl), If(Count(url, "//") > 2, RedirectSegments));
  }

  /** Sections 1 to 3 of `validate_url`, from a score of 1.0 (100). */
  method ScanHead(parts: UrlParts, o: Oracles) returns (score: int, reasons: seq<string>, ghost ss: seq<Signal>)
    ensures ss == SchemeSignals(parts) + DomainSignals(parts, o) + PathSignals(parts, o)
    ensures score == 100 - Total(ss) && reasons == Reasons(ss)
  {
    score, reasons, ss := Flag(parts.scheme != "https", InsecureScheme, 100, [], []);
    EmptyPrefix(SchemeSignals(parts));
    score, reasons, ss := ScanDomain(parts, o, score, reasons, ss);
    score, reasons, ss := ScanPath(parts, o, score, reasons, ss);
  }

  /** Sections 1 to 5 of `validate_url`: every rule, in order. */
  method ScanAll(url: string, parts: UrlParts, o: Oracles) returns (score: int, reasons: seq<string>, ghost ss: seq<Signal>)
    ensures ss == Signals(url, parts, o)
    ensures score == 100 - Total(ss) && reasons == Reasons(ss)
  {
    score, reasons, ss := ScanHead(parts, o);
    score, reasons, ss := ScanQuery(parts.query, o, score, reasons, ss);
    score, reasons, ss := ScanStructure(url, o, score, reasons, ss);
  }

  /** `validate_url`: the URL is returned unchanged, the reasons are those
      of `Signals` in order, and the score is 100 less their weights,
      clamped to [0, 100]. */
  method ValidateUrl(url: string, parts: UrlParts, o: Oracles) returns (v: Verdict)
    ensures v.url == url
    ensures v.reasons == Reasons(Signals(url, parts, o))
    ensures v.score == Clamp(100 - Total(Signals(url, parts, o)))
    ensures v.category == Category(v.score)
  {
    var score, reasons, ss := ScanAll(url, parts, o);
    v := Finish(url, score, reasons);
  }

  /** The end of `validate_url`: clamp the score and name its category. */
  method Finish(url: string, score: int, reasons: seq<string>) returns (v: Verdict)
    ensures v == Verdict(url, Clamp(score), Category(Clamp(score)), reasons)
  {
    var s := if score > 100 then 100 else if score < 0 then 0 else score;
    var category := if s >= 85 then "SAFE" else if s >= 60 then "MODERATE RISK" else "DANGEROUS";
    v := Verdict(url, s, category, reasons);
  }

  // ---------------------------------------------------------------------
  // Properties of the rule engine

  /** The weights add up across concatenation. */
  lemma {:induction false} TotalAppend(a: seq<Signal>, b: seq<Signal>)
    ensures Total(a + b) == Total(a) + Total(b)
    decreases |b|
  {
    if b == [] {
      assert a + b == a;
    } else {
      var b' := b[..|b| - 1];
      assert a + b == (a + b') + [b[|b| - 1]];
      Step(a + b', b[|b| - 1]);
      Step(b', b[|b| - 1]);
      assert b' + [b[|b| - 1]] == b;
      TotalAppend(a, b');
    }
  }

  /** Only an empty list of signals weighs nothing. */
  lemma {:induction false} TotalZero(ss: seq<Signal>)
    ensures Total(ss) == 0 <==> ss == []
  {
    if ss != [] {
      assert Total(ss) >= Weight(ss[|ss| - 1]) > 0;
    }
  }

  /** A further signal never gives a higher score, nor a safer category. */
  lemma {:induction false} MoreSignalsNoSafer(ss: seq<Signal>, s: Signal)
    ensures Clamp(100 - Total(ss + [s])) <= Clamp(100 - Total(ss))
    ensures Clamp(100 - Total(ss)) > 0 ==> Clamp(100 - Total(ss + [s])) < Clamp(100 - Total(ss))
    ensures Rank(Category(Clamp(100 - Total(ss + [s])))) <= Rank(Category(Clamp(100 - Total(ss))))
  {
    Step(ss, s);
    CategoryMonotone(Clamp(100 - Total(ss + [s])), Clamp(100 - Total(ss)));
  }

  /** Safety rank of a category: DANGEROUS < MODERATE RISK < SAFE. */
  function Rank(category: string): nat
  {
    if category == "SAFE" then 2 else if category == "MODERATE RISK" then 1 else 0
  }

  /** A lower score never gets a safer category. */
  lemma CategoryMonotone(a: int, b: int)
    requires a <= b
    ensures Rank(Category(a)) <= Rank(Category(b))
  {
  }

  /** The query text always contains `=`, so every query item is flagged
      by the first or the second SQL injection pattern. */
  lemma {:induction false} QueryItemAlwaysFlagged(item: QueryItem, o: Oracles)
    ensures |ItemSignals(item, o)| >= 1
    ensures ItemSignals(item, o)[0] == QueryPattern("(\\%27)|(')|(--)")
         || ItemSignals(item, o)[0] == QueryPattern("(\\%3D)|(=)")
  {
    var text := ItemText(item);
    var low := Lower(text);
    var k := |item.key|;
    assert text[k] == '=';
    assert low[k..k + 1] == "=";
    ContainsAt(low, "=", k);
    assert AnyIn(low, ["="]);
    assert Matches(QueryPatterns[1], text, o);
    var m := FirstMatch(QueryPatterns, text, o);
    assert m.Some? && m.value <= 1;
  }

  /** A non-empty query always costs something: every item costs at least
      20 hundredths. */
  lemma {:induction false} QueryCost(items: seq<QueryItem>, o: Oracles)
    ensures Total(QuerySignals(items, o)) >= 20 * |items|
    ensures QuerySignals(items, o) == [] <==> items == []
    decreases |items|
  {
    if items != [] {
      var init := items[..|items| - 1];
      var last := ItemSignals(items[|items| - 1], o);
      QueryCost(init, o);
      ItemCost(items[|items| - 1], o);
      TotalAppend(QuerySignals(init, o), last);
      assert |QuerySignals(items, o)| == |QuerySignals(init, o)| + |last|;
    }
  }

  /** One query item costs at least 20 hundredths. */
  lemma {:induction false} ItemCost(item: QueryItem, o: Oracles)
    ensures Total(ItemSignals(item, o)) >= 20
  {
    var ss := ItemSignals(item, o);
    QueryItemAlwaysFlagged(item, o);
    assert ss == [ss[0]] + ss[1..];
    TotalAppend([ss[0]], ss[1..]);
    Step([], ss[0]);
    EmptyPrefix([ss[0]]);
  }

  /** The number of values that name a suspicious domain. */
  function Flagged(values: seq<string>): nat
  {
    if values == [] then 0
    else Flagged(values[..|values| - 1]) + (if AnyIn(values[|values| - 1], SuspiciousDomains) then 1 else 0)
  }

  /** A redirect-like key costs 20 for every value that names a suspicious
      domain, with no cap per key. */
  lemma {:induction false} RedirectUncapped(values: seq<string>)
    ensures |RedirectSignals(values)| == Flagged(values)
    ensures Total(RedirectSignals(values)) == 20 * Flagged(values)
    decreases |values|
  {
    if values != [] {
      var init := values[..|values| - 1];
      var v := values[|values| - 1];
      RedirectUncapped(init);
      TotalAppend(RedirectSignals(init), If(AnyIn(v, SuspiciousDomains), SuspiciousRedirect));
      if AnyIn(v, SuspiciousDomains) {
        Step([], SuspiciousRedirect);
      }
    }
  }

  /** The path gives at most one pattern signal, the first one in its list,
      and it gives one exactly when some pattern matches the lower-cased
      path, naming the first that does. */
  lemma {:induction false} PathPatternFirstWins(parts: UrlParts, o: Oracles)
    ensures var ps := PathSignals(parts, o);
      forall i :: 0 < i < |ps| ==> !ps[i].PathPattern?
    ensures var ps := PathSignals(parts, o);
      (|ps| > 0 && ps[0].PathPattern?) <==>
      exists j :: 0 <= j < |PathPatterns| && Matches(PathPatterns[j], Lower(parts.path), o)
    ensures var ps := PathSignals(parts, o);
      |ps| > 0 && ps[0].PathPattern? ==>
      exists j :: 0 <= j < |PathPatterns| && Matches(PathPatterns[j], Lower(parts.path), o)
        && ps[0].pattern == PathPatterns[j].raw
        && forall i :: 0 <= i < j ==> !Matches(PathPatterns[i], Lower(parts.path), o)
  {
    var m := FirstMatch(PathPatterns, Lower(parts.path), o);
    if m.Some? {
      assert Matches(PathPatterns[m.value], Lower(parts.path), o);
    }
  }

  /** The conditions under which `validate_url` finds nothing: an https
      scheme, a host that is not an IP address, no suspicious top-level
      domain or domain keyword, no pattern in the path, a path of at most
      100 characters without high entropy, no query, and a URL of at most
      200 characters without high entropy and with at most two "//". */
  predicate Unflagged(url: string, parts: UrlParts, o: Oracles)
  {
    && parts.scheme == "https"
    && !IsIpAddress(Host(parts), o)
    && "." + parts.suffix !in SuspiciousTlds
    && !AnyIn(FullDomain(parts), SuspiciousDomains)
    && FirstMatch(PathPatterns, Lower(parts.path), o).None?
    && |parts.path| <= 100
    && !HighEntropy(Lower(parts.path), o)
    && parts.query == []
    && |url| <= 200
    && !HighEntropy(url, o)
    && Count(url, "//") <= 2
  }

  /** The score is 1.0 (100) exactly when nothing is flagged, and then the
      category is SAFE and there are no reasons. */
  lemma {:induction false} PerfectScore(url: string, parts: UrlParts, o: Oracles)
    ensures Clamp(100 - Total(Signals(url, parts, o))) == 100 <==> Unflagged(url, parts, o)
    ensures Unflagged(url, parts, o) ==>
      Reasons(Signals(url, parts, o)) == [] && Category(100) == "SAFE"
  {
    var ss := Signals(url, parts, o);
    TotalZero(ss);
    QueryCost(parts.query, o);
    var a := SchemeSignals(parts);
    var b := DomainSignals(parts, o);
    var c := PathSignals(parts, o);
    var d := QuerySignals(parts.query, o);
    var e := StructureSignals(url, o);
    assert |ss| == |a| + |b| + |c| + |d| + |e|;
    assert ss == [] <==> a == [] && b == [] && c == [] && d == [] && e == [];
  }

  // ---------------------------------------------------------------------
  // Worked examples

  /** No pattern of the path list can match a lower-case text that lacks
      the characters `%'-=;<.` and the letters r and u. */
  lemma NoPathPattern(text: string, o: Oracles)
    requires Lower(text) == text
    requires '%' !in text && '\'' !in text && '-' !in text && '=' !in text && ';' !in text
    requires '<' !in text && '.' !in text && 'r' !in text && 'u' !in text
    ensures FirstMatch(PathPatterns, text, o).None?
  {
    forall j | 0 <= j < |PathPatterns|
      ensures !Matches(PathPatterns[j], text, o)
    {
      if j == 0 {
        AbsentChar(text, "%27", 0); AbsentChar(text, "'", 0); AbsentChar(text, "--", 0);
        AnyInOnly(text, ["%27", "'", "--"]);
      } else if j == 1 {
        AbsentChar(text, "%3d", 0); AbsentChar(text, "=", 0);
        AnyInOnly(text, ["%3d", "="]);
      } else if j == 2 {
        AbsentChar(text, "%3b", 0); AbsentChar(text, ";", 0);
        AnyInOnly(text, ["%3b", ";"]);
      } else if j == 9 {
        AbsentChar(text, "document.cookie", 8);
        AnyInOnly(text, ["document.cookie"]);
      } else {
        var needs := PathPatterns[j].needs;
        AbsentChar(text, needs[0], if j == 3 || j == 5 then 1 else if j == 10 then 3 else 0);
      }
    }
  }

  /** `AnyIn` is false when no string of the list occurs. */
  lemma {:induction false} AnyInOnly(text: string, subs: seq<string>)
    requires forall i :: 0 <= i < |subs| ==> !Contains(text, subs[i])
    ensures !AnyIn(text, subs)
    decreases |subs|
  {
    if |subs| > 0 {
      AnyInOnly(text, subs[1..]);
    }
  }

  /** A short lower-case path without those characters gives no signal. */
  lemma CleanPath(parts: UrlParts, o: Oracles)
    requires |parts.path| < 23 && Quiet(parts.path)
    ensures PathSignals(parts, o) == []
  {
    var t := parts.path;
    assert Lower(t) == t;
    NoPathPattern(t, o);
  }

  /** No upper-case letter and none of the characters `%'-=;<.ru`. */
  predicate Quiet(t: string)
  {
    forall i :: 0 <= i < |t| ==> !IsUpper(t[i]) && t[i] !in "%'-=;<.ru"
  }

  /** A URL `scheme://host/rest` of at most 200 characters, with no other
      slash and without high entropy, gives no structural signal. */
  lemma CleanStructure(url: string, o: Oracles, scheme: string, host: string, rest: string)
    requires url == scheme + "//" + host + "/" + rest
    requires '/' !in scheme && '/' !in host && '/' !in rest
    requires |url| <= 200 && !HighEntropy(url, o)
    ensures StructureSignals(url, o) == []
  {
    SlashesOf(scheme, host, rest);
    CountByChar(url, "//", '/');
    assert multiset("//")['/'] == 2;
  }

  /** A text drawn from fewer than 23 characters is never high-entropy:
      the entropy test is not even consulted. */
  lemma FewDistinct(text: string, alphabet: set<char>, o: Oracles)
    requires forall i :: 0 <= i < |text| ==> text[i] in alphabet
    requires |alphabet| < 23
    ensures !HighEntropy(text, o)
  {
    var r := Distinct(text);
    forall i | 0 <= i < |r|
      ensures r[i] in alphabet
    {
      assert r[i] in text;
    }
    NoRepeatsBound(r, alphabet);
  }

  /** A sequence without repeats drawn from a set is no longer than the
      set. */
  lemma {:induction false} NoRepeatsBound(r: string, alphabet: set<char>)
    requires forall i, j :: 0 <= i < j < |r| ==> r[i] != r[j]
    requires forall i :: 0 <= i < |r| ==> r[i] in alphabet
    ensures |r| <= |alphabet|
  {
    if r != [] {
      var c := r[|r| - 1];
      var rest := r[..|r| - 1];
      forall i | 0 <= i < |rest|
        ensures rest[i] in alphabet - {c}
      {
        assert rest[i] == r[i] != r[|r| - 1];
      }
      NoRepeatsBound(rest, alphabet - {c});
    }
  }

  /** `example.com` names no suspicious domain keyword. */
  lemma ExampleKeywords()
    ensures !AnyIn("example.com", SuspiciousDomains)
  {
    var d := "example.com";
    forall i | 0 <= i < |SuspiciousDomains|
      ensures !Contains(d, SuspiciousDomains[i])
    {
      // a digit, '-', 'g' or 'w' that "example.com" lacks
      var w := SuspiciousDomains[i];
      if i == 0 || i == 1 {
        assert w[2] == '1';
        AbsentChar(d, w, 2);
      } else if i == 3 || i == 6 {
        assert w[6] == '-';
        AbsentChar(d, w, 6);
      } else if i == 5 {
        assert w[3] == 'w';
        AbsentChar(d, w, 3);
      } else {
        assert w[0] == '0' || w[0] == 'g';
        AbsentChar(d, w, 0);
      }
    }
    AnyInOnly(d, SuspiciousDomains);
  }

  /** The domain section for a host whose full domain names no keyword
      and whose suffix is not listed: only the IP test remains. */
  lemma DomainOnlyIp(parts: UrlParts, o: Oracles, full: string)
    requires FullDomain(parts) == full && !AnyIn(full, SuspiciousDomains)
    requires "." + parts.suffix !in SuspiciousTlds
    ensures DomainSignals(parts, o) == If(IsIpAddress(Host(parts), o), IpHost)
  {
  }

  /** tldextract's parts of `example.com` join back to it. */
  lemma ExampleFullDomain(parts: UrlParts)
    requires parts.subdomain == "" && parts.domain == "example" && parts.suffix == "com"
    ensures FullDomain(parts) == "example.com"
  {
    assert "" + "." + "example" + "." + "com" == ".example.com";
    assert ".example.com" == "." + "example.com" + "";
    StripAround(".", "example.com", "", {'.'});
  }

  /** An IP host is all domain: the dots around it are stripped. */
  lemma IpFullDomain(parts: UrlParts)
    requires parts.subdomain == "" && parts.domain == "192.168.1.1" && parts.suffix == ""
    ensures FullDomain(parts) == "192.168.1.1"
  {
    assert "" + "." + "192.168.1.1" + "." + "" == ".192.168.1.1.";
    assert ".192.168.1.1." == "." + "192.168.1.1" + ".";
    StripAround(".", "192.168.1.1", ".", {'.'});
  }

  /** Neither `.com` nor an empty suffix is a suspicious TLD. */
  lemma ExampleTlds()
    ensures ".com" !in SuspiciousTlds && "." !in SuspiciousTlds
  {
    forall i | 0 <= i < |SuspiciousTlds|
      ensures SuspiciousTlds[i] != ".com" && SuspiciousTlds[i] != "."
    {
      assert |SuspiciousTlds[i]| != 4 || SuspiciousTlds[i][1] != 'c';
    }
  }

  /** The domain `example.com` gives no signal. */
  lemma ExampleDomain(parts: UrlParts, o: Oracles)
    requires parts.hostname == Some("example.com")
    requires parts.subdomain == "" && parts.domain == "example" && parts.suffix == "com"
    ensures DomainSignals(parts, o) == []
  {
    ExampleDomainClean(parts);
    assert !IsIpAddress(Host(parts), o);
    DomainOnlyIp(parts, o, FullDomain(parts));
  }

  /** Neither the keywords nor the TLD of `example.com` are suspicious. */
  lemma ExampleDomainClean(parts: UrlParts)
    requires parts.subdomain == "" && parts.domain == "example" && parts.suffix == "com"
    ensures !AnyIn(FullDomain(parts), SuspiciousDomains) && "." + parts.suffix !in SuspiciousTlds
  {
    ExampleFullDomain(parts);
    ExampleKeywords();
    ComTld(parts.suffix);
  }

  /** The TLD `.com` is not suspicious. */
  lemma ComTld(suffix: string)
    requires suffix == "com"
    ensures "." + suffix !in SuspiciousTlds
  {
    assert "." + suffix == ".com";
    ExampleTlds();
  }

  /** A dotted quad of digits names no suspicious domain keyword. */
  lemma IpKeywords()
    ensures !AnyIn("192.168.1.1", SuspiciousDomains)
  {
    var d := "192.168.1.1";
    forall i | 0 <= i < |SuspiciousDomains|
      ensures !Contains(d, SuspiciousDomains[i])
    {
      AbsentChar(d, SuspiciousDomains[i], 0);
    }
    AnyInOnly(d, SuspiciousDomains);
  }

  /** The host `192.168.1.1`, when `inet_aton` accepts it, costs 0.3 and
      nothing else. */
  lemma ExampleIpDomain(parts: UrlParts, o: Oracles)
    requires parts.hostname == Some("192.168.1.1") && o.inetAton("192.168.1.1")
    requires parts.subdomain == "" && parts.domain == "192.168.1.1" && parts.suffix == ""
    ensures DomainSignals(parts, o) == [IpHost]
  {
    IpDomainClean(parts);
    assert IsIpAddress(Host(parts), o);
    DomainOnlyIp(parts, o, FullDomain(parts));
  }

  /** Neither the keywords nor the (empty) TLD of `192.168.1.1` are
      suspicious. */
  lemma IpDomainClean(parts: UrlParts)
    requires parts.subdomain == "" && parts.domain == "192.168.1.1" && parts.suffix == ""
    ensures !AnyIn(FullDomain(parts), SuspiciousDomains) && "." + parts.suffix !in SuspiciousTlds
  {
    IpFullDomain(parts);
    IpKeywords();
    EmptyTld(parts.suffix);
  }

  /** An empty suffix gives the TLD `.`, which is not suspicious. */
  lemma EmptyTld(suffix: string)
    requires suffix == ""
    ensures "." + suffix !in SuspiciousTlds
  {
    assert "." + suffix == ".";
    ExampleTlds();
  }

  /** `https://example.com/home`, with the parts `urlparse` and
      `tldextract` give it. */
  const HomeUrl: string := "https:" + "//" + "example.com" + "/" + "home"
  const HomeParts: UrlParts := UrlParts("https", Some("example.com"), "", "example", "com", "/home", [])

  /** `http://192.168.1.1/admin`, with its parts. */
  const IpUrl: string := "http:" + "//" + "192.168.1.1" + "/" + "admin"
  const IpParts: UrlParts := UrlParts("http", Some("192.168.1.1"), "", "192.168.1.1", "", "/admin", [])

  /** A URL `scheme://host/rest` whose scheme, host and rest have no
      slash holds three. */
  lemma SlashesOf(scheme: string, host: string, rest: string)
    requires '/' !in scheme && '/' !in host && '/' !in rest
    ensures multiset(scheme + "//" + host + "/" + rest)['/'] == 3
  {
    assert multiset(scheme)['/'] == 0;
    assert multiset(host)['/'] == 0;
    assert multiset(rest)['/'] == 0;
  }

  lemma HomePathClean(o: Oracles)
    ensures PathSignals(HomeParts, o) == []
  {
    CleanPath(HomeParts, o);
  }

  lemma HomeStructureClean(o: Oracles)
    ensures StructureSignals(HomeUrl, o) == []
  {
    FewDistinct(HomeUrl, {'h', 't', 'p', 's', ':', '/', 'e', 'x', 'a', 'm', 'l', '.', 'c', 'o'}, o);
    CleanStructure(HomeUrl, o, "https:", "example.com", "home");
  }


  lemma IpPathClean(o: Oracles)
    ensures PathSignals(IpParts, o) == []
  {
    CleanPath(IpParts, o);
  }

  lemma IpStructureClean(o: Oracles)
    ensures StructureSignals(IpUrl, o) == []
  {
    FewDistinct(IpUrl, {'h', 't', 'p', ':', '/', '1', '9', '2', '.', '6', '8', 'a', 'd', 'm', 'i', 'n'}, o);
    CleanStructure(IpUrl, o, "http:", "192.168.1.1", "admin");
  }


  /** An insecure scheme and an IP host, and nothing else, leave 0.6:
      MODERATE RISK. */
  lemma InsecureIpScore(ss: seq<Signal>)
    requires ss == [InsecureScheme, IpHost]
    ensures Clamp(100 - Total(ss)) == 60 && Category(Clamp(100 - Total(ss))) == "MODERATE RISK"
    ensures Reasons(ss) == ["Insecure scheme (not HTTPS)", "IP address used instead of domain"]
  {
    Step([], InsecureScheme);
    assert [InsecureScheme] + [IpHost] == ss;
    Step([InsecureScheme], IpHost);
  }

  /** `validate_url("https://example.com/home")`: nothing is flagged, the
      score is 1.0 and the category SAFE. The URL uses 14 distinct
      characters, so no entropy test can flag it. */
  lemma ExampleSecureSite(o: Oracles)
    ensures Signals(HomeUrl, HomeParts, o) == []
    ensures Clamp(100 - Total(Signals(HomeUrl, HomeParts, o))) == 100
    ensures Category(Clamp(100 - Total(Signals(HomeUrl, HomeParts, o)))) == "SAFE"
  {
    HomeNoSignal(o);
  }

  /** No section flags `https://example.com/home`. */
  lemma HomeNoSignal(o: Oracles)
    ensures Signals(HomeUrl, HomeParts, o) == []
  {
    ExampleDomain(HomeParts, o);
    HomePathClean(o);
    HomeStructureClean(o);
    assert SchemeSignals(HomeParts) == [];
    SchemeAndDomainOnly(HomeUrl, HomeParts, o, [], []);
  }

  /** `validate_url("http://192.168.1.1/admin")`, with `inet_aton`
      accepting the host (the URL uses 16 distinct characters, so no
      entropy test can flag it): the insecure scheme and the IP host cost
      0.1 and 0.3, so the score is 0.6 and the category MODERATE RISK. */
  lemma ExampleIpHost(o: Oracles)
    requires o.inetAton("192.168.1.1")
    ensures Signals(IpUrl, IpParts, o) == [InsecureScheme, IpHost]
    ensures Category(Clamp(100 - Total(Signals(IpUrl, IpParts, o)))) == "MODERATE RISK"
  {
    IpSignals(o);
    InsecureIpScore([InsecureScheme, IpHost]);
  }

  /** `http://192.168.1.1/admin` is flagged for its scheme and its host
      only. */
  lemma IpSignals(o: Oracles)
    requires o.inetAton("192.168.1.1")
    ensures Signals(IpUrl, IpParts, o) == [InsecureScheme, IpHost]
  {
    ExampleIpDomain(IpParts, o);
    IpPathClean(o);
    IpStructureClean(o);
    SchemeAndDomainOnly(IpUrl, IpParts, o, [InsecureScheme], [IpHost]);
  }
}
